=== FILE: README.md ===
# Nexus interaction counters — a Dafny model

Nexus is a Go/Gin blog back end. Posts carry four counters: views, likes, favourites and comments. Likes and favourites are rows in two relation tables that pair a user with a post. Views are counted in Redis and moved into MySQL by a periodic flush. This project models that subsystem and the code around it:

- **Toggle.** Liking or favouriting a post reads whether the `(user, post)` row exists. Inside one transaction it then deletes the row and adds -1 to the counter, or inserts the row and adds +1.
- **Fast store.** Reading a post INCRs its view key and adds 10 to the post's score in the `nexus:posts:popular` sorted set. The same store holds the e-mail verification codes and the 60-second send cooldown.
- **Flush worker.** `SyncViewCountsToDB` SCANs the view keys page by page. It drains each key with GETSET "0", parses the post id out of the key and adds the drained delta to the post's `view_count`. It stops at the first durable-write failure.
- **Around it.**
  - The user flows: register, verify registration, login, reset password.
  - Tag find-or-create.
  - Post/comment ownership checks.
  - The HTTP handlers' parameter defaulting and record copying.
  - The avatar checks.
  - `Authorization: Bearer` parsing (section 2.1 of RFC 6750).
  - The error middleware, the response envelope, the error codes.
  - The random verification code.

Modelling approach:

- **Stateful code.** The durable store (`PostDao.PostStore`, `UserService.UserStore`, `TagDao.TagStore`) and Redis (`FastStore.Store`) are classes. Their fields hold maps, sets and sequences, and their methods state the whole new state.
- **Pure code.** Key formats, parsing, envelopes and errors are functions and lemmas.
- **Loops.** The source's loops are methods with invariants: the SCAN loop, the flush loop, `FindOrCreateTagsByNames`, `pow10`, the record-copying loops and the ranking order.
- **Go arithmetic.** `Wrap64` gives int64 wrap-around where the source computes in int64: the ZREVRANGE stop `limit-1`, the paging OFFSET `(page-1)*size`, `pow10` and the token lifetime. The 32-bit and 64-bit parses clamp as `strconv` does. The paging lemmas that read a page as rows (p−1)·size up to p·size assume `page*size` fits an int64; `PageOffsetWraps` shows what happens past it.
- **Ids.** The layers of the source snapshot do not agree on the type of a post id: `GetPost` passes a `uint` to `GetPostById(id string)` (internal/controller/post.go:81, internal/service/postService.go:22), and the service calls package-level `IncrementPostViewCount`/`IncrementPostRank` with a string where only `uint` methods on `RedisClient` exist (internal/service/postService.go:31-42, internal/dao/redis.go:71-83). The flush task uses a `RedisClient` package variable that is commented out (internal/dao/redis.go:18). The model uses one natural-number id throughout.
- **The view key.** The stateful path (reading a post, the flush) uses the corrected key `nexus:post:view:<decimal id>`. The key as written, `nexus:post:view:%!s(uint=<id>)`, is modelled beside it; see "## Findings".
- **Inputs that stand in for I/O.** I/O faults, random draws and SCAN replies are parameters.

## Model

| member | source | states |
|---|---|---|
| Strconv.Wrap64 | pkg/utils/code.go:35-41 | result is the int64 congruent to the input modulo 2^64; in-range values are unchanged |
| Strconv.FormatNat | internal/dao/redis.go:82 | decimal numeral of a natural: non-empty, digits only, leading '0' only for 0 |
| Strconv.FormatNatRoundTrip | internal/tasks/sync_tasks.go:64 | reading back the decimal numeral of n gives n |
| Strconv.FormatNatInjective | internal/dao/redis.go:82 | distinct ids have distinct numerals |
| Strconv.Power10 | internal/controller/post.go:51 | 10^n is positive |
| Strconv.Power10Monotone | internal/controller/post.go:51 | powers of ten grow with the exponent |
| Strconv.Power10At18 | pkg/utils/code.go:35-41 | 10^18 computed |
| Strconv.DigitsBelow | internal/controller/post.go:51 | k digits denote less than 10^k |
| Strconv.DigitsValueGrows | internal/controller/post.go:74 | more digits never denote less |
| Strconv.DigitPrefixLen | internal/controller/post.go:74 | the leading run of digits: all digits, and the next character (if any) is not one |
| Strconv.DigitPrefixAppend | internal/controller/post.go:74 | the leading run of digits-then-t is the digits plus the leading run of t |
| Strconv.ParseUintLoose | internal/controller/post.go:74 | ParseUint with its error dropped, on the leading run of digits: a run past the maximum gives the maximum whatever follows; otherwise any other character, or an empty string, gives 0; the result never exceeds the maximum |
| Strconv.ParseUintScan | internal/controller/post.go:74 | Go's base-10 loop: a non-digit gives 0, passing the maximum gives the maximum; never above the maximum |
| Strconv.ScanFrom | internal/controller/post.go:74 | the loop after a prefix of in-range digits agrees with the closed form |
| Strconv.ParseUintMatchesScan | internal/controller/post.go:74 | the closed form equals Go's loop on every input |
| Strconv.DigitsOnly | internal/controller/post.go:74 | a digit string within range parses to its value |
| Strconv.ParseUintFormatRoundTrip | internal/controller/post.go:74 | a written id not above the maximum is read back exactly |
| Strconv.ParseUintSyntaxError | internal/controller/post.go:74 | a non-digit met before the digits read so far exceed the maximum makes the parse 0 |
| Strconv.ParseUintOverflow | internal/controller/post.go:74 | digits already past the maximum give the maximum whatever follows |
| Strconv.AtoiLoose | internal/controller/post.go:51 | Atoi with its error dropped: an optional sign, then the 64-bit unsigned parse clamped to the int64 bound of the sign; always within int64 |
| Strconv.AtoiShortForm | internal/controller/post.go:51 | below 19 characters (Go's fast path): a sign, then only digits, else 0 |
| Strconv.ShortDigits | internal/controller/post.go:51 | up to 18 characters: digits read as their value (below 10^18), anything else as 0 |
| Strconv.AtoiFormatRoundTrip | internal/controller/post.go:51 | a written non-negative int64 is read back exactly |
| Strconv.AtoiFormatIntRoundTrip | internal/tasks/sync_tasks.go:52 | a written int64 (either sign) is read back exactly |
| Strconv.AtoiOverflow | internal/controller/post.go:51 | digits past the uint64 range read as MaxInt64, or MinInt64 after "-", whatever follows |
| Strconv.AtoiNegative | internal/controller/post.go:51 | after "-", Atoi is the negated unsigned parse clamped at MinInt64 |
| Strconv.Split | internal/tasks/sync_tasks.go:59 | strings.Split: at least one part, no part holds the separator, joining the parts gives the input back |
| Strconv.SplitNoSeparator | internal/tasks/sync_tasks.go:59-60 | a string without the separator splits into itself alone |
| Strconv.SplitAfterPart | internal/tasks/sync_tasks.go:59 | splitting `a + sep + b` yields `a` followed by the parts of `b` |
| Strconv.SplitUnique | internal/tasks/sync_tasks.go:59 | splitting the join of separator-free parts gives the parts back |
| Strconv.IndexOf | internal/middleware/jwt.go:34 | first index of a character, -1 exactly when absent |
| Strconv.SplitN2 | internal/middleware/jwt.go:34 | strings.SplitN(s, sep, 2): one part iff no separator; otherwise split at the first separator and rejoinable |
| Strconv.SplitN2Unique | internal/middleware/jwt.go:34-43 | a separator-free head followed by the separator splits as [head, rest] |
| Ranking.InsertByKey | internal/dao/redis.go:86-90 | insertion adds exactly the element (multiset) |
| Ranking.InsertKeepsOrder | internal/dao/redis.go:86-90 | insertion keeps the score order non-increasing |
| Ranking.InsertKeepsDistinct | internal/dao/redis.go:86-90 | insertion of a new member keeps members distinct |
| Ranking.SortByKey | internal/dao/redis.go:86-90 | the members of the set, each once, highest score first |
| Erru.Wrap | pkg/erru/error.go:27-34 | same code and message, wrapped error replaced by the argument |
| Erru.New | pkg/erru/error.go:38-44 | code 50001, the given message, nothing wrapped |
| Erru.AppErrorText | pkg/erru/error.go:13-19 | the text starts with the code/message header and is longer exactly when an error is wrapped, ending in its text |
| Erru.AsAppError | internal/middleware/error.go:23-25 | errors.As succeeds exactly for an application error and yields it |
| Erru.CodesDistinct | pkg/erru/code.go:4-27 | all codes pairwise distinct; OK is 0 and no other code is 0 |
| Erru.PredefinedErrors | pkg/erru/code.go:30-47 | each predefined error carries its own code, wraps nothing, and codes differ |
| Res.Respond | internal/res/response.go:15-21 | HTTP 200 whatever the code, carrying the code, message and data |
| Res.Ok | internal/res/response.go:23-25 | success (code 0) with the given data and message |
| Res.OkWithData | internal/res/response.go:27-29 | success with message "success" and the data |
| Res.OkWithMsg | internal/res/response.go:31-33 | success with the message and an empty map as data |
| Res.Fail | internal/res/response.go:35-37 | HTTP 200 with the given code, message and data |
| Res.FailWithAppErr | internal/res/response.go:39-41 | the error's code and message; data is the wrapped error, nil exactly when none |
| Res.FailWithMsg | internal/res/response.go:43-45 | code 1003, the message, nil data |
| Res.FailWithCode | internal/res/response.go:48-51 | the code, an empty message, nil data |
| Res.PredefinedFailuresAreFailures | internal/res/response.go:39-41 | every predefined error other than OK yields a failure envelope with nil data |
| Res.FailWithWrapped | internal/res/response.go:39-41 | a wrapped cause reaches the envelope's data |
| ErrorHandler.Handle | internal/middleware/error.go:13-41 | nothing written iff no error; the last error decides; an application error gives its code and message, any other gives 10001 and the internal-server message; data nil |
| ErrorHandler.OnlyLastErrorMatters | internal/middleware/error.go:19-21 | earlier recorded errors do not change the response |
| ErrorHandler.ForeignErrorHidden | internal/middleware/error.go:34-38 | a foreign error is reported as 10001 "服务器内部错误" |
| CommonMiddleware.StatusColor | internal/middleware/common.go:36-46 | green iff 2xx, blue iff 3xx, yellow iff 4xx, red otherwise |
| CommonMiddleware.FullPath | internal/middleware/common.go:48-52 | the path, extended exactly when the raw query is non-empty |
| CommonMiddleware.FullPathSplits | internal/middleware/common.go:48-52 | the logged path splits back into path and query at the first '?' |
| CommonMiddleware.Cors | internal/middleware/common.go:73-77 | OPTIONS, and only OPTIONS, is aborted with 204 |
| CommonMiddleware.Recovered | internal/middleware/common.go:84-90 | a recovered panic answers code 500, "服务器内部错误", nil data |
| JwtAuth.BearerToken | internal/middleware/jwt.go:33-43 | a token exists iff the header begins with "Bearer " (case-sensitive); it is everything after the first space |
| JwtAuth.ExtractToken | internal/middleware/jwt.go:26-43 | an empty or malformed header is ErrInvalidRequestHeader; otherwise the bearer token |
| JwtAuth.BearerSplits | internal/middleware/jwt.go:34-35 | the accepted header is exactly the two-part SplitN with "Bearer" first |
| JwtAuth.Authenticate | internal/middleware/jwt.go:24-69 | continues with the claims' user id iff the header is well-formed and the token valid; a bad header aborts with ErrInvalidRequestHeader, a bad token with ErrTokenInvalid |
| JwtAuth.ParseFailureCarriesCause | internal/middleware/jwt.go:50-55 | a parse failure aborts with the parser's error in the envelope data |
| JwtAuth.TokenHandedOverWhole | internal/middleware/jwt.go:43 | a token containing spaces is handed to the parser whole |
| JwtAuth.ExpiryOffset | internal/middleware/jwt.go:76 | the int64 duration 24 × setting hours |
| JwtAuth.ExpiryCountsDays | internal/middleware/jwt.go:76 | the setting counts days, not hours, while it fits int64 |
| JwtAuth.ExpiryWrapsNegative | internal/middleware/jwt.go:76 | a setting just past the int64 range wraps to a negative offset |
| JwtAuth.NumericDate | internal/middleware/jwt.go:76 | `NewNumericDate` keeps the whole second the instant falls in |
| JwtAuth.TokenClaims | internal/middleware/jwt.go:72-79 | the claims carry the user id, issuer "Nexus" and the expiry second of now + the offset; within range, of now + setting days |
| RandomCode.Pow10Int64 | pkg/utils/code.go:35-41 | repeated int64 multiplication stays in int64 |
| RandomCode.Pow10Exact | pkg/utils/code.go:35-41 | up to exponent 18 the int64 loop computes 10^n exactly |
| RandomCode.Pow10 | pkg/utils/code.go:35-41 | the loop returns the wrapped int64 product `Pow10Int64(n)` (exact by `Pow10Exact` for n ≤ 18) |
| RandomCode.EffectiveWidth | pkg/utils/code.go:12-14 | a width ≤ 0 becomes 6; others are kept |
| RandomCode.ZeroPad | pkg/utils/code.go:23-31 | left-padded with '0' to at least the width, ending in the numeral |
| RandomCode.Zeros | pkg/utils/code.go:23 | k zero characters |
| RandomCode.LeadingZeros | pkg/utils/code.go:23-31 | zero padding does not change the numeral's value |
| RandomCode.NumeralLength | pkg/utils/code.go:26-31 | a value below 10^k has at most k digits |
| RandomCode.Intn | pkg/utils/code.go:29 | `rand.Intn`: a value in [0, n); a draw already below n is returned as is |
| RandomCode.BoundExact | pkg/utils/code.go:26-29 | for w ≤ 18 the bound `pow10(w) - 1` handed to `rand.Intn` is exactly 10^w − 1, at least 9 |
| RandomCode.GenerateExact | pkg/utils/code.go:10-32 | the code is the draw reduced below 10^w − 1, padded to w |
| RandomCode.PadNumeral | pkg/utils/code.go:31 | zero-padding a numeral of at most w digits gives exactly w digits with the same value |
| RandomCode.PaddedNumeral | pkg/utils/code.go:31 | a value below 10^w pads to exactly w digits reading back as itself |
| RandomCode.CodeShape | pkg/utils/code.go:10-32 | the code has exactly w digits and a value in [0, 10^w − 1) |
| RandomCode.EveryValueReachable | pkg/utils/code.go:26-31 | every value below 10^w − 1 is a possible code |
| RandomCode.AllNinesNeverDrawn | pkg/utils/code.go:25-29 | the all-nines code is never produced (Intn's bound is exclusive) |
| RandomCode.Pow10Overflows | pkg/utils/code.go:35-41 | pow10(19) is negative |
| RandomCode.Width19Panics | pkg/utils/code.go:26-29 | width 19 gives a non-positive Intn bound: no code (Go panics) |
| FastStore.KeyFamilies | internal/dao/redis.go:55-60 | every key lives under "nexus:", and the key families never collide |
| FastStore.KeysInjective | internal/dao/redis.go:55-60 | each key family is injective in its e-mail or id |
| FastStore.RangeCount | internal/dao/redis.go:86-90 | number of members ZREVRANGE 0..stop returns, negative stops counted from the end |
| FastStore.PopularStop | internal/dao/redis.go:89 | limit−1 in int64: limit−1 in range, the largest int64 for the smallest |
| FastStore.PopularWindow | internal/dao/redis.go:86-90 | for an int64 limit: limit ≥ 1 returns min(limit, size) members; 0 returns the whole set; the smallest int64 wraps its stop and returns the whole set; a negative limit reaching past the front returns none |
| FastStore.Store.IncrementPostViewCount | internal/dao/redis.go:71-76 | an absent key counts as 0 and becomes old + 1; fails at the int64 maximum; nothing else changes |
| FastStore.Store.IncrementPostRank | internal/dao/redis.go:79-83 | the member's score grows by the increment (absent = 0); other members unchanged |
| FastStore.Store.GetPopularPostIDs | internal/dao/redis.go:86-90 | ZREVRANGE 0 (limit−1 wrapped in int64): as many distinct members as the range selects, in non-increasing score order, none left out scoring higher than one returned |
| FastStore.Store.GetSet | internal/dao/redis.go:67-69 | returns the previous value (none if absent) and sets the key |
| FastStore.Store.SetVerifyCode | internal/dao/redis.go:97-100 | the code is then read back for that e-mail; other e-mails unchanged |
| FastStore.Store.DelVerificationCode | internal/dao/redis.go:108-111 | the code is then absent for that e-mail; other e-mails unchanged |
| FastStore.Store.CheckSendCooldown | internal/dao/redis.go:114-124 | true iff the marker existed; afterwards the marker exists |
| FastStore.Store.Expire | internal/dao/redis.go:97-99 | an expiring key (code or cooldown) disappears; counters are untouched |
| TagDao.SortOrder | internal/dao/tag.go:26-33 | "name" gives name ascending; "post_count" and everything else give post count descending |
| TagDao.IndexOfName | internal/dao/tag.go:44 | the first tag with the name, -1 iff none |
| TagDao.Lookup | internal/dao/tag.go:44 | GORM `Where(Tag{Name})`: a found tag is in the table and carries the name; an empty name matches the first row, if any |
| TagDao.LookupByName | internal/dao/tag.go:44 | a non-empty name is found iff some tag carries it |
| TagDao.WellFormedPairwise | internal/dao/tag.go:42-48 | the table invariant read pairwise: ids ascend below the next id, names are unique |
| TagDao.AppendKeepsWellFormed | internal/dao/tag.go:44 | creating a tag with a fresh name keeps ids and names unique |
| TagDao.LookupFindsCreated | internal/dao/tag.go:44 | a created tag is found by its name afterwards |
| TagDao.LookupStable | internal/dao/tag.go:44 | a found name keeps finding the same row after rows are added |
| TagDao.FirstFault | internal/dao/tag.go:52-56 | the first failing index below n, or n: every index before it succeeds |
| TagDao.NoFault | internal/dao/tag.go:52-56 | no index below n fails iff the first failure is n |
| TagDao.AppendFindsAll | internal/dao/tag.go:44 | a row for a missing name keeps every earlier lookup and finds itself |
| TagDao.AppendAddsMissing | internal/dao/tag.go:44 | a fresh row for a name the base lacked keeps "added rows are missing names" |
| TagDao.FirstOrCreateGrows | internal/dao/tag.go:50-58 | one more FirstOrCreate keeps the table well formed, growing only by fresh rows for missing names, and every name finding its tag |
| TagDao.CreateAllAppendsMissing | internal/dao/tag.go:50-58 | FirstOrCreate of the first k names in turn: well formed, only grown, added rows are fresh ids for names the table lacked, each name finds its returned tag |
| TagDao.CreatePrefixSummary | internal/dao/tag.go:50-58 | after any prefix of the names the table only grew, by fresh rows for names it lacked, stays well formed, and is unchanged when every name existed |
| TagDao.CreateAllSummary | internal/dao/tag.go:50-59 | after all names: one tag per name, each in the table and carrying its non-empty name |
| TagDao.TagStore.FindOrCreateTagByName | internal/dao/tag.go:42-48 | on success the rows, next id and tag are FirstOrCreate's: the existing tag without change, otherwise one new row; a failure changes nothing |
| TagDao.TagStore.FindOrCreateTagsByNames | internal/dao/tag.go:50-60 | succeeds iff no call fails; the table is CreateAll of the names before the first failure, kept on failure; every added row is a fresh id holding one of the names that no row had; on success one tag per name in order, each in the table with its name; no creation when all names exist; the table stays well formed and only grows |
| PostDao.WithCounter | internal/dao/post.go:123-128 | sets one counter column, every other column and field kept |
| PostDao.Bump | internal/dao/post.go:123-128 | adds the amount to one column of one row; every other column and row unchanged |
| PostDao.BumpUndone | internal/dao/post.go:123-128 | adding then subtracting an amount restores the table |
| PostDao.MembersInsert | internal/dao/post.go:204-222 | inserting a new pair raises that post's row count by one and no other post's |
| PostDao.MembersDelete | internal/dao/post.go:188-201 | deleting a present pair lowers that post's row count by one and no other post's |
| PostDao.CommentIdsInsert | internal/dao/post.go:118-120 | a new comment raises its post's comment set by one and leaves the others |
| PostDao.CommentIdsRewrite | internal/dao/post.go:143-153 | rewriting a comment on the same post keeps every post's comment set |
| PostDao.MaxExists | internal/dao/post.go:36-38 | a non-empty id set has a greatest id |
| PostDao.MaxOf | internal/dao/post.go:36-38 | the greatest id |
| PostDao.Descending | internal/dao/post.go:36-38 | the listing order (by id, descending): the ids, each once, strictly decreasing |
| PostDao.Ascending | internal/dao/post.go:109-111 | ORDER BY id ASC: the ids, each once, strictly increasing |
| PostDao.PrependDescending | internal/dao/post.go:36-38 | a larger head keeps a list strictly descending |
| PostDao.AppendAscending | internal/dao/post.go:109-111 | a larger last element keeps a list strictly ascending |
| PostDao.WindowStart | internal/dao/post.go:36-38 | the OFFSET, clamped to the row count |
| PostDao.Window | internal/dao/post.go:36-38 | the rows a successful OFFSET/LIMIT query returns: a contiguous slice of at most `limit` rows, all rows from the offset on for a negative limit (reached only at a non-positive offset, since the listings fail on a bare OFFSET) |
| PostDao.WindowKeepsOrder | internal/dao/post.go:36-38 | a page keeps the listing's order |
| PostDao.NextPageContinues | internal/dao/post.go:36 | while (page+1)·size fits an int64, page p followed by page p+1 is the double-size window at page p |
| PostDao.Prefix | internal/dao/post.go:36-38 | the first n rows, or all when fewer |
| PostDao.WindowExtends | internal/dao/post.go:36-38 | the window at an offset continues the prefix up to that offset |
| PostDao.PageOffsetExact | internal/dao/post.go:36 | while page·size fits an int64 the OFFSET is (page−1)·size |
| PostDao.PageOffsetWraps | internal/dao/post.go:36 | page 2^61+1 of size 8 wraps to OFFSET 0 |
| PostDao.PageWindow | internal/dao/post.go:36-38 | without overflow, the OFFSET/LIMIT window is page p: rows (p−1)·size up to p·size |
| PostDao.PagesArePrefix | internal/dao/post.go:36-38 | while k·size fits an int64, the first k pages together are the first k·size rows |
| PostDao.MergeNonZero | internal/dao/post.go:82-92 | Updates(struct): a non-empty title, content or author overwrites, an empty one keeps the stored value; the id and the stored tags are kept |
| PostDao.MergeCounter | internal/dao/post.go:82-92 | a counter left at zero in the update keeps its stored value, any other overwrites it |
| PostDao.MergeTags | internal/dao/post.go:87-89 | association Append: stored tags kept, new ones added |
| PostDao.RowsAt | internal/dao/post.go:69-76 | the rows for the ids, in order |
| PostDao.PostStore.IsMember | internal/dao/post.go:158-185 | IsLiked/IsFavorite: true iff the pair is in the table |
| PostDao.PostStore.AddRow | internal/dao/post.go:204-236 | AddLike/AddFavorite: inserts the pair, failing iff already present (composite key); the other table unchanged |
| PostDao.PostStore.RemoveRows | internal/dao/post.go:188-228 | RemoveLike/RemoveFavorite: every matching row deleted; the other table unchanged |
| PostDao.PostStore.UpdatePostCounter | internal/dao/post.go:123-128 | the column of that row moves by the amount, nothing else changes |
| PostDao.PostStore.AddPostViewCount | internal/dao/post.go:58-67 | fails iff the post is absent; otherwise view_count becomes the read value plus incr |
| PostDao.PostStore.UpdatePost | internal/dao/post.go:82-92 | "更新失败" iff no row; otherwise non-zero fields merged and the row returned with the new tags |
| PostDao.PostStore.DeletePost | internal/dao/post.go:94-96 | removes exactly that post |
| PostDao.PostStore.ListPosts | internal/dao/post.go:11-46 | an error iff the size is negative and the offset (page−1)·size is positive, since GORM then writes OFFSET without LIMIT, which MySQL rejects; otherwise total counted before paging; at most `size` rows of the tag filter, stored rows, newest (largest id) first; which page is stated by ListPostsPage |
| PostDao.PostStore.GetPostsByIds | internal/dao/post.go:69-76 | exactly the stored posts whose decimal id is among the ids, each without its tags (nothing preloaded) |
| PostDao.PostStore.ListComment | internal/dao/post.go:99-116 | an error iff the size is negative and the offset is positive (OFFSET without LIMIT), as for ListPosts; otherwise total of the post's comments; at most `size` of them, stored rows, oldest first; which page is stated by ListCommentPage |
| PostDao.NegativeSizeListings | internal/dao/post.go:36-41 | a negative size reaches the query: page 1 lists every matching row, while page −1 (offset 2), or page 0 for comments (offset 1), fails |
| PostDao.ListPostsPage | internal/dao/post.go:36-41 | for a positive size and without overflow, ListPosts succeeds and returns the rows of page p of the matching ids, newest first |
| PostDao.ListCommentPage | internal/dao/post.go:103-113 | for a positive size and without overflow, ListComment succeeds and returns the rows of page p of the post's comment ids, oldest first |
| PostDao.PostStore.CreateComment | internal/dao/post.go:118-120 | the comment is inserted under a fresh id; posts and relations unchanged |
| PostDao.PostStore.UpdateComment | internal/dao/post.go:143-153 | "更新失败" iff absent; otherwise each non-zero field overwrites the stored one |
| PostDao.ViewAdded | internal/dao/post.go:58-67 | only the post's view_count changes |
| PostDao.ViewAddedExact | internal/dao/post.go:58-67 | within int64 and non-zero, the new view_count is old + incr |
| PostService.ToggleKeepsConsistent | internal/service/postService.go:235-253 | with a current snapshot the transaction commits and the counter still equals the number of rows |
| PostService.ToggleTwiceRestores | internal/service/postService.go:235-253 | two toggles of the same pair restore both the rows and the counters |
| PostService.StaleUnlikeBreaksConsistency | internal/service/postService.go:227-243 | a stale "liked" snapshot removes nothing yet decrements: the counter falls one below the row count |
| PostService.RacingUnlikesDoubleDecrement | internal/service/postService.go:227-243 | two unlikes from the same stale snapshot decrement twice for one removed row |
| PostService.StaleLikeRollsBack | internal/service/postService.go:244-249 | a stale "not liked" snapshot hits the duplicate key and rolls back: nothing changes |
| PostService.CounterFaultBreaksConsistency | internal/service/postService.go:242-250 | an ignored counter-update error commits the row change without the counter change |
| PostService.ReportedCountIsDurable | internal/service/postService.go:260-267 | the count returned from the pre-read post equals the stored counter afterwards (current snapshot, no overflow) |
| PostService.Toggle | internal/service/postService.go:214-323 | lookup failure: ErrInternalServer; user 0: ErrUnauthorized; both leave the store unchanged; otherwise the transaction over the likes or favourites table and its counter, returning the new state and pre-read count ± 1 |
| PostService.GetPostById | internal/service/postService.go:22-47 | absent post: ErrInternalServer and the fast store unchanged; otherwise the post with its author but no tags (only User is preloaded), one view INCR on the view key and, if it succeeded, +10 rank; codes and cooldowns unchanged |
| PostService.ListPopularPosts | internal/service/postService.go:49-67 | the window is what ZREVRANGE returns; fails with "没有热门文章" iff that window is empty; otherwise a post is returned iff it is stored and ranked in the window, without tags |
| PostService.GetUserStatus | internal/service/postService.go:325-336 | the corrected pair: liked from likes, favourited from favourites |
| PostService.UserStatusSwapped | internal/service/postService.go:325-336 | the code's pair is the corrected pair swapped |
| PostService.UserStatusMisreported | internal/service/postService.go:325-336 | a like without a favourite is reported as a favourite without a like |
| PostService.UpdatePost | internal/service/postService.go:96-124 | absent post: ErrInternalServer; non-owner: ErrUnauthorized; both unchanged; owner: the tag table is `CreateAll` over the names up to the first failing FirstOrCreate (rows created before a failure are kept, new rows only for names no row had, with fresh ids); on success the returned tags are exactly those rows and title/content are merged; on a tag failure ErrInternalServer with the post unchanged; relations untouched |
| PostService.DeletePost | internal/service/postService.go:126-136 | absent: ErrInternalServer; non-owner: ErrUnauthorized; both unchanged; owner: exactly that post removed |
| PostService.CreateComment | internal/service/postService.go:157-191 | absent post or failed transaction: error, no change; otherwise comment inserted and comment_count +1; comment counts stay equal to comment rows |
| PostService.DeleteComment | internal/service/postService.go:193-211 | absent: ErrInternalServer; non-owner: ErrUnauthorized; owner: row kept with content "该评论已删除"; comment counts still match |
| SyncTasks.FirstStop | internal/tasks/sync_tasks.go:22-33 | the first reply that ends the scan (error or cursor 0) |
| SyncTasks.FlattenCollects | internal/tasks/sync_tasks.go:29 | every key of every page is collected |
| SyncTasks.ScanCollectsEveryPage | internal/tasks/sync_tasks.go:21-33 | a successful scan holds every key of every page up to the one returning cursor 0 |
| SyncTasks.FlattenNext | internal/tasks/sync_tasks.go:29 | reading one more page appends its keys |
| SyncTasks.ScanEndsAt | internal/tasks/sync_tasks.go:24-33 | the first stopping reply reached in order is where the scan result is taken: none on an error, else all keys so far |
| SyncTasks.Sent | internal/tasks/sync_tasks.go:22-32 | the cursors the SCAN calls are made with: 0 first, then each returned cursor |
| SyncTasks.SentCursors | internal/tasks/sync_tasks.go:22-32 | every call after the first uses the non-zero cursor a page returned |
| SyncTasks.ScanViewKeys | internal/tasks/sync_tasks.go:21-33 | the loop returns the scan result (none on an error) and makes its calls with exactly the cursors `Sent` lists |
| SyncTasks.Join4 | internal/tasks/sync_tasks.go:58-59 | four parts join with three separators |
| SyncTasks.ViewKeyRoundTrip | internal/tasks/sync_tasks.go:59-67 | the corrected view key parses back to its id |
| SyncTasks.ViewKeyAsWrittenRejected | internal/tasks/sync_tasks.go:59-67 | a view key as the code writes it never parses to an id |
| SyncTasks.DrainAfterAbort | internal/tasks/sync_tasks.go:70-76 | after a durable-write failure nothing further happens |
| SyncTasks.DrainAppend | internal/tasks/sync_tasks.go:42-77 | draining a + b is draining a, then b |
| SyncTasks.DuplicateKeyAppliedOnce | internal/tasks/sync_tasks.go:46-55 | a key seen twice is applied once: the second drain finds 0 |
| SyncTasks.MalformedKeyLosesCount | internal/tasks/sync_tasks.go:59-67 | a malformed key is zeroed and its delta discarded |
| SyncTasks.ViewsAsWrittenNeverFlushed | internal/tasks/sync_tasks.go:59-67 | every view counted under the written key is discarded by the flush |
| SyncTasks.MissingPostEndsRun | internal/tasks/sync_tasks.go:70-76 | a view key for a missing post loses its delta and ends the run |
| SyncTasks.ViewKeys | internal/dao/redis.go:72 | the view keys of the ids, in order |
| SyncTasks.StepConserves | internal/tasks/sync_tasks.go:46-70 | draining one post's key keeps durable + pending for every post and leaves the key at 0 |
| SyncTasks.DrainConserves | internal/tasks/sync_tasks.go:42-77 | draining keys of stored posts keeps durable + pending for every post and zeroes each key |
| SyncTasks.DrainKey | internal/tasks/sync_tasks.go:46-76 | one iteration: GETSET "0", parse, apply, as the step function says |
| SyncTasks.DrainStopsAtAbort | internal/tasks/sync_tasks.go:70-76 | once the keys drained so far abort the run, the whole drain ends in that state |
| SyncTasks.DrainKeys | internal/tasks/sync_tasks.go:42-77 | the loop's final state is the drain function's, and it completes iff no write failed |
| SyncTasks.SyncViewCountsToDB | internal/tasks/sync_tasks.go:11-79 | a scan error or no keys: nothing changes; otherwise the stores end as the drain says, aborted iff a write failed |
| UserService.Find | internal/dao/user.go:41-53 | a user with that e-mail or username iff one exists |
| UserService.FindUnique | internal/dao/user.go:41-53 | with unique keys the lookup finds that very user |
| UserService.Login | internal/service/userService.go:107-125 | ErrUserNotFound iff no user; ErrPasswordIncorrect iff the hash mismatches; otherwise that user ('@' means e-mail) |
| UserService.LoginByEmail | internal/service/userService.go:107-125 | logging in by e-mail succeeds exactly with the matching password |
| UserService.UserStore.CreateUser | internal/dao/user.go:33-39 | refused iff the e-mail or username is taken (unique columns); otherwise appended with the next id |
| UserService.UserStore.UpdatePassword | internal/dao/user.go:55-57 | only that user's password changes |
| UserService.FoundIsRow | internal/dao/user.go:41-53 | a found user is the row at its id |
| UserService.SixDigitCode | internal/service/userService.go:51-53 | verification codes have exactly six digits |
| UserService.SendCode | internal/service/userService.go:43-60 | during the cooldown "操作太频繁，请稍后再试" and no code; otherwise a six-digit code stored before mailing; success iff mail sent |
| UserService.Register | internal/service/userService.go:33-63 | a registered e-mail gives ErrEmailAlreadyUsed with no change; otherwise the cooldown and code flow |
| UserService.VerifyRegister | internal/service/userService.go:65-105 | missing code: internal error; wrong code: "验证码错误", no user; right code: code deleted, then the user created (internal error if taken) |
| UserService.RequestReset | internal/service/userService.go:127-156 | unknown e-mail: ErrUserNotFound with no change; otherwise the cooldown and code flow |
| UserService.VerifyReset | internal/service/userService.go:158-188 | unknown user, wrong code or unchanged password fail without change; otherwise only that user's password is replaced |
| UserService.ResetThenLogin | internal/service/userService.go:158-188 | after a reset the new password logs in and the old one is refused |
| UserService.RegisteredCanLogin | internal/service/userService.go:93-102 | a user created by verification can log in by e-mail with that password |
| PostController.OrDefault | internal/controller/post.go:23-28 | zero becomes the default, any other value is kept |
| PostController.ListPostsRequest.ApplyDefaults | internal/controller/post.go:23-28 | page 0 becomes 1, size 0 becomes 10, other values (negative ones too) stay |
| PostController.PopularLimit | internal/controller/post.go:50-54 | the Atoi-read limit, or 10 when it reads as 0 |
| PostController.PopularLimitReads | internal/controller/post.go:50-54 | a written int64 limit is used as is; empty or unparsable gives 10; digits past the uint64 range give the int64 bound of their sign, whatever follows |
| PostController.ParsePostId | internal/controller/post.go:74-79 | ErrInvalidParams iff the id reads as 0; otherwise the ParseUint(…, 32) value, at most 2^32 − 1 |
| PostController.PostIdReads | internal/controller/post.go:74-79 | ids in range are read back; larger ones clamp to 2^32 − 1 whatever follows; 0, and a non-digit met before the digits overflow, are refused |
| PostController.TagInfos | internal/controller/post.go:112-116 | one tag record per tag, in order, same length |
| PostController.PostInfoOf | internal/controller/post.go:95-118 | id, title, tags and the four counters copied; the author id only when the author was loaded, else 0 |
| PostController.PostDetailOf | internal/controller/post.go:120-139 | the same plus the content |
| PostController.PostInfos | internal/controller/post.go:62-65 | one record per post, each describing its post, in order |
| PostController.ListPosts | internal/controller/post.go:15-47 | defaults applied in place; ErrInternalServer wrapping the cause is raised iff the listing fails (a negative size with a positive offset); otherwise the total and one record per listed post |
| PostController.ListPopularPosts | internal/controller/post.go:49-68 | raises "没有热门文章" iff the ZREVRANGE window is empty; otherwise one record per stored post in the window and no other, each with no tags and author 0 |
| PostController.GetPost | internal/controller/post.go:70-93 | an id reading as 0 raises ErrInvalidParams with no view counted; an absent post raises an internal error with no view counted; otherwise the detail of the stored post with its author and no tags, and the view counted as the service says |
| PostController.DeletePost | internal/controller/post.go:191-207 | an id reading as 0 raises ErrInvalidParams with no change; owner gets "删除成功" and the post is removed; others raise the service's error; likes, favourites and comments are never touched |
| PostController.Toggle | internal/controller/post.go:296-330 | the service's whole effect on the store for the ParseUint-read id, and its state and count answered or its error raised |
| PostController.RaisedErrorEnvelope | internal/middleware/error.go:25-31 | a raised application error reaches the client with its code and message |
| PostController.GetUserStatus | internal/controller/post.go:235-250 | what the client sees from the code as written: liked iff a favourite row, favorited iff a like row |
| PostController.GetUserStatusCorrected | internal/controller/post.go:235-250 | the intended answer: liked iff a like row, favorited iff a favourite row |
| PostController.UserStatusReachesClientSwapped | internal/controller/post.go:235-250 | the client sees liked iff favourited and favorited iff liked |
| UserController.Ext | internal/controller/user.go:197 | filepath.Ext: a suffix starting with '.', with no further '.' or '/' |
| UserController.ExtOfSuffix | internal/controller/user.go:197 | the extension is what follows the last '.' |
| UserController.ExtWithoutDot | internal/controller/user.go:197 | a name without '.' has no extension |
| UserController.CheckAvatar | internal/controller/user.go:191-201 | passes iff size ≤ 8 MiB and the extension is .jpg/.jpeg/.png; the size error comes first |
| UserController.UpperCaseRefused | internal/controller/user.go:197-201 | ".PNG" is refused: the comparison is case-sensitive |
| UserController.PngAccepted | internal/controller/user.go:197-201 | ".png" passes |
| UserController.LastDotCounts | internal/controller/user.go:197-201 | "me.png.exe" is refused |
| UserController.UpdateAvatar | internal/controller/user.go:182-215 | a form error raises ErrInvalidParams; a failed check raises its error without calling the service; otherwise the service's URL or error |

## Left out

- **Concurrency.**
  - The detached goroutine in `GetPostById`, the cron schedule and truly concurrent toggles are modelled sequentially.
  - The check-then-act race appears only as stale-snapshot lemmas over the toggle transaction.
- **`log.Fatal` in the view goroutine.** It ends the process. It is modelled as "no further effect": a failed INCR skips the rank increment.
- **Popularity scores.** These are `float64` in the source. The model uses integers, since every increment is integral.
- **Database and Redis.**
  - GORM query building, the Redis client, connections and migrations are replaced by maps, sets and sequences.
  - I/O faults are modelled only where a property is about failure, as explicit parameters: the toggle transaction, tag FirstOrCreate, the comment transaction and the mail send.
  - The flush's GETSET (internal/tasks/sync_tasks.go:46-50) never fails in the model. Its only error path modelled is `redis.Nil` on an absent key, which still sets the key to "0" and skips it. A transport error, which skips the key without resetting it, is not modelled. So "a failed GETSET skips only that key" (`SyncTasks.DrainKey`, `SyncTasks.Step`) is claimed for the nil reply only.
  - The SCAN `COUNT 100` hint and TTLs are parameters or dropped; expiry is a separate `Expire` method.
  - The error on a negative size with a positive offset follows GORM's generic `LIMIT` clause builder, which writes `OFFSET n` alone when the limit is negative. MySQL rejects a bare `OFFSET`. The model returns a stand-in error text, not MySQL's message.
  - MySQL's default collation compares strings case-insensitively, unique indexes included. The model compares e-mails, usernames and tag names exactly (`UserService.Find`, `UserService.Unique`, `TagDao.Lookup`).
- **Commit failures.** A failed commit of the toggle transaction is not modelled separately from a failed row write.
- **Outside code.**
  - bcrypt is an abstract `Hash`/`Matches`; its 72-byte limit and salting are not modelled.
  - JWT signing and verification (RFC 7519) is a token-check parameter.
  - Mail sending (SMTP), the Qiniu avatar upload and `math/rand` are parameters.
- **Wiring and data-only files.** HTTP routing, dependency wiring, model and DTO binding tags, and the tag controller and service are not part of this model.
- **Thin wrappers.**
  - The service wrappers `ListPosts`, `ListComment` and `CreatePost` only forward to the data layer, which is modelled, wrapping its error as ErrInternalServer (the post controller's `ListPosts` does that wrapping itself).
  - The handlers `UpdatePost`, `ListComment`, `CreateComment` and `DeleteComment` in the post controller only parse an id and forward to the modelled service. They parse with the same `ParsePostId` rule.
  - The user handlers other than `UpdateAvatar` only bind JSON and forward to the modelled service.
- **Handlers that do not return after an error.**
  - The `Login` handler records a service error and then goes on to dereference the missing user (a nil-pointer panic that the recovery middleware turns into code 500).
  - The `GetUserStatus` handler records an error and still answers. Membership reads cannot fail in the model, so that path does not arise.
- **CreateComment's ignored transaction result.** The model treats a failed transaction as an error with no change. The source ignores the result and re-reads the comment, which then fails with "record not found".
- PostDao.PostStore.GetPostsByIds: states which posts are returned, not their order. There is no ORDER BY, so the ranking order is lost.
- PostDao.PostStore.ListPosts: orders by id, newest first, where the source orders by `created_at DESC` (internal/dao/post.go:38); timestamps are not modelled, and ids are assigned in creation order.
- PostDao.PostStore.ListComment: orders by id, oldest first, where the source orders by `created_at ASC`, for the same reason.
- GetPopularPostIDs: members with equal scores may come in any order. Redis returns them in reverse lexicographic order of the member string; the model does not fix that order.
- Erru.GoError: a foreign (`Plain`) error cannot wrap another error, so `errors.As` through a chain of `%w` wrappings is not represented; only an application error's own cause is.
- PostDao.ViewAdded: the new `view_count` is stated exactly only within int64 and when non-zero (`ViewAddedExact`), because a zero value is skipped by `Updates`.
- UserService.VerifyReset: the code is left in the fast store after a successful reset, as in the source, which never deletes it.
- FastStore.Store.GetVerificationCode: a read, not a state change. It is specified through `SetVerifyCode` and `DelVerificationCode`.

## Findings

| source | as written | input that shows it | evidently intended | confidence | as-written member | corrected member |
|---|---|---|---|---|---|---|
| internal/dao/redis.go:58-72 | the view key is built with a `%s` verb on a `uint`, giving `nexus:post:view:%!s(uint=7)` | post id 7: the flush splits the key into 4 parts but the fourth, `%!s(uint=7)`, does not parse, so every counted view is discarded | a decimal id `nexus:post:view:7`, which the flush at internal/tasks/sync_tasks.go:59-67 parses | not executed | FastStore.ViewKeyAsWritten (SyncTasks.ViewKeyAsWrittenRejected, SyncTasks.ViewsAsWrittenNeverFlushed) | FastStore.ViewKey (SyncTasks.ViewKeyRoundTrip, SyncTasks.DrainConserves) |
| internal/service/postService.go:325-336 | returns (isFavorite, isLiked) where the handler reads (isLiked, isFavorite) | a user who liked but did not favourite post 1 is reported as favourited and not liked | liked from the likes table, favourited from the favourites table | not executed | PostService.GetUserStatusAsWritten (PostService.UserStatusMisreported, PostController.UserStatusReachesClientSwapped) | PostService.GetUserStatus (PostController.GetUserStatusCorrected) |

=== FILE: common.dfy ===
/**
 * The small decisions of the logging, CORS and recovery middleware.
 */
module CommonMiddleware {
  import Strconv
  import Res

  /** The terminal colour a status code is logged in. */
  datatype Color = Green | Blue | Yellow | Red

  /** The ANSI escape sequence written for each colour. */
  function Escape(c: Color): string
  {
    var esc := [27 as char];
    match c
    case Green => esc + "[32m"
    case Blue => esc + "[34m"
    case Yellow => esc + "[33m"
    case Red => esc + "[31m"
  }

  /** The colour of a status code: 2xx green, 3xx blue, 4xx yellow, anything else red. */
  function StatusColor(status: int): (c: Color)
    ensures c == Green <==> 200 <= status < 300
    ensures c == Blue <==> 300 <= status < 400
    ensures c == Yellow <==> 400 <= status < 500
    ensures c == Red <==> status < 200 || 500 <= status
  {
    if 200 <= status < 300 then Green
    else if 300 <= status < 400 then Blue
    else if 400 <= status < 500 then Yellow
    else Red
  }

  /** The logged path: the raw query is appended after `?` only when there is one. */
  function FullPath(path: string, raw: string): (s: string)
    ensures path <= s
    ensures raw == "" <==> s == path
  {
    if raw != "" then path + "?" + raw else path
  }

  /** When the path holds no `?`, cutting the logged path at its first `?` recovers path and query. */
  lemma FullPathSplits(path: string, raw: string)
    requires '?' !in path
    ensures raw == "" ==> Strconv.SplitN2(FullPath(path, raw), '?') == [path]
    ensures raw != "" ==> Strconv.SplitN2(FullPath(path, raw), '?') == [path, raw]
  {
    if raw != "" {
      Strconv.SplitN2Unique(path, '?', raw);
    }
  }

  /** What the CORS middleware does with a request once its headers are set. */
  datatype CorsOutcome = AbortWith(status: int) | Continue

  function Cors(verb: string): (r: CorsOutcome)
    ensures r.AbortWith? <==> verb == "OPTIONS"
    ensures r.AbortWith? ==> r.status == 204
  {
    if verb == "OPTIONS" then AbortWith(204) else Continue
  }

  /** The envelope written when a handler panicked; the request is aborted after it. */
  function Recovered(): (r: Res.Response<()>)
    ensures r.status == Res.EnvelopeStatus && r.code == 500
    ensures r.msg == "服务器内部错误" && r.data.Nil?
  {
    Res.Fail(500, Res.Nil, "服务器内部错误")
  }
}

=== FILE: errorhandler.dfy ===
/**
 * The central error middleware: after the handlers ran, the errors they
 * recorded on the request decide the envelope written back.
 */
module ErrorHandler {
  import opened Wrappers
  import Erru
  import Res

  /**
   * The envelope written for the recorded errors, or `None` when nothing was
   * recorded and the handler's own response stands. Only the last recorded
   * error is looked at; one of ours keeps its code and message, any other
   * error is reported as an internal server error without its details.
   */
  function Handle(errs: seq<Erru.GoError>): (r: Option<Res.Response<()>>)
    ensures r.None? <==> errs == []
    ensures r.Some? ==> r.value.status == Res.EnvelopeStatus && r.value.data.Nil?
    ensures r.Some? && errs[|errs| - 1].App? ==>
      r.value.code == errs[|errs| - 1].app.code && r.value.msg == errs[|errs| - 1].app.msg
    ensures r.Some? && errs[|errs| - 1].Plain? ==>
      r.value.code == Erru.InternalServerError && r.value.msg == Erru.ErrInternalServer.msg
  {
    if |errs| == 0 then None
    else
      match Erru.AsAppError(errs[|errs| - 1])
      case Some(a) => Some(Res.Fail(a.code, Res.Nil, a.msg))
      case None => Some(Res.Fail(Erru.InternalServerError, Res.Nil, Erru.ErrInternalServer.msg))
  }

  /** Errors recorded before the last one have no influence on the envelope. */
  lemma OnlyLastErrorMatters(earlier1: seq<Erru.GoError>, earlier2: seq<Erru.GoError>, last: Erru.GoError)
    ensures Handle(earlier1 + [last]) == Handle(earlier2 + [last])
  {
    assert (earlier1 + [last])[|earlier1|] == last;
    assert (earlier2 + [last])[|earlier2|] == last;
  }

  /** A foreign error's text never reaches the client. */
  lemma ForeignErrorHidden(errs: seq<Erru.GoError>, text: string)
    requires errs != [] && errs[|errs| - 1] == Erru.Plain(text)
    ensures Handle(errs) == Some(Res.Fail(10001, Res.Nil, "服务器内部错误"))
  {
  }
}

=== FILE: erru.dfy ===
/**
 * The application error type: a numeric business code, a user-facing
 * message and an optional wrapped cause, with the predefined errors every
 * layer returns (pkg/erru).
 */
module Erru {
  import opened Wrappers
  import Strconv

  // Business error codes.
  const OK: int := 0
  const InternalServerError: int := 10001
  const InvalidParams: int := 10002
  const UserNotFound: int := 20001
  const PasswordIncorrect: int := 20002
  const EmailAlreadyUsed: int := 20003
  const InvalidVerifyCode: int := 20004
  const TokenNotFound: int := 30001
  const TokenInvalid: int := 30002
  const TokenExpired: int := 30003
  const Unauthorized: int := 30004
  const ResourceNotFound: int := 40001
  const InvalidRequestHeader: int := 40002
  const BusinessLogicError: int := 50001

  /** Every declared code, `OK` first. */
  const AllCodes: seq<int> := [OK, InternalServerError, InvalidParams, UserNotFound,
    PasswordIncorrect, EmailAlreadyUsed, InvalidVerifyCode, TokenNotFound, TokenInvalid,
    TokenExpired, Unauthorized, ResourceNotFound, InvalidRequestHeader, BusinessLogicError]

  /** A Go `error`: one of ours, or a foreign error known only by its text. */
  datatype GoError = Plain(text: string) | App(app: AppError)

  datatype AppError = AppError(code: int, msg: string, err: Option<GoError>)

  const ErrOK: AppError := AppError(OK, "成功", None)
  const ErrInternalServer: AppError := AppError(InternalServerError, "服务器内部错误", None)
  const ErrInvalidParams: AppError := AppError(InvalidParams, "参数无效", None)
  const ErrUserNotFound: AppError := AppError(UserNotFound, "用户不存在", None)
  const ErrPasswordIncorrect: AppError := AppError(PasswordIncorrect, "密码错误", None)
  const ErrEmailAlreadyUsed: AppError := AppError(EmailAlreadyUsed, "邮箱已被注册", None)
  const ErrInvaliVerifyCode: AppError := AppError(InvalidVerifyCode, "验证码错误", None)
  const ErrTokenNotFound: AppError := AppError(TokenNotFound, "未找到认证Token", None)
  const ErrTokenInvalid: AppError := AppError(TokenInvalid, "认证Token无效", None)
  const ErrTokenExpired: AppError := AppError(TokenExpired, "认证Token已过期", None)
  const ErrUnauthorized: AppError := AppError(Unauthorized, "无权执行此操作", None)
  const ErrResourceNotFound: AppError := AppError(ResourceNotFound, "资源未找到", None)
  const ErrInvalidRequestHeader: AppError := AppError(InvalidRequestHeader, "请求头错误", None)

  /** The predefined errors, in declaration order. */
  const Predefined: seq<AppError> := [ErrOK, ErrInternalServer, ErrInvalidParams,
    ErrUserNotFound, ErrPasswordIncorrect, ErrEmailAlreadyUsed, ErrInvaliVerifyCode,
    ErrTokenNotFound, ErrTokenInvalid, ErrTokenExpired, ErrUnauthorized, ErrResourceNotFound,
    ErrInvalidRequestHeader]

  /**
   * `e.Wrap(cause)`: a new error with the receiver's code and message around
   * `cause` (which may be nil); the receiver is a value and stays as it was.
   */
  function Wrap(e: AppError, cause: Option<GoError>): (r: AppError)
    ensures r.code == e.code && r.msg == e.msg
    ensures Unwrap(r) == cause
  {
    AppError(e.code, e.msg, cause)
  }

  /** `erru.New(msg)`: a business-logic error with a custom message and no cause. */
  function New(msg: string): (r: AppError)
    ensures r.code == BusinessLogicError && r.msg == msg && Unwrap(r).None?
  {
    AppError(BusinessLogicError, msg, None)
  }

  /** `e.Unwrap()`: the wrapped cause, nil when there is none. */
  function Unwrap(e: AppError): Option<GoError>
  {
    e.err
  }

  /** The part of `Error()` that is always present. */
  function Header(e: AppError): string
  {
    "AppError: Code=" + Strconv.FormatInt(e.code) + ", Msg=" + e.msg
  }

  /** `err.Error()` for any Go error. */
  function ErrorText(g: GoError): string
    decreases g, 1
  {
    match g
    case Plain(t) => t
    case App(a) => AppErrorText(a)
  }

  /**
   * `(*AppError).Error()`: the header, followed by the cause's own text only
   * when a cause is wrapped.
   */
  function AppErrorText(e: AppError): (s: string)
    ensures Header(e) <= s
    ensures |s| > |Header(e)| <==> e.err.Some?
    ensures e.err.Some? ==>
      |ErrorText(e.err.value)| < |s| && s[|s| - |ErrorText(e.err.value)|..] == ErrorText(e.err.value)
    decreases e, 0
  {
    match e.err
    case None => Header(e)
    case Some(cause) => Header(e) + ", Err=" + ErrorText(cause)
  }

  /** `errors.As(err, &appErr)`: our error type is found only when the error is one of ours. */
  function AsAppError(g: GoError): (r: Option<AppError>)
    ensures r.Some? <==> g.App?
    ensures g.App? ==> r.value == g.app
  {
    match g
    case App(a) => Some(a)
    case Plain(_) => None
  }

  /** The declared codes are pairwise distinct, `OK` is 0 and no other code is. */
  lemma CodesDistinct()
    ensures forall i, j :: 0 <= i < j < |AllCodes| ==> AllCodes[i] != AllCodes[j]
    ensures AllCodes[0] == OK == 0
    ensures forall i :: 1 <= i < |AllCodes| ==> AllCodes[i] != 0
  {
  }

  /** Each predefined error carries the code of its name and wraps nothing. */
  lemma PredefinedErrors()
    ensures forall i :: 0 <= i < |Predefined| ==> Predefined[i].code == AllCodes[i]
    ensures forall i :: 0 <= i < |Predefined| ==> Predefined[i].err.None?
    ensures forall i, j :: 0 <= i < j < |Predefined| ==> Predefined[i].code != Predefined[j].code
  {
    CodesDistinct();
  }
}

=== FILE: jwt.dfy ===
/**
 * Bearer-token authentication (section 2.1 of RFC 6750) and the expiry of
 * issued tokens. Signature checking and signing are abstracted: the verdict
 * on a token string is a parameter.
 */
module JwtAuth {
  import opened Wrappers
  import Strconv
  import Erru
  import Res

  /** What parsing and validating a token string yields. */
  datatype TokenCheck = ParseFailed(cause: Erru.GoError) | Invalid | Valid(userId: nat)

  /** Either the request is aborted with an envelope, or it continues with `userID` set. */
  datatype Outcome = Abort(resp: Res.Response<()>) | Next(userId: nat)

  const Scheme: string := "Bearer"

  /** Reference reading of the header: the scheme, one space, then the token. */
  function BearerToken(header: string): (r: Option<string>)
    ensures r.Some? <==> |header| > |Scheme| && header[..|Scheme| + 1] == Scheme + " "
    ensures r.Some? ==> r.value == header[|Scheme| + 1..]
  {
    if |header| > |Scheme| && header[..|Scheme| + 1] == Scheme + " " then Some(header[|Scheme| + 1..])
    else None
  }

  /**
   * The header as the middleware reads it: cut at the first space into at
   * most two parts, accepted only with exactly two parts whose first is
   * the scheme; the token is the whole rest, further spaces included.
   */
  function ExtractToken(header: string): (r: Result<string, Erru.AppError>)
    ensures r.Ok? <==> BearerToken(header).Some?
    ensures r.Ok? ==> r.value == BearerToken(header).value
    ensures r.Err? ==> r.error == Erru.ErrInvalidRequestHeader
  {
    if header == "" then Err(Erru.ErrInvalidRequestHeader)
    else
      var parts := Strconv.SplitN2(header, ' ');
      if |parts| == 2 && parts[0] == Scheme then
        assert header[..|Scheme| + 1] == Scheme + " ";
        assert header[|Scheme| + 1..] == parts[1];
        Ok(parts[1])
      else
        BearerSplits(header);
        Err(Erru.ErrInvalidRequestHeader)
  }

  /** A header of the reference form is cut into exactly the scheme and the token. */
  lemma BearerSplits(header: string)
    ensures BearerToken(header).Some? ==>
      Strconv.SplitN2(header, ' ') == [Scheme, BearerToken(header).value]
  {
    if BearerToken(header).Some? {
      var token := header[|Scheme| + 1..];
      assert header == Scheme + [' '] + token;
      Strconv.SplitN2Unique(Scheme, ' ', token);
    }
  }

  /** `JWTAuth`: the middleware's decision for one request. */
  function Authenticate(header: string, check: string -> TokenCheck): (r: Outcome)
    ensures r.Next? <==> BearerToken(header).Some? && check(BearerToken(header).value).Valid?
    ensures r.Next? ==> r.userId == check(BearerToken(header).value).userId
    ensures BearerToken(header).None? ==> r == Abort(Res.FailWithAppErr(Erru.ErrInvalidRequestHeader))
    ensures r.Abort? && BearerToken(header).Some? ==> r.resp.code == Erru.TokenInvalid
  {
    match ExtractToken(header)
    case Err(e) => Abort(Res.FailWithAppErr(e))
    case Ok(token) =>
      match check(token)
      case ParseFailed(cause) => Abort(Res.FailWithAppErr(Erru.Wrap(Erru.ErrTokenInvalid, Some(cause))))
      case Invalid => Abort(Res.FailWithAppErr(Erru.ErrTokenInvalid))
      case Valid(uid) => Next(uid)
  }

  /** A parse failure is reported as an invalid token carrying the parser's error. */
  lemma ParseFailureCarriesCause(header: string, check: string -> TokenCheck)
    requires BearerToken(header).Some? && check(BearerToken(header).value).ParseFailed?
    ensures Authenticate(header, check).Abort?
    ensures Authenticate(header, check).resp.data == Res.Cause(check(BearerToken(header).value).cause)
  {
  }

  /** Whatever follows the scheme and one space is handed over whole, spaces included. */
  lemma TokenHandedOverWhole(token: string, check: string -> TokenCheck)
    requires check(token).Valid?
    ensures Authenticate(Scheme + " " + token, check) == Next(check(token).userId)
  {
    var header := Scheme + " " + token;
    assert header[..|Scheme| + 1] == Scheme + " ";
    assert header[|Scheme| + 1..] == token;
  }

  /** Nanoseconds per hour (`time.Hour`). */
  const NanosPerHour: int := 3_600_000_000_000

  /**
   * The lifetime added to the current time: `24 * Duration(ExpireHours) * time.Hour`
   * in wrapping 64-bit arithmetic.
   */
  function ExpiryOffset(expireHours: int): (d: int)
    ensures Strconv.MinInt64 <= d <= Strconv.MaxInt64
  {
    Strconv.Wrap64(Strconv.Wrap64(24 * Strconv.Wrap64(expireHours)) * NanosPerHour)
  }

  /** Largest setting whose lifetime fits in a 64-bit duration. */
  const MaxExpireSetting: int := 106751

  /**
   * The configured number of "hours" is multiplied by 24 hours, so it acts as
   * a number of days; beyond the 64-bit range the lifetime wraps.
   */
  lemma ExpiryCountsDays(expireHours: int)
    ensures 0 <= expireHours <= MaxExpireSetting ==>
      ExpiryOffset(expireHours) == expireHours * 24 * NanosPerHour
  {
    if expireHours < 0 || expireHours > MaxExpireSetting {
      return;
    }
    var days := 24 * expireHours;
    assert days <= 24 * MaxExpireSetting;
    assert 0 <= days * NanosPerHour <= 24 * MaxExpireSetting * NanosPerHour <= Strconv.MaxInt64;
  }

  /** One setting past the range already gives a lifetime in the past. */
  lemma ExpiryWrapsNegative()
    ensures ExpiryOffset(MaxExpireSetting + 1) < 0
  {
  }

  const NanosPerSecond: int := 1_000_000_000

  /** `expiresAt` is in whole Unix seconds: `jwt.NewNumericDate` truncates to the second. */
  datatype Claims = Claims(userId: nat, expiresAt: int, issuer: string)

  /** `NewNumericDate(t)` for `t` in nanoseconds: the second `t` falls in. */
  function NumericDate(t: int): (secs: int)
    ensures secs * NanosPerSecond <= t < (secs + 1) * NanosPerSecond
  {
    t / NanosPerSecond
  }

  /** The claims `GenerateToken` signs, for a token issued at `now` (nanoseconds). */
  function TokenClaims(userId: nat, now: int, expireHours: int): (c: Claims)
    ensures c.userId == userId && c.issuer == "Nexus"
    ensures c.expiresAt * NanosPerSecond <= now + ExpiryOffset(expireHours) < (c.expiresAt + 1) * NanosPerSecond
    ensures 0 <= expireHours <= MaxExpireSetting ==> c.expiresAt == NumericDate(now + expireHours * 24 * NanosPerHour)
  {
    ExpiryCountsDays(expireHours);
    Claims(userId, NumericDate(now + ExpiryOffset(expireHours)), "Nexus")
  }
}

=== FILE: postcontroller.dfy ===
/**
 * The post handlers: reading and defaulting the request parameters, calling
 * the post service, and copying posts into the response records.
 *
 * A handler either answers with an envelope or records an error for the
 * error middleware (`c.Error`), which turns it into the envelope.
 */
module PostController {
  import opened Wrappers
  import Strconv
  import Erru
  import Res
  import ErrorHandler
  import TagDao
  import FastStore
  import PostDao
  import PostService

  const DefaultPage: int := 1
  const DefaultSize: int := 10
  const DefaultPopularLimit: int := 10
  const Deleted: string := "删除成功"

  /** What a handler does with the request. */
  datatype Reply<T> = Answer(resp: Res.Response<T>) | Raise(err: Erru.AppError)

  // ------------------------------------------------------------- parameters

  /** A zero parameter replaced by its default; any other value is kept. */
  function OrDefault(v: int, default: int): (r: int)
    requires default != 0
    ensures r != 0
    ensures v != 0 ==> r == v
    ensures v == 0 ==> r == default
  {
    if v == 0 then default else v
  }

  /** The bound query of `ListPosts`, which the handler defaults in place. */
  class ListPostsRequest {
    var tag: string
    var page: int
    var size: int

    constructor (tag: string, page: int, size: int)
      ensures this.tag == tag && this.page == page && this.size == size
    {
      this.tag := tag;
      this.page := page;
      this.size := size;
    }

    /** Page 0 becomes 1 and size 0 becomes 10; other values, negative ones included, stay. */
    method ApplyDefaults()
      modifies this
      ensures page == OrDefault(old(page), DefaultPage)
      ensures size == OrDefault(old(size), DefaultSize)
      ensures tag == old(tag)
    {
      if page == 0 {
        page := DefaultPage;
      }
      if size == 0 {
        size := DefaultSize;
      }
    }
  }

  /** The `limit` path parameter of the popular list: `Atoi` with its error dropped, 0 meaning 10. */
  function PopularLimit(param: string): (n: int)
    ensures n != 0
    ensures Strconv.AtoiLoose(param) != 0 ==> n == Strconv.AtoiLoose(param)
    ensures Strconv.AtoiLoose(param) == 0 ==> n == DefaultPopularLimit
  {
    OrDefault(Strconv.AtoiLoose(param), DefaultPopularLimit)
  }

  /**
   * A written limit is used as is, a missing or unreadable one is 10, a
   * negative one reaches the ranking, and one past the uint64 range is the
   * int64 bound of its sign, whatever follows it.
   */
  lemma PopularLimitReads(n: int, digits: string, tail: string)
    requires Strconv.MinInt64 <= n <= Strconv.MaxInt64 && n != 0
    requires digits != [] && Strconv.AllDigits(digits) && Strconv.DigitsValue(digits) > Strconv.MaxUint64
    ensures PopularLimit(Strconv.FormatInt(n)) == n
    ensures PopularLimit("") == DefaultPopularLimit
    ensures PopularLimit("ten") == DefaultPopularLimit
    ensures PopularLimit(digits + tail) == Strconv.MaxInt64
    ensures PopularLimit("-" + digits + tail) == Strconv.MinInt64
  {
    Strconv.AtoiFormatIntRoundTrip(n);
    Strconv.AtoiOverflow(digits, tail);
    assert "ten" == [] + ['t'] + "en";
    Strconv.ParseUintSyntaxError([], 't', "en", Strconv.MaxUint64);
  }

  /**
   * A post id path parameter: `ParseUint(s, 10, 32)` with the error dropped,
   * so garbage reads as 0 and is refused, and an id past 2^32 - 1 reads as
   * 2^32 - 1.
   */
  function ParsePostId(param: string): (r: Result<nat, Erru.AppError>)
    ensures r.Err? <==> Strconv.ParseUintLoose(param, Strconv.MaxUint32) == 0
    ensures r.Err? ==> r.error == Erru.ErrInvalidParams
    ensures r.Ok? ==> 0 < r.value <= Strconv.MaxUint32 && r.value == Strconv.ParseUintLoose(param, Strconv.MaxUint32)
  {
    var id := Strconv.ParseUintLoose(param, Strconv.MaxUint32);
    if id == 0 then Err(Erru.ErrInvalidParams) else Ok(id)
  }

  /**
   * Every id in range is read back; larger ids are clamped to 2^32 - 1, even
   * with garbage after them; 0, and garbage met before the digits overflow,
   * are refused.
   */
  lemma PostIdReads(n: nat, digits: string, c: char, tail: string)
    requires Strconv.AllDigits(digits) && !Strconv.IsDigit(c)
    ensures 0 < n <= Strconv.MaxUint32 ==> ParsePostId(Strconv.FormatNat(n)) == Ok(n)
    ensures n > Strconv.MaxUint32 ==> ParsePostId(Strconv.FormatNat(n) + tail) == Ok(Strconv.MaxUint32)
    ensures ParsePostId(Strconv.FormatNat(0)) == Err(Erru.ErrInvalidParams)
    ensures Strconv.DigitsValue(digits) <= Strconv.MaxUint32 ==>
              ParsePostId(digits + [c] + tail) == Err(Erru.ErrInvalidParams)
  {
    Strconv.FormatNatRoundTrip(n);
    Strconv.ParseUintFormatRoundTrip(0, Strconv.MaxUint32);
    if 0 < n <= Strconv.MaxUint32 {
      Strconv.ParseUintFormatRoundTrip(n, Strconv.MaxUint32);
    }
    if n > Strconv.MaxUint32 {
      Strconv.ParseUintOverflow(Strconv.FormatNat(n), tail, Strconv.MaxUint32);
    }
    if Strconv.DigitsValue(digits) <= Strconv.MaxUint32 {
      Strconv.ParseUintSyntaxError(digits, c, tail, Strconv.MaxUint32);
    }
  }

  // ------------------------------------------------------------- response records

  datatype TagInfo = TagInfo(id: nat, name: string)

  datatype PostInfo = PostInfo(id: nat, title: string, authorId: nat, tags: seq<TagInfo>,
                               viewCount: int, likeCount: int, commentCount: int, favoriteCount: int)

  datatype PostDetail = PostDetail(id: nat, title: string, content: string, authorId: nat, tags: seq<TagInfo>,
                                   viewCount: int, likeCount: int, commentCount: int, favoriteCount: int)

  datatype ListPostsRes = ListPostsRes(total: nat, posts: seq<PostInfo>)

  datatype ToggleActionRes = ToggleActionRes(actionState: bool, currentCount: int)

  datatype UserStatusRes = UserStatusRes(liked: bool, favorited: bool)

  /** The tag records carry the post's tags one-to-one, in order. */
  predicate TagsCopied(dtos: seq<TagInfo>, tags: seq<TagDao.Tag>)
  {
    |dtos| == |tags| && forall i :: 0 <= i < |tags| ==> dtos[i].id == tags[i].id && dtos[i].name == tags[i].name
  }

  /**
   * The author id a record shows: the loaded user's id, which is the row's
   * `user_id` when the user was preloaded and 0 when it was not.
   */
  function AuthorShown(p: PostDao.Post, withUser: bool): nat
  {
    if withUser then p.userId else 0
  }

  /** A list record describes a post as loaded: its id, title, author, tags and the four counters unchanged. */
  predicate InfoDescribes(d: PostInfo, p: PostDao.Post, withUser: bool)
  {
    d.id == p.id && d.title == p.title && d.authorId == AuthorShown(p, withUser) && TagsCopied(d.tags, p.tags) &&
    d.viewCount == p.viewCount && d.likeCount == p.likeCount &&
    d.commentCount == p.commentCount && d.favoriteCount == p.favoriteCount
  }

  /** A detail record describes a post as loaded, its content included. */
  predicate DetailDescribes(d: PostDetail, p: PostDao.Post, withUser: bool)
  {
    d.id == p.id && d.title == p.title && d.content == p.content && d.authorId == AuthorShown(p, withUser) &&
    TagsCopied(d.tags, p.tags) &&
    d.viewCount == p.viewCount && d.likeCount == p.likeCount &&
    d.commentCount == p.commentCount && d.favoriteCount == p.favoriteCount
  }

  /** `tagModel2InfoDTO` over a post's tags, appended one by one. */
  method TagInfos(tags: seq<TagDao.Tag>) returns (dtos: seq<TagInfo>)
    ensures TagsCopied(dtos, tags)
  {
    dtos := [];
    for i := 0 to |tags|
      invariant TagsCopied(dtos, tags[..i])
    {
      dtos := dtos + [TagInfo(tags[i].id, tags[i].name)];
    }
    assert tags[..|tags|] == tags;
  }

  /** `postModel2InfoDTO`; `withUser` says whether the post's user was preloaded. */
  method PostInfoOf(p: PostDao.Post, withUser: bool) returns (d: PostInfo)
    ensures InfoDescribes(d, p, withUser)
  {
    var tags := TagInfos(p.tags);
    d := PostInfo(p.id, p.title, AuthorShown(p, withUser), tags, p.viewCount, p.likeCount, p.commentCount, p.favoriteCount);
  }

  /** `postModel2DetailDTO`; `withUser` says whether the post's user was preloaded. */
  method PostDetailOf(p: PostDao.Post, withUser: bool) returns (d: PostDetail)
    ensures DetailDescribes(d, p, withUser)
  {
    var tags := TagInfos(p.tags);
    d := PostDetail(p.id, p.title, p.content, AuthorShown(p, withUser), tags, p.viewCount, p.likeCount, p.commentCount, p.favoriteCount);
  }

  /** The list records of several posts, in order. */
  method PostInfos(posts: seq<PostDao.Post>, withUser: bool) returns (ds: seq<PostInfo>)
    ensures |ds| == |posts| && forall i :: 0 <= i < |posts| ==> InfoDescribes(ds[i], posts[i], withUser)
  {
    ds := [];
    for i := 0 to |posts|
      invariant |ds| == i && forall k :: 0 <= k < i ==> InfoDescribes(ds[k], posts[k], withUser)
    {
      var d := PostInfoOf(posts[i], withUser);
      ds := ds + [d];
    }
  }

  // ------------------------------------------------------------- handlers

  /**
   * `ListPosts`: default the query, list, and answer with the total and the
   * page's records; a failed query is raised as ErrInternalServer wrapping
   * the cause, as the service does.
   */
  method ListPosts(store: PostDao.PostStore, req: ListPostsRequest) returns (reply: Reply<ListPostsRes>)
    requires store.Valid()
    modifies req
    ensures req.page == OrDefault(old(req.page), DefaultPage) && req.size == OrDefault(old(req.size), DefaultSize)
    ensures req.tag == old(req.tag)
    ensures reply.Raise? <==> PostDao.BareOffset(PostDao.PageOffset(req.page, req.size), req.size)
    ensures reply.Raise? ==> reply.err == PostService.Internal(PostDao.BareOffsetError)
    ensures var listed := store.ListPosts(req.page, req.size, req.tag);
      listed.Ok? ==>
      reply.Answer? && reply.resp.data.Value? &&
      reply.resp == Res.OkWithData(reply.resp.data.v) &&
      reply.resp.data.v.total == listed.value.1 &&
      |reply.resp.data.v.posts| == |listed.value.0| &&
      forall i :: 0 <= i < |listed.value.0| ==> InfoDescribes(reply.resp.data.v.posts[i], listed.value.0[i], true)
  {
    req.ApplyDefaults();
    var listed := store.ListPosts(req.page, req.size, req.tag);
    if listed.Err? {
      return Raise(PostService.Internal(listed.error));
    }
    var infos := PostInfos(listed.value.0, true);
    return Answer(Res.OkWithData(ListPostsRes(listed.value.1, infos)));
  }

  /**
   * `ListPopularPosts`: the service's error is raised; its posts are answered
   * as list records, which show no tags and author 0 since nothing was
   * preloaded. `window` is what the ranking returned.
   */
  method ListPopularPosts(store: PostDao.PostStore, fast: FastStore.Store, param: string)
    returns (reply: Reply<seq<PostInfo>>, ghost window: seq<string>)
    requires store.Valid()
    ensures FastStore.TopRanked(fast.scores, FastStore.PopularStop(PopularLimit(param)), window)
    ensures reply.Raise? <==> FastStore.RangeCount(|fast.scores|, FastStore.PopularStop(PopularLimit(param))) == 0
    ensures reply.Raise? ==> reply.err == Erru.New(PostService.NoPopularPosts)
    ensures reply.Answer? ==>
      reply.resp.data.Value? && reply.resp == Res.OkWithData(reply.resp.data.v) &&
      (forall d :: d in reply.resp.data.v ==>
        d.id in store.posts && FastStore.RankMember(d.id) in window &&
        InfoDescribes(d, PostDao.WithoutTags(store.posts[d.id]), false)) &&
      (forall id :: id in store.posts && FastStore.RankMember(id) in window ==>
        exists d :: d in reply.resp.data.v && d.id == id)
  {
    var limit := PopularLimit(param);
    var r;
    r, window := PostService.ListPopularPosts(store, fast, limit);
    if r.Err? {
      return Raise(r.error), window;
    }
    var infos := PostInfos(r.value, false);
    forall d | d in infos
      ensures d.id in store.posts && FastStore.RankMember(d.id) in window &&
        InfoDescribes(d, PostDao.WithoutTags(store.posts[d.id]), false)
    {
      var k :| 0 <= k < |infos| && infos[k] == d;
      assert r.value[k] in r.value;
    }
    forall id | id in store.posts && FastStore.RankMember(id) in window
      ensures exists d :: d in infos && d.id == id
    {
      var p := PostDao.WithoutTags(store.posts[id]);
      assert p in r.value;
      var k :| 0 <= k < |r.value| && r.value[k] == p;
      assert infos[k] in infos;
    }
    return Answer(Res.OkWithData(infos)), window;
  }

  /**
   * `GetPost`: an id that reads as 0 is refused before the service runs, so
   * no view is counted; a found post is answered without its tags and its
   * read is counted in the fast store.
   */
  method GetPost(store: PostDao.PostStore, fast: FastStore.Store, param: string)
    returns (reply: Reply<PostDetail>)
    modifies fast
    ensures ParsePostId(param).Err? ==> reply == Raise(Erru.ErrInvalidParams) && unchanged(fast)
    ensures ParsePostId(param).Ok? && ParsePostId(param).value !in store.posts ==>
      reply.Raise? && PostService.IsInternal(reply.err) && unchanged(fast)
    ensures ParsePostId(param).Ok? && ParsePostId(param).value in store.posts ==>
      var id := ParsePostId(param).value;
      reply.Answer? && reply.resp.data.Value? && reply.resp == Res.OkWithData(reply.resp.data.v) &&
      DetailDescribes(reply.resp.data.v, PostDao.WithoutTags(store.posts[id]), true) &&
      reply.resp.data.v.tags == [] &&
      PostService.ViewCounted(fast, id)
    ensures fast.codes == old(fast.codes) && fast.cooldown == old(fast.cooldown)
  {
    var id := ParsePostId(param);
    if id.Err? {
      return Raise(id.error);
    }
    var r := PostService.GetPostById(store, fast, id.value);
    if r.Err? {
      return Raise(r.error);
    }
    var detail := PostDetailOf(r.value, true);
    return Answer(Res.OkWithData(detail));
  }

  /** `DeletePost`: an id that reads as 0 is refused; otherwise the owner's delete is answered with "删除成功". */
  method DeletePost(store: PostDao.PostStore, param: string, userId: nat) returns (reply: Reply<()>)
    requires store.Valid()
    modifies store
    ensures store.Valid()
    ensures ParsePostId(param).Err? ==> reply == Raise(Erru.ErrInvalidParams) && unchanged(store)
    ensures ParsePostId(param).Ok? ==>
      var id := ParsePostId(param).value;
      (id in old(store.posts) && old(store.posts)[id].userId == userId ==>
        reply == Answer(Res.OkWithMsg(Deleted)) && store.posts == old(store.posts) - {id}) &&
      (id in old(store.posts) && old(store.posts)[id].userId != userId ==>
        reply == Raise(Erru.ErrUnauthorized) && unchanged(store)) &&
      (id !in old(store.posts) ==> reply.Raise? && PostService.IsInternal(reply.err) && unchanged(store))
    ensures store.likes == old(store.likes) && store.favorites == old(store.favorites)
    ensures store.comments == old(store.comments) && store.nextCommentId == old(store.nextCommentId)
  {
    var id := ParsePostId(param);
    if id.Err? {
      return Raise(id.error);
    }
    var r := PostService.DeletePost(store, id.value, userId);
    if r.Err? {
      return Raise(r.error);
    }
    return Answer(Res.OkWithMsg(Deleted));
  }

  /**
   * `LikePost` and `FavoritePost`: the id is read without a check and the
   * service's state and count are answered unchanged.
   */
  method Toggle(store: PostDao.PostStore, rel: PostDao.Relation, param: string, userId: nat,
                fault: PostService.ToggleFault)
    returns (reply: Reply<ToggleActionRes>, result: Result<(bool, int), Erru.AppError>)
    requires store.Valid()
    modifies store
    ensures store.Valid()
    ensures PostService.ToggleDone(store, rel, Strconv.ParseUintLoose(param, Strconv.MaxUint32), userId, fault, result)
    ensures result.Ok? ==> reply == Answer(Res.OkWithData(ToggleActionRes(result.value.0, result.value.1)))
    ensures result.Err? ==> reply == Raise(result.error)
  {
    var id := Strconv.ParseUintLoose(param, Strconv.MaxUint32);
    result := PostService.Toggle(store, rel, id, userId, fault);
    if result.Err? {
      return Raise(result.error), result;
    }
    return Answer(Res.OkWithData(ToggleActionRes(result.value.0, result.value.1))), result;
  }

  /** A raised error reaches the client as the error middleware's envelope with the error's own code and message. */
  lemma RaisedErrorEnvelope(e: Erru.AppError)
    ensures ErrorHandler.Handle([Erru.App(e)]) == Some(Res.Response(Res.EnvelopeStatus, e.code, e.msg, Res.Nil))
  {
  }

  /**
   * `GetUserStatus`: the service's two answers are put under "liked" and
   * "favorited" in that order, so the client sees the favorites table as
   * "liked" and the likes table as "favorited".
   */
  function GetUserStatus(store: PostDao.PostStore, param: string, userId: nat): (reply: Reply<UserStatusRes>)
    reads store
    ensures var id := Strconv.ParseUintLoose(param, Strconv.MaxUint32);
      reply.Answer? && reply.resp.data.Value? && reply.resp == Res.OkWithData(reply.resp.data.v) &&
      (reply.resp.data.v.liked <==> (userId, id) in store.favorites) &&
      (reply.resp.data.v.favorited <==> (userId, id) in store.likes)
  {
    var s := PostService.GetUserStatusAsWritten(store, userId, Strconv.ParseUintLoose(param, Strconv.MaxUint32));
    Answer(Res.OkWithData(UserStatusRes(s.0, s.1)))
  }

  /** The intended answer: "liked" from the likes table, "favorited" from the favorites table. */
  function GetUserStatusCorrected(store: PostDao.PostStore, param: string, userId: nat): (reply: Reply<UserStatusRes>)
    reads store
    ensures var id := Strconv.ParseUintLoose(param, Strconv.MaxUint32);
      reply.Answer? && reply.resp.data.Value? &&
      (reply.resp.data.v.liked <==> (userId, id) in store.likes) &&
      (reply.resp.data.v.favorited <==> (userId, id) in store.favorites)
  {
    var s := PostService.GetUserStatus(store, userId, Strconv.ParseUintLoose(param, Strconv.MaxUint32));
    Answer(Res.OkWithData(UserStatusRes(s.0, s.1)))
  }

  /** The client reads a like as a favorite and a favorite as a like. */
  lemma UserStatusReachesClientSwapped(store: PostDao.PostStore, id: nat, userId: nat)
    requires 0 < id <= Strconv.MaxUint32
    ensures var written := GetUserStatus(store, Strconv.FormatNat(id), userId).resp.data.v;
      (written.liked <==> (userId, id) in store.favorites) &&
      (written.favorited <==> (userId, id) in store.likes)
  {
    Strconv.ParseUintFormatRoundTrip(id, Strconv.MaxUint32);
  }
}

=== FILE: postdao.dfy ===
/**
 * The post, comment and interaction tables and the queries and updates the
 * data-access layer runs on them. A soft-deleted row is absent from `posts`,
 * since every query filters it out. Rows are created in id order, so
 * ordering by creation time is ordering by id.
 */
module PostDao {
  import opened Wrappers
  import Strconv
  import TagDao

  datatype Post = Post(id: nat, title: string, content: string, userId: nat,
                       viewCount: int, likeCount: int, favoriteCount: int, commentCount: int,
                       tags: seq<TagDao.Tag>)

  datatype Comment = Comment(id: nat, content: string, userId: nat, postId: nat, parentId: nat)

  /** The counter columns of a post. */
  datatype Column = ViewCount | LikeCount | FavoriteCount | CommentCount

  /** The two (user, post) join tables. */
  datatype Relation = Likes | Favorites

  /** A row of a join table: (user id, post id). */
  type Pair = (nat, nat)

  function Counter(p: Post, c: Column): int
  {
    match c
    case ViewCount => p.viewCount
    case LikeCount => p.likeCount
    case FavoriteCount => p.favoriteCount
    case CommentCount => p.commentCount
  }

  /** The post with one counter replaced and everything else kept. */
  function WithCounter(p: Post, c: Column, v: int): (q: Post)
    ensures Counter(q, c) == v
    ensures forall d :: d != c ==> Counter(q, d) == Counter(p, d)
    ensures q.id == p.id && q.title == p.title && q.content == p.content
    ensures q.userId == p.userId && q.tags == p.tags
  {
    match c
    case ViewCount => p.(viewCount := v)
    case LikeCount => p.(likeCount := v)
    case FavoriteCount => p.(favoriteCount := v)
    case CommentCount => p.(commentCount := v)
  }

  /**
   * `UPDATE posts SET <column> = <column> + amount WHERE id = postId`: only
   * that counter of that row moves; no row matching is not an error.
   */
  function Bump(posts: map<nat, Post>, postId: nat, c: Column, amount: int): (r: map<nat, Post>)
    ensures r.Keys == posts.Keys
    ensures forall id :: id in posts && id != postId ==> r[id] == posts[id]
    ensures postId in posts ==> Counter(r[postId], c) == Counter(posts[postId], c) + amount
    ensures postId in posts ==> forall d :: d != c ==> Counter(r[postId], d) == Counter(posts[postId], d)
  {
    if postId in posts then
      posts[postId := WithCounter(posts[postId], c, Counter(posts[postId], c) + amount)]
    else posts
  }

  /** Adding an amount and then taking it away restores the table. */
  lemma BumpUndone(posts: map<nat, Post>, postId: nat, c: Column, amount: int)
    ensures Bump(Bump(posts, postId, c, amount), postId, c, -amount) == posts
  {
    if postId in posts {
      var p := posts[postId];
      var q := Bump(Bump(posts, postId, c, amount), postId, c, -amount)[postId];
      assert Counter(q, c) == Counter(p, c);
      assert q == p by {
        assert forall d :: Counter(q, d) == Counter(p, d);
        assert q.viewCount == p.viewCount && q.likeCount == p.likeCount;
        assert q.favoriteCount == p.favoriteCount && q.commentCount == p.commentCount;
      }
    }
  }

  /** The rows of a join table that belong to one post. */
  function Members(rows: set<Pair>, postId: nat): set<Pair>
  {
    set r | r in rows && r.1 == postId
  }

  /** Every post's counter equals the number of its rows in the join table. */
  predicate Consistent(posts: map<nat, Post>, rows: set<Pair>, c: Column)
  {
    forall id :: id in posts ==> Counter(posts[id], c) == |Members(rows, id)|
  }

  /** Inserting a new row adds one member to its post and none to any other. */
  lemma MembersInsert(rows: set<Pair>, x: Pair)
    requires x !in rows
    ensures |Members(rows + {x}, x.1)| == |Members(rows, x.1)| + 1
    ensures forall id :: id != x.1 ==> Members(rows + {x}, id) == Members(rows, id)
  {
    assert Members(rows + {x}, x.1) == Members(rows, x.1) + {x};
  }

  /** Deleting a present row removes one member from its post and none from any other. */
  lemma MembersDelete(rows: set<Pair>, x: Pair)
    requires x in rows
    ensures |Members(rows - {x}, x.1)| == |Members(rows, x.1)| - 1
    ensures forall id :: id != x.1 ==> Members(rows - {x}, id) == Members(rows, id)
  {
    assert Members(rows - {x}, x.1) == Members(rows, x.1) - {x};
  }

  /** The ids of the comments on one post. */
  function CommentIds(comments: map<nat, Comment>, postId: nat): set<nat>
  {
    set id | id in comments && comments[id].postId == postId
  }

  /** Every post's comment counter equals the number of its comments. */
  predicate CommentsCounted(posts: map<nat, Post>, comments: map<nat, Comment>)
  {
    forall id :: id in posts ==> posts[id].commentCount == |CommentIds(comments, id)|
  }

  /** A new comment adds one to its own post's comments and nothing to any other post's. */
  lemma CommentIdsInsert(comments: map<nat, Comment>, c: Comment)
    requires c.id !in comments
    ensures |CommentIds(comments[c.id := c], c.postId)| == |CommentIds(comments, c.postId)| + 1
    ensures forall id :: id != c.postId ==> CommentIds(comments[c.id := c], id) == CommentIds(comments, id)
  {
    assert CommentIds(comments[c.id := c], c.postId) == CommentIds(comments, c.postId) + {c.id};
  }

  /** Rewriting a comment in place, on the same post, leaves every post's comments as they were. */
  lemma CommentIdsRewrite(comments: map<nat, Comment>, c: Comment)
    requires c.id in comments && comments[c.id].postId == c.postId
    ensures forall id :: CommentIds(comments[c.id := c], id) == CommentIds(comments, id)
  {
  }

  // ------------------------------------------------------------- ordering

  lemma {:induction false} MaxExists(s: set<nat>)
    requires s != {}
    ensures exists m :: m in s && forall y :: y in s ==> y <= m
  {
    var x :| x in s;
    if s != {x} {
      MaxExists(s - {x});
      var m :| m in s - {x} && forall y :: y in s - {x} ==> y <= m;
      var top := if x > m then x else m;
      forall y | y in s
        ensures y <= top
      {
        if y != x {
          assert y in s - {x};
        }
      }
    }
  }

  /** The largest element of a non-empty set. */
  function MaxOf(s: set<nat>): (m: nat)
    requires s != {}
    ensures m in s && forall x :: x in s ==> x <= m
  {
    MaxExists(s);
    var m :| m in s && forall y :: y in s ==> y <= m;
    m
  }

  /** A strictly descending list stays so behind a larger head. */
  lemma PrependDescending(m: nat, rest: seq<nat>)
    requires forall x :: x in rest ==> x < m
    requires forall i, j :: 0 <= i < j < |rest| ==> rest[i] > rest[j]
    ensures forall i, j :: 0 <= i < j < |[m] + rest| ==> ([m] + rest)[i] > ([m] + rest)[j]
  {
    var r := [m] + rest;
    forall i, j | 0 <= i < j < |r|
      ensures r[i] > r[j]
    {
      assert r[j] == rest[j - 1] && rest[j - 1] in rest;
      if i > 0 {
        assert r[i] == rest[i - 1];
      }
    }
  }

  /** A strictly ascending list stays so with a larger last element. */
  lemma AppendAscending(rest: seq<nat>, m: nat)
    requires forall x :: x in rest ==> x < m
    requires forall i, j :: 0 <= i < j < |rest| ==> rest[i] < rest[j]
    ensures forall i, j :: 0 <= i < j < |rest + [m]| ==> (rest + [m])[i] < (rest + [m])[j]
  {
    var r := rest + [m];
    forall i, j | 0 <= i < j < |r|
      ensures r[i] < r[j]
    {
      assert r[i] == rest[i] && rest[i] in rest;
      if j < |rest| {
        assert r[j] == rest[j];
      }
    }
  }

  /** The ids of a set, largest first. */
  function Descending(s: set<nat>): (r: seq<nat>)
    ensures |r| == |s|
    ensures forall x :: x in r <==> x in s
    ensures forall i, j :: 0 <= i < j < |r| ==> r[i] > r[j]
    decreases |s|
  {
    if s == {} then []
    else
      var m := MaxOf(s);
      var rest := Descending(s - {m});
      PrependDescending(m, rest);
      [m] + rest
  }

  /** The ids of a set, smallest first. */
  function Ascending(s: set<nat>): (r: seq<nat>)
    ensures |r| == |s|
    ensures forall x :: x in r <==> x in s
    ensures forall i, j :: 0 <= i < j < |r| ==> r[i] < r[j]
    decreases |s|
  {
    if s == {} then []
    else
      var m := MaxOf(s);
      var rest := Ascending(s - {m});
      AppendAscending(rest, m);
      rest + [m]
  }

  // ------------------------------------------------------------- paging

  /** `OFFSET` of a page: `(page - 1) * size` in Go's wrapping int64 arithmetic. */
  function PageOffset(page: int, size: int): (o: int)
    ensures Strconv.MinInt64 <= o <= Strconv.MaxInt64
  {
    Strconv.Wrap64(Strconv.Wrap64(page - 1) * size)
  }

  /** While `page * size` fits an int64, the offset is the number of rows on the pages before. */
  lemma PageOffsetExact(page: int, size: int)
    requires page >= 1 && size >= 0 && page * size <= Strconv.MaxInt64
    ensures PageOffset(page, size) == (page - 1) * size
    ensures 0 <= (page - 1) * size && (page - 1) * size + size == page * size
  {
    assert (page - 1) * size + size == page * size;
    if size > 0 {
      assert page * size - page == page * (size - 1) >= 0;
      assert 0 <= (page - 1) * size <= page * size;
    }
  }

  /** A page far enough out wraps the offset back to 0, so the first page is served again. */
  lemma PageOffsetWraps()
    ensures PageOffset(0x2000_0000_0000_0001, 8) == 0
  {
    assert (0x2000_0000_0000_0001 - 1) * 8 == Strconv.TwoTo64;
  }

  /** Where the window starts: a non-positive offset is omitted, one past the end leaves nothing. */
  function WindowStart(n: nat, offset: int): (a: nat)
    ensures a <= n
  {
    if offset <= 0 then 0 else if offset > n then n else offset
  }

  /**
   * `OFFSET offset LIMIT limit` on an ordered result: a non-positive offset
   * adds no clause and a negative limit adds none either.
   */
  function Window<T>(s: seq<T>, offset: int, limit: int): (r: seq<T>)
    ensures var a := WindowStart(|s|, offset);
      a + |r| <= |s| && r == s[a..a + |r|]
    ensures limit >= 0 ==> |r| == if limit < |s| - WindowStart(|s|, offset) then limit else |s| - WindowStart(|s|, offset)
    ensures limit < 0 ==> |r| == |s| - WindowStart(|s|, offset)
  {
    var rest := s[WindowStart(|s|, offset)..];
    if 0 <= limit < |rest| then rest[..limit] else rest
  }

  /**
   * GORM writes no `LIMIT` clause for a negative limit but still writes
   * `OFFSET n` for a positive `n`; MySQL has no `OFFSET` without `LIMIT`, so
   * such a query fails.
   */
  predicate BareOffset(offset: int, limit: int)
  {
    limit < 0 && offset > 0
  }

  /** The text standing for MySQL's syntax error on a bare `OFFSET`. */
  const BareOffsetError: string := "syntax error near OFFSET"

  /** A window keeps the order of what it is cut from. */
  lemma WindowKeepsOrder(s: seq<nat>, offset: int, limit: int, increasing: bool)
    requires forall i, j :: 0 <= i < j < |s| ==> if increasing then s[i] < s[j] else s[i] > s[j]
    ensures var w := Window(s, offset, limit);
      (forall i :: 0 <= i < |w| ==> w[i] in s) &&
      (forall i, j :: 0 <= i < j < |w| ==> if increasing then w[i] < w[j] else w[i] > w[j])
  {
    var w := Window(s, offset, limit);
    var a := WindowStart(|s|, offset);
    assert forall i :: 0 <= i < |w| ==> w[i] == s[a + i];
  }

  /** Page `page` of a listing: the rows from `(page - 1) * size` up to, not including, `page * size`. */
  function PageOf<T>(s: seq<T>, page: int, size: int): seq<T>
    requires page >= 1 && size >= 1
  {
    var o := (page - 1) * size;
    var lo := if o < |s| then o else |s|;
    var hi := if o + size < |s| then o + size else |s|;
    s[lo..hi]
  }

  /** While `page * size` fits an int64, `OFFSET`/`LIMIT` cut out exactly that page. */
  lemma PageWindow<T>(s: seq<T>, page: int, size: int)
    ensures page >= 1 && size >= 1 && page * size <= Strconv.MaxInt64 ==>
      Window(s, PageOffset(page, size), size) == PageOf(s, page, size)
  {
    if page >= 1 && size >= 1 && page * size <= Strconv.MaxInt64 {
      PageOffsetExact(page, size);
    }
  }

  /** The page after a page continues exactly where it stopped. */
  lemma NextPageContinues<T>(s: seq<T>, page: int, size: int)
    requires page >= 1 && size >= 1 && (page + 1) * size <= Strconv.MaxInt64
    ensures Window(s, PageOffset(page, size), size) + Window(s, PageOffset(page + 1, size), size)
         == Window(s, PageOffset(page, size), 2 * size)
  {
    assert (page + 1) * size == page * size + size;
    PageOffsetExact(page, size);
    PageOffsetExact(page + 1, size);
    var o := PageOffset(page, size);
    assert PageOffset(page + 1, size) == o + size;
    assert o >= 0;
  }

  /** Pages 1..k of size `size`, one after another. */
  function Pages<T>(s: seq<T>, size: int, k: nat): seq<T>
  {
    if k == 0 then [] else Pages(s, size, k - 1) + Window(s, PageOffset(k, size), size)
  }

  /** The first `n` items, or all of them when there are fewer. */
  function Prefix<T>(s: seq<T>, n: int): (r: seq<T>)
    requires n >= 0
    ensures |r| == if n < |s| then n else |s|
    ensures r <= s
  {
    if n < |s| then s[..n] else s
  }

  /** A window cut right after a prefix extends that prefix by up to `limit` items. */
  lemma WindowExtends<T>(s: seq<T>, offset: nat, limit: nat)
    ensures Prefix(s, offset) + Window(s, offset, limit) == Prefix(s, offset + limit)
  {
    var start := if offset < |s| then offset else |s|;
    var end := if offset + limit < |s| then offset + limit else |s|;
    assert Window(s, offset, limit) == s[start..end];
    assert s[..start] + s[start..end] == s[..end];
  }

  /** Reading pages 1..k in turn yields the first k*size items, without gaps or repeats. */
  lemma {:induction false} PagesArePrefix<T>(s: seq<T>, size: int, k: nat)
    requires size >= 1 && k * size <= Strconv.MaxInt64
    ensures Pages(s, size, k) == Prefix(s, k * size)
  {
    if k > 0 {
      assert k * size == (k - 1) * size + size;
      PagesArePrefix(s, size, k - 1);
      PageOffsetExact(k, size);
      var o := PageOffset(k, size);
      assert o == (k - 1) * size && o >= 0 && k * size == o + size;
      WindowExtends(s, o, size);
    }
  }

  // ------------------------------------------------------------- the store

  /** The values of `Updates(struct)`: zero-valued fields are left as stored. */
  function MergeNonZero(stored: Post, upd: Post): (r: Post)
    ensures r.id == stored.id
    ensures r.title == if upd.title != "" then upd.title else stored.title
    ensures r.content == if upd.content != "" then upd.content else stored.content
    ensures r.userId == if upd.userId != 0 then upd.userId else stored.userId
    ensures stored.tags <= r.tags
  {
    Post(stored.id,
      if upd.title != "" then upd.title else stored.title,
      if upd.content != "" then upd.content else stored.content,
      if upd.userId != 0 then upd.userId else stored.userId,
      if upd.viewCount != 0 then upd.viewCount else stored.viewCount,
      if upd.likeCount != 0 then upd.likeCount else stored.likeCount,
      if upd.favoriteCount != 0 then upd.favoriteCount else stored.favoriteCount,
      if upd.commentCount != 0 then upd.commentCount else stored.commentCount,
      MergeTags(stored.tags, upd.tags))
  }

  /** A counter left at zero in the update keeps its stored value; any other overwrites it. */
  lemma MergeCounter(stored: Post, upd: Post, c: Column)
    ensures Counter(MergeNonZero(stored, upd), c) == if Counter(upd, c) != 0 then Counter(upd, c) else Counter(stored, c)
  {
  }

  /** Saving a post's tags links the new ones and keeps every existing link. */
  function MergeTags(stored: seq<TagDao.Tag>, upd: seq<TagDao.Tag>): (r: seq<TagDao.Tag>)
    ensures stored <= r
    ensures forall t :: t in r <==> t in stored || t in upd
  {
    if upd == [] then stored
    else
      var rest := MergeTags(stored, upd[..|upd| - 1]);
      var t := upd[|upd| - 1];
      assert forall u :: u in upd <==> u in upd[..|upd| - 1] || u == t;
      if t in rest then rest else rest + [t]
  }

  /** Whether a post carries a tag of the given name (the `tag` filter of the listing). */
  predicate HasTag(p: Post, name: string)
  {
    exists t :: t in p.tags && t.name == name
  }

  /** A row as a query without `Preload("Tags")` returns it. */
  function WithoutTags(p: Post): Post
  {
    p.(tags := [])
  }

  /** The rows of the given ids, in the order of the ids. */
  function RowsAt<T>(table: map<nat, T>, ids: seq<nat>): (r: seq<T>)
    requires forall i :: 0 <= i < |ids| ==> ids[i] in table
    ensures |r| == |ids| && forall i :: 0 <= i < |ids| ==> r[i] == table[ids[i]]
  {
    seq(|ids|, i requires 0 <= i < |ids| => table[ids[i]])
  }

  /**
   * The rows of a listing of some stored ids are exactly the rows of those ids.
   */
  lemma RowsOfIds(table: map<nat, Post>, chosen: set<nat>, sel: seq<nat>)
    requires forall id :: id in table ==> table[id].id == id
    requires chosen <= table.Keys
    requires forall x :: x in sel <==> x in chosen
    ensures forall i :: 0 <= i < |sel| ==> sel[i] in table
    ensures forall p :: p in RowsAt(table, sel) <==> p.id in chosen && p == table[p.id]
  {
    assert forall i :: 0 <= i < |sel| ==> sel[i] in chosen;
    var r := RowsAt(table, sel);
    forall p: Post | p.id in chosen && p == table[p.id]
      ensures p in r
    {
      var k :| 0 <= k < |sel| && sel[k] == p.id;
      assert r[k] == p;
    }
  }

  class PostStore {
    var posts: map<nat, Post>
    var likes: set<Pair>
    var favorites: set<Pair>
    var comments: map<nat, Comment>
    var nextCommentId: nat

    /** Rows are stored under their own id and comment ids are below the next one to hand out. */
    predicate Valid()
      reads this
    {
      (forall id :: id in posts ==> posts[id].id == id) &&
      (forall id :: id in comments ==> comments[id].id == id && id < nextCommentId)
    }

    constructor ()
      ensures Valid()
      ensures posts == map[] && likes == {} && favorites == {} && comments == map[]
    {
      posts := map[];
      likes := {};
      favorites := {};
      comments := map[];
      nextCommentId := 1;
    }

    function Rows(rel: Relation): set<Pair>
      reads this
    {
      match rel
      case Likes => likes
      case Favorites => favorites
    }

    /** `IsLiked` / `IsFavorite`: the matching rows are counted and the answer is whether any exist. */
    function IsMember(rel: Relation, userId: nat, postId: nat): (r: bool)
      reads this
      ensures r <==> (userId, postId) in Rows(rel)
    {
      var matching := set x | x in Rows(rel) && x == (userId, postId);
      assert (userId, postId) in Rows(rel) ==> (userId, postId) in matching;
      |matching| > 0
    }

    /**
     * `AddLike` / `AddFavorite`: insert the pair; the pair is the table's
     * primary key, so inserting an existing pair fails and changes nothing.
     */
    method AddRow(rel: Relation, userId: nat, postId: nat) returns (ok: bool)
      modifies this
      ensures ok <==> (userId, postId) !in old(Rows(rel))
      ensures Rows(rel) == old(Rows(rel)) + {(userId, postId)}
      ensures rel == Likes ==> favorites == old(favorites)
      ensures rel == Favorites ==> likes == old(likes)
      ensures posts == old(posts) && comments == old(comments) && nextCommentId == old(nextCommentId)
    {
      var x := (userId, postId);
      ok := x !in Rows(rel);
      if ok {
        match rel
        case Likes => likes := likes + {x};
        case Favorites => favorites := favorites + {x};
      }
    }

    /** `RemoveLike` / `RemoveFavorite`: delete every row of the pair; none is not an error. */
    method RemoveRows(rel: Relation, userId: nat, postId: nat)
      modifies this
      ensures Rows(rel) == old(Rows(rel)) - {(userId, postId)}
      ensures rel == Likes ==> favorites == old(favorites)
      ensures rel == Favorites ==> likes == old(likes)
      ensures posts == old(posts) && comments == old(comments) && nextCommentId == old(nextCommentId)
    {
      var x := (userId, postId);
      match rel
      case Likes => likes := likes - {x};
      case Favorites => favorites := favorites - {x};
    }

    /** `UpdatePostCounter`: an in-database increment of one column of one row. */
    method UpdatePostCounter(postId: nat, c: Column, amount: int)
      requires Valid()
      modifies this
      ensures Valid()
      ensures posts == Bump(old(posts), postId, c, amount)
      ensures likes == old(likes) && favorites == old(favorites)
      ensures comments == old(comments) && nextCommentId == old(nextCommentId)
    {
      posts := Bump(posts, postId, c, amount);
    }

    /**
     * `AddPostViewCount`: read the row, add in Go's 64-bit `int`, write the
     * row back with `Updates`, which skips a view count that came out 0.
     * A missing row is an error.
     */
    method AddPostViewCount(postId: nat, incr: int) returns (ok: bool)
      requires Valid()
      modifies this
      ensures Valid()
      ensures ok <==> postId in old(posts)
      ensures ok ==> posts == ViewAdded(old(posts), postId, incr)
      ensures !ok ==> posts == old(posts)
      ensures likes == old(likes) && favorites == old(favorites)
      ensures comments == old(comments) && nextCommentId == old(nextCommentId)
    {
      if postId !in posts {
        return false;
      }
      posts := ViewAdded(posts, postId, incr);
      return true;
    }

    /** `UpdatePost`: write the non-zero fields; no row with that id is the error "更新失败". */
    method UpdatePost(upd: Post) returns (r: Result<Post, string>)
      requires Valid()
      modifies this
      ensures Valid()
      ensures upd.id !in old(posts) ==> r == Err("更新失败") && posts == old(posts)
      ensures upd.id in old(posts) ==> posts == old(posts)[upd.id := MergeNonZero(old(posts)[upd.id], upd)]
      ensures upd.id in old(posts) ==> r == Ok(posts[upd.id].(tags := upd.tags))
      ensures likes == old(likes) && favorites == old(favorites)
      ensures comments == old(comments) && nextCommentId == old(nextCommentId)
    {
      if upd.id !in posts {
        return Err("更新失败");
      }
      var stored := MergeNonZero(posts[upd.id], upd);
      posts := posts[upd.id := stored];
      // Re-reading the row does not reload the tags, so the caller's tags are returned.
      return Ok(stored.(tags := upd.tags));
    }

    /** `DeletePost`: a soft delete hides the row from every later query. */
    method DeletePost(postId: nat)
      requires Valid()
      modifies this
      ensures Valid()
      ensures posts == old(posts) - {postId}
      ensures likes == old(likes) && favorites == old(favorites)
      ensures comments == old(comments) && nextCommentId == old(nextCommentId)
    {
      posts := posts - {postId};
    }

    /** The ids of the posts the listing selects, before paging. */
    function Matching(tag: string): set<nat>
      reads this
    {
      set id | id in posts && (tag == "" || HasTag(posts[id], tag))
    }

    /**
     * `ListPosts`: the total counts every match before paging; the page is
     * taken from the matches newest first.
     */
    function ListPosts(page: int, size: int, tag: string): (r: Result<(seq<Post>, nat), string>)
      reads this
      requires Valid()
      ensures r.Err? <==> BareOffset(PageOffset(page, size), size)
      ensures r.Ok? ==> r.value.1 == |Matching(tag)|
      ensures r.Ok? && size >= 0 ==> |r.value.0| <= size
      ensures r.Ok? ==> forall i :: 0 <= i < |r.value.0| ==>
        r.value.0[i].id in Matching(tag) && r.value.0[i] == posts[r.value.0[i].id]
      ensures r.Ok? ==> forall i, j :: 0 <= i < j < |r.value.0| ==> r.value.0[i].id > r.value.0[j].id
    {
      var offset := PageOffset(page, size);
      if BareOffset(offset, size) then Err(BareOffsetError)
      else
        var ids := Descending(Matching(tag));
        var win := Window(ids, offset, size);
        WindowKeepsOrder(ids, offset, size, false);
        Ok((RowsAt(posts, win), |Matching(tag)|))
    }

    /**
     * `GetPostsByIds`: the posts whose id is among the given numerals.
     * There is no ORDER BY, so only the set of rows is stated (the model
     * happens to list them by id). Nothing is preloaded, so every row comes
     * without its tags.
     */
    function GetPostsByIds(ids: seq<string>): (r: seq<Post>)
      reads this
      requires Valid()
      ensures forall p :: p in r <==>
        p.id in posts && p == WithoutTags(posts[p.id]) && Strconv.FormatNat(p.id) in ids
    {
      var chosen := set id | id in posts && Strconv.FormatNat(id) in ids;
      var sel := Ascending(chosen);
      var bare := map id | id in posts :: WithoutTags(posts[id]);
      RowsOfIds(bare, chosen, sel);
      RowsAt(bare, sel)
    }

    /** The ids of a post's comments. */
    function CommentsOf(postId: nat): set<nat>
      reads this
    {
      CommentIds(comments, postId)
    }

    /** `ListComment`: the total counts all of the post's comments; the page is taken oldest first. */
    function ListComment(postId: nat, page: int, size: int): (r: Result<(seq<Comment>, nat), string>)
      reads this
      requires Valid()
      ensures r.Err? <==> BareOffset(PageOffset(page, size), size)
      ensures r.Ok? ==> r.value.1 == |CommentsOf(postId)|
      ensures r.Ok? && size >= 0 ==> |r.value.0| <= size
      ensures r.Ok? ==> forall i :: 0 <= i < |r.value.0| ==>
        r.value.0[i].id in CommentsOf(postId) && r.value.0[i] == comments[r.value.0[i].id]
      ensures r.Ok? ==> forall i, j :: 0 <= i < j < |r.value.0| ==> r.value.0[i].id < r.value.0[j].id
    {
      var offset := PageOffset(page, size);
      if BareOffset(offset, size) then Err(BareOffsetError)
      else
        var ids := Ascending(CommentsOf(postId));
        var win := Window(ids, offset, size);
        WindowKeepsOrder(ids, offset, size, true);
        Ok((RowsAt(comments, win), |CommentsOf(postId)|))
    }

    /** `CreateComment`: the row gets the next id. */
    method CreateComment(content: string, userId: nat, postId: nat, parentId: nat) returns (c: Comment)
      requires Valid()
      modifies this
      ensures Valid()
      ensures c == Comment(old(nextCommentId), content, userId, postId, parentId)
      ensures c.id !in old(comments) && comments == old(comments)[c.id := c]
      ensures posts == old(posts) && likes == old(likes) && favorites == old(favorites)
    {
      c := Comment(nextCommentId, content, userId, postId, parentId);
      comments := comments[c.id := c];
      nextCommentId := nextCommentId + 1;
    }

    /** `UpdateComment`: write the non-empty content; no row with that id is the error "更新失败". */
    method UpdateComment(upd: Comment) returns (r: Result<Comment, string>)
      requires Valid()
      modifies this
      ensures Valid()
      ensures upd.id !in old(comments) ==> r == Err("更新失败") && comments == old(comments)
      ensures upd.id in old(comments) ==> r.Ok? && comments == old(comments)[upd.id := r.value]
      ensures upd.id in old(comments) ==>
        var stored := old(comments)[upd.id];
        r.value.id == upd.id &&
        r.value.content == (if upd.content != "" then upd.content else stored.content) &&
        r.value.userId == (if upd.userId != 0 then upd.userId else stored.userId) &&
        r.value.postId == (if upd.postId != 0 then upd.postId else stored.postId) &&
        r.value.parentId == (if upd.parentId != 0 then upd.parentId else stored.parentId)
      ensures posts == old(posts) && likes == old(likes) && favorites == old(favorites)
      ensures nextCommentId == old(nextCommentId)
    {
      if upd.id !in comments {
        return Err("更新失败");
      }
      var stored := comments[upd.id];
      var merged := Comment(stored.id,
        if upd.content != "" then upd.content else stored.content,
        if upd.userId != 0 then upd.userId else stored.userId,
        if upd.postId != 0 then upd.postId else stored.postId,
        if upd.parentId != 0 then upd.parentId else stored.parentId);
      comments := comments[upd.id := merged];
      return Ok(merged);
    }
  }

  /** The table after `AddPostViewCount` of a present row: the wrapped sum, unless it is 0. */
  function ViewAdded(posts: map<nat, Post>, postId: nat, incr: int): (r: map<nat, Post>)
    requires postId in posts
    ensures r.Keys == posts.Keys
    ensures forall id :: id in posts && id != postId ==> r[id] == posts[id]
    ensures forall d :: d != ViewCount ==> Counter(r[postId], d) == Counter(posts[postId], d)
  {
    var v := Strconv.Wrap64(posts[postId].viewCount + incr);
    if v == 0 then posts else posts[postId := WithCounter(posts[postId], ViewCount, v)]
  }

  /** Without overflow and without landing on 0, the view count grows by exactly the increment. */
  lemma ViewAddedExact(posts: map<nat, Post>, postId: nat, incr: int)
    requires postId in posts
    requires Strconv.MinInt64 <= posts[postId].viewCount + incr <= Strconv.MaxInt64
    requires posts[postId].viewCount + incr != 0
    ensures ViewAdded(posts, postId, incr) == Bump(posts, postId, ViewCount, incr)
  {
  }

  /**
   * Page `page` of the listing is the page of that number of the matching
   * ids, newest first, while `page * size` fits an int64.
   */
  lemma ListPostsPage(store: PostStore, page: int, size: int, tag: string)
    requires store.Valid()
    requires page >= 1 && size >= 1 && page * size <= Strconv.MaxInt64
    ensures var r := store.ListPosts(page, size, tag);
      var pg := PageOf(Descending(store.Matching(tag)), page, size);
      r.Ok? && |r.value.0| == |pg| && forall i :: 0 <= i < |r.value.0| ==> r.value.0[i].id == pg[i]
  {
    var ids := Descending(store.Matching(tag));
    var win := Window(ids, PageOffset(page, size), size);
    PageWindow(ids, page, size);
    WindowKeepsOrder(ids, PageOffset(page, size), size, false);
    assert store.ListPosts(page, size, tag) == Ok((RowsAt(store.posts, win), |store.Matching(tag)|));
  }

  /**
   * Page `page` of a post's comments is the page of that number of its
   * comment ids, oldest first, while `page * size` fits an int64.
   */
  lemma ListCommentPage(store: PostStore, postId: nat, page: int, size: int)
    requires store.Valid()
    requires page >= 1 && size >= 1 && page * size <= Strconv.MaxInt64
    ensures var r := store.ListComment(postId, page, size);
      var pg := PageOf(Ascending(store.CommentsOf(postId)), page, size);
      r.Ok? && |r.value.0| == |pg| && forall i :: 0 <= i < |r.value.0| ==> r.value.0[i].id == pg[i]
  {
    var ids := Ascending(store.CommentsOf(postId));
    var win := Window(ids, PageOffset(page, size), size);
    PageWindow(ids, page, size);
    WindowKeepsOrder(ids, PageOffset(page, size), size, true);
    assert store.ListComment(postId, page, size) == Ok((RowsAt(store.comments, win), |store.CommentsOf(postId)|));
  }

  /**
   * A negative size reaches the query unchanged. With page 1 the offset is 0
   * and every row is listed; with page -1, or page 0 for comments, the
   * offset is positive and the query fails.
   */
  lemma NegativeSizeListings(store: PostStore, tag: string, postId: nat)
    requires store.Valid()
    ensures var r := store.ListPosts(1, -1, tag);
      r.Ok? && |r.value.0| == |store.Matching(tag)|
    ensures store.ListPosts(-1, -1, tag) == Err(BareOffsetError)
    ensures store.ListComment(postId, 0, -1) == Err(BareOffsetError)
  {
    assert PageOffset(1, -1) == 0;
    assert PageOffset(-1, -1) == 2;
    assert PageOffset(0, -1) == 1;
    var ids := Descending(store.Matching(tag));
    assert Window(ids, 0, -1) == ids;
  }
}

=== FILE: postservice.dfy ===
/**
 * The post service: the like and favorite toggles, the view side effect of
 * reading a post, the popular list, comments and the owner checks on
 * editing and deleting posts.
 *
 * A toggle reads the membership of the pair first and applies the change
 * in a transaction afterwards. The transaction itself is the pure
 * `ToggleTx`, and the lemmas about it show which snapshots keep every
 * counter equal to the size of its join table and which do not.
 */
module PostService {
  import opened Wrappers
  import Strconv
  import Erru
  import FastStore
  import TagDao
  import opened PostDao

  /** The text of the error a lookup of a missing row returns. */
  const RecordNotFound: string := "record not found"

  /** The text standing for any other failure of a store call. */
  const StoreFailure: string := "store failure"

  /** The score one read adds to a post on the popular ranking. */
  const ViewScore: int := 10

  /** The content a deleted comment keeps. */
  const DeletedComment: string := "该评论已删除"

  /** The message when the ranking is empty. */
  const NoPopularPosts: string := "没有热门文章"

  /** A failed store call: `ErrInternalServer` wrapping the store's own error. */
  function Internal(cause: string): Erru.AppError
  {
    Erru.Wrap(Erru.ErrInternalServer, Some(Erru.Plain(cause)))
  }

  /** Whether an error is a wrapped `ErrInternalServer`. */
  predicate IsInternal(e: Erru.AppError)
  {
    e.code == Erru.InternalServerError && e.msg == Erru.ErrInternalServer.msg && e.err.Some?
  }

  /** The counter column a join table is mirrored in. */
  function ColumnOf(rel: Relation): Column
  {
    match rel
    case Likes => LikeCount
    case Favorites => FavoriteCount
  }

  /** The other join table. */
  function Other(rel: Relation): Relation
  {
    match rel
    case Likes => Favorites
    case Favorites => Likes
  }

  // ------------------------------------------------------------- toggling

  /** Where a toggle can fail for a reason other than the data. */
  datatype ToggleFault = NoFault | LookupFails | MembershipReadFails | RowWriteFails | CounterWriteFails

  /** The durable state a toggle transaction leaves, and whether it committed. */
  datatype TxOutcome = TxOutcome(posts: map<nat, Post>, rows: set<Pair>, committed: bool)

  /**
   * The toggle transaction, given the membership `liked` read before it:
   * delete the pair and count -1, or insert the pair and count +1. A failing
   * row write, which includes inserting a pair that is already present,
   * rolls the transaction back; a failing counter update is ignored, so the
   * row change commits without it.
   */
  function ToggleTx(posts: map<nat, Post>, rows: set<Pair>, col: Column, x: Pair,
                    liked: bool, rowFails: bool, counterFails: bool): TxOutcome
  {
    if rowFails then TxOutcome(posts, rows, false)
    else if liked then
      TxOutcome(if counterFails then posts else Bump(posts, x.1, col, -1), rows - {x}, true)
    else if x in rows then TxOutcome(posts, rows, false)
    else
      TxOutcome(if counterFails then posts else Bump(posts, x.1, col, 1), rows + {x}, true)
  }

  /** The count a toggle reports: the count read before the transaction, one up or one down, as an int64. */
  function ReportedCount(before: Post, col: Column, state: bool): int
  {
    Strconv.Wrap64(Counter(before, col) + if state then 1 else -1)
  }

  /** With a current snapshot and no fault, a toggle keeps every counter equal to its number of rows. */
  lemma ToggleKeepsConsistent(posts: map<nat, Post>, rows: set<Pair>, col: Column, x: Pair)
    requires Consistent(posts, rows, col)
    ensures var o := ToggleTx(posts, rows, col, x, x in rows, false, false);
      o.committed && Consistent(o.posts, o.rows, col)
  {
    if x in rows {
      MembersDelete(rows, x);
    } else {
      MembersInsert(rows, x);
    }
  }

  /** Two toggles of the same pair, each with a current snapshot, restore both the rows and the counters. */
  lemma ToggleTwiceRestores(posts: map<nat, Post>, rows: set<Pair>, col: Column, x: Pair)
    ensures var o1 := ToggleTx(posts, rows, col, x, x in rows, false, false);
      var o2 := ToggleTx(o1.posts, o1.rows, col, x, x in o1.rows, false, false);
      o1.committed && o2.committed && o2.posts == posts && o2.rows == rows
  {
    if x in rows {
      BumpUndone(posts, x.1, col, -1);
      assert rows - {x} + {x} == rows;
    } else {
      BumpUndone(posts, x.1, col, 1);
      assert rows + {x} - {x} == rows;
    }
  }

  /**
   * A stale "liked" snapshot (the pair was removed between the read and the
   * transaction) still commits a -1, so the counter ends one below its rows.
   */
  lemma StaleUnlikeBreaksConsistency(posts: map<nat, Post>, rows: set<Pair>, col: Column, x: Pair)
    requires Consistent(posts, rows, col) && x.1 in posts && x !in rows
    ensures var o := ToggleTx(posts, rows, col, x, true, false, false);
      o.committed && o.rows == rows &&
      Counter(o.posts[x.1], col) == |Members(o.rows, x.1)| - 1 &&
      !Consistent(o.posts, o.rows, col)
  {
    assert rows - {x} == rows;
  }

  /**
   * Two unlikes of the same pair that both read "liked" before either
   * committed: the row goes once, the counter goes down twice.
   */
  lemma RacingUnlikesDoubleDecrement(posts: map<nat, Post>, rows: set<Pair>, col: Column, x: Pair)
    requires Consistent(posts, rows, col) && x.1 in posts && x in rows
    ensures var o1 := ToggleTx(posts, rows, col, x, true, false, false);
      var o2 := ToggleTx(o1.posts, o1.rows, col, x, true, false, false);
      o1.committed && o2.committed && o2.rows == rows - {x} &&
      Counter(o2.posts[x.1], col) == Counter(posts[x.1], col) - 2 &&
      Counter(o2.posts[x.1], col) == |Members(o2.rows, x.1)| - 1 &&
      !Consistent(o2.posts, o2.rows, col)
  {
    MembersDelete(rows, x);
    assert rows - {x} - {x} == rows - {x};
  }

  /** A stale "not liked" snapshot tries to insert a present pair and rolls back harmlessly. */
  lemma StaleLikeRollsBack(posts: map<nat, Post>, rows: set<Pair>, col: Column, x: Pair, counterFails: bool)
    requires x in rows
    ensures var o := ToggleTx(posts, rows, col, x, false, false, counterFails);
      !o.committed && o.posts == posts && o.rows == rows
  {
  }

  /** An ignored failure of the counter update commits the row change alone and breaks consistency. */
  lemma CounterFaultBreaksConsistency(posts: map<nat, Post>, rows: set<Pair>, col: Column, x: Pair)
    requires Consistent(posts, rows, col) && x.1 in posts
    ensures var o := ToggleTx(posts, rows, col, x, x in rows, false, true);
      o.committed && o.posts == posts &&
      |Members(o.rows, x.1)| == Counter(posts[x.1], col) + (if x in rows then -1 else 1) &&
      !Consistent(o.posts, o.rows, col)
  {
    if x in rows {
      MembersDelete(rows, x);
    } else {
      MembersInsert(rows, x);
    }
  }

  /**
   * The count a successful toggle reports, computed from the post read before
   * the transaction, is the durable count afterwards when nothing else ran in
   * between and the count fits an int64.
   */
  lemma ReportedCountIsDurable(posts: map<nat, Post>, rows: set<Pair>, col: Column, x: Pair)
    requires x.1 in posts
    requires Strconv.MinInt64 < Counter(posts[x.1], col) < Strconv.MaxInt64
    ensures var o := ToggleTx(posts, rows, col, x, x in rows, false, false);
      ReportedCount(posts[x.1], col, x !in rows) == Counter(o.posts[x.1], col)
  {
  }

  /**
   * What a toggle of the pair (`userId`, `postId`) leaves behind: a missing
   * post, a failed lookup, a missing user or a failed membership read change
   * nothing; otherwise the store is what `ToggleTx` makes of the snapshot
   * read before it, and a committed transaction reports the new state and
   * the count.
   */
  twostate predicate ToggleDone(store: PostStore, rel: Relation, postId: nat, userId: nat, fault: ToggleFault,
                                new r: Result<(bool, int), Erru.AppError>)
    reads store
  {
    (postId !in old(store.posts) || fault == LookupFails ==>
      r.Err? && IsInternal(r.error) && unchanged(store)) &&
    (postId in old(store.posts) && fault != LookupFails && userId == 0 ==>
      r == Err(Erru.ErrUnauthorized) && unchanged(store)) &&
    (postId in old(store.posts) && userId != 0 && fault == MembershipReadFails ==>
      r.Err? && IsInternal(r.error) && unchanged(store)) &&
    (postId in old(store.posts) && userId != 0 && fault != LookupFails && fault != MembershipReadFails ==>
      var x := (userId, postId);
      var liked := x in old(store.Rows(rel));
      var o := ToggleTx(old(store.posts), old(store.Rows(rel)), ColumnOf(rel), x,
                        liked, fault == RowWriteFails, fault == CounterWriteFails);
      store.posts == o.posts && store.Rows(rel) == o.rows &&
      store.Rows(Other(rel)) == old(store.Rows(Other(rel))) &&
      store.comments == old(store.comments) && store.nextCommentId == old(store.nextCommentId) &&
      (o.committed ==> r == Ok((!liked, ReportedCount(old(store.posts)[postId], ColumnOf(rel), !liked)))) &&
      (!o.committed ==> r.Err? && IsInternal(r.error)))
  }

  /**
   * `LikePost` (over the likes table and `like_count`) and `FavoritePost`
   * (over the favorites table and `favorite_count`): returns the new state
   * and the count reported to the client.
   */
  method Toggle(store: PostStore, rel: Relation, postId: nat, userId: nat, fault: ToggleFault)
    returns (r: Result<(bool, int), Erru.AppError>)
    requires store.Valid()
    modifies store
    ensures store.Valid()
    ensures ToggleDone(store, rel, postId, userId, fault, r)
  {
    if postId !in store.posts {
      return Err(Internal(RecordNotFound));
    }
    if fault == LookupFails {
      return Err(Internal(StoreFailure));
    }
    var post := store.posts[postId];
    if userId == 0 {
      return Err(Erru.ErrUnauthorized);
    }
    if fault == MembershipReadFails {
      return Err(Internal(StoreFailure));
    }
    var liked := store.IsMember(rel, userId, postId);
    var col := ColumnOf(rel);

    // The transaction: a failing row write returns before anything is written.
    if fault == RowWriteFails {
      return Err(Internal(StoreFailure));
    }
    var state: bool;
    if liked {
      store.RemoveRows(rel, userId, postId);
      if fault != CounterWriteFails {
        store.UpdatePostCounter(postId, col, -1);
      }
      state := false;
    } else {
      var ok := store.AddRow(rel, userId, postId);
      if !ok {
        return Err(Internal(StoreFailure));
      }
      if fault != CounterWriteFails {
        store.UpdatePostCounter(postId, col, 1);
      }
      state := true;
    }

    var count := Counter(post, col);
    if state {
      count := count + 1;
    } else {
      count := count - 1;
    }
    return Ok((state, Strconv.Wrap64(count)));
  }

  // ------------------------------------------------------------- reading posts

  /**
   * One read of the post counted in the fast store: its view counter goes
   * up by one and its ranking score by 10, or, when the INCR fails,
   * neither changes.
   */
  twostate predicate ViewCounted(fast: FastStore.Store, postId: nat)
    reads fast
  {
    var key := FastStore.ViewKey(postId);
    var member := FastStore.RankMember(postId);
    var views := FastStore.ValueOr0(old(fast.kv), key);
    if views < Strconv.MaxInt64 then
      fast.kv == old(fast.kv)[key := views + 1] &&
      fast.scores == old(fast.scores)[member := FastStore.ValueOr0(old(fast.scores), member) + ViewScore]
    else
      fast.kv == old(fast.kv) && fast.scores == old(fast.scores)
  }

  /**
   * `GetPostById`: a found post is returned, with its author but without
   * its tags (only the user is preloaded), and its read is counted once in
   * the fast store (one INCR of its view key, then +10 on the ranking). An
   * INCR that fails ends the background work, so the ranking is not raised.
   */
  method GetPostById(store: PostStore, fast: FastStore.Store, postId: nat)
    returns (r: Result<Post, Erru.AppError>)
    modifies fast
    ensures postId !in store.posts ==> r.Err? && IsInternal(r.error) && unchanged(fast)
    ensures postId in store.posts ==> r == Ok(WithoutTags(store.posts[postId])) && ViewCounted(fast, postId)
    ensures fast.codes == old(fast.codes) && fast.cooldown == old(fast.cooldown)
  {
    if postId !in store.posts {
      return Err(Internal(RecordNotFound));
    }
    var post := WithoutTags(store.posts[postId]);
    var ok := fast.IncrementPostViewCount(postId);
    if ok {
      fast.IncrementPostRank(postId, ViewScore);
    }
    return Ok(post);
  }

  /**
   * `ListPopularPosts`: the top `limit` members of the ranking (all of them
   * for 0), loaded from the post table without their tags; an empty
   * selection is the business error "没有热门文章". `window` is what the
   * ranking returned.
   */
  method ListPopularPosts(store: PostStore, fast: FastStore.Store, limit: int)
    returns (r: Result<seq<Post>, Erru.AppError>, ghost window: seq<string>)
    requires store.Valid()
    ensures FastStore.TopRanked(fast.scores, FastStore.PopularStop(limit), window)
    ensures r.Err? <==> FastStore.RangeCount(|fast.scores|, FastStore.PopularStop(limit)) == 0
    ensures r.Err? ==> r.error == Erru.New(NoPopularPosts)
    ensures r.Ok? ==> forall p :: p in r.value <==>
      p.id in store.posts && p == WithoutTags(store.posts[p.id]) && FastStore.RankMember(p.id) in window
  {
    var ids := fast.GetPopularPostIDs(limit);
    window := ids;
    if |ids| == 0 {
      return Err(Erru.New(NoPopularPosts)), window;
    }
    var posts := store.GetPostsByIds(ids);
    return Ok(posts), window;
  }

  /**
   * `GetUserStatus` as written: the first answer ("liked") is read from the
   * favorites table and the second ("favorited") from the likes table.
   */
  function GetUserStatusAsWritten(store: PostStore, userId: nat, postId: nat): (bool, bool)
    reads store
  {
    (store.IsMember(Favorites, userId, postId), store.IsMember(Likes, userId, postId))
  }

  /** `GetUserStatus` as intended: whether the user likes the post, then whether they favorited it. */
  function GetUserStatus(store: PostStore, userId: nat, postId: nat): (r: (bool, bool))
    reads store
    ensures r.0 <==> (userId, postId) in store.likes
    ensures r.1 <==> (userId, postId) in store.favorites
  {
    (store.IsMember(Likes, userId, postId), store.IsMember(Favorites, userId, postId))
  }

  /** The written status is the intended one with its two answers swapped. */
  lemma UserStatusSwapped(store: PostStore, userId: nat, postId: nat)
    ensures GetUserStatusAsWritten(store, userId, postId).0 == GetUserStatus(store, userId, postId).1
    ensures GetUserStatusAsWritten(store, userId, postId).1 == GetUserStatus(store, userId, postId).0
  {
  }

  /** A user who likes a post without having favorited it is told the opposite. */
  lemma UserStatusMisreported(store: PostStore, userId: nat, postId: nat)
    requires (userId, postId) in store.likes && (userId, postId) !in store.favorites
    ensures GetUserStatus(store, userId, postId) == (true, false)
    ensures GetUserStatusAsWritten(store, userId, postId) == (false, true)
  {
  }

  // ------------------------------------------------------------- editing posts

  /**
   * `UpdatePost`: only the owner may edit; the tags are found or created by
   * name first, and the post is then saved with its new title, content and
   * tags.
   */
  method UpdatePost(store: PostStore, tags: TagDao.TagStore, userId: nat, postId: nat,
                    title: string, content: string, tagNames: seq<string>, tagFaults: set<nat>)
    returns (r: Result<Post, Erru.AppError>)
    requires store.Valid() && tags.Valid()
    modifies store, tags
    ensures store.Valid() && tags.Valid()
    ensures postId !in old(store.posts) ==>
      r.Err? && IsInternal(r.error) && unchanged(store) && unchanged(tags)
    ensures postId in old(store.posts) && old(store.posts)[postId].userId != userId ==>
      r == Err(Erru.ErrUnauthorized) && unchanged(store) && unchanged(tags)
    ensures postId in old(store.posts) && old(store.posts)[postId].userId == userId ==>
      (r.Ok? <==> forall i :: 0 <= i < |tagNames| ==> i !in tagFaults) &&
      (r.Err? ==> IsInternal(r.error) && unchanged(store)) &&
      (r.Ok? ==>
        var before := old(store.posts)[postId];
        store.posts == old(store.posts)[postId := MergeNonZero(before, before.(title := title, content := content, tags := r.value.tags))] &&
        |r.value.tags| == |tagNames| &&
        (forall i :: 0 <= i < |tagNames| && tagNames[i] != "" ==> r.value.tags[i].name == tagNames[i]))
    ensures postId in old(store.posts) && old(store.posts)[postId].userId == userId ==>
      var o := TagDao.CreateAll(old(tags.tags), old(tags.nextId), tagNames, TagDao.FirstFault(tagFaults, |tagNames|));
      tags.tags == o.0 && tags.nextId == o.1 && old(tags.tags) <= tags.tags &&
      TagDao.AddsMissing(old(tags.tags), old(tags.nextId), tagNames, tags.tags) &&
      (r.Ok? ==> r.value.tags == o.2 && forall i :: 0 <= i < |tagNames| ==> r.value.tags[i] in tags.tags)
    ensures store.likes == old(store.likes) && store.favorites == old(store.favorites)
    ensures store.comments == old(store.comments)
  {
    if postId !in store.posts {
      return Err(Internal(RecordNotFound));
    }
    var post := store.posts[postId];
    if post.userId != userId {
      return Err(Erru.ErrUnauthorized);
    }
    var found := tags.FindOrCreateTagsByNames(tagNames, tagFaults);
    if found.Err? {
      return Err(Internal(found.error));
    }
    var saved := store.UpdatePost(post.(title := title, content := content, tags := found.value));
    if saved.Err? {
      assert false;
      return Err(Internal(StoreFailure));
    }
    return Ok(saved.value);
  }

  /** `DeletePost`: only the owner may delete. */
  method DeletePost(store: PostStore, postId: nat, userId: nat) returns (r: Result<(), Erru.AppError>)
    requires store.Valid()
    modifies store
    ensures store.Valid()
    ensures postId !in old(store.posts) ==> r.Err? && IsInternal(r.error) && unchanged(store)
    ensures postId in old(store.posts) && old(store.posts)[postId].userId != userId ==>
      r == Err(Erru.ErrUnauthorized) && unchanged(store)
    ensures postId in old(store.posts) && old(store.posts)[postId].userId == userId ==>
      r == Ok(()) && store.posts == old(store.posts) - {postId}
    ensures store.likes == old(store.likes) && store.favorites == old(store.favorites)
    ensures store.comments == old(store.comments) && store.nextCommentId == old(store.nextCommentId)
  {
    if postId !in store.posts {
      return Err(Internal(RecordNotFound));
    }
    if store.posts[postId].userId != userId {
      return Err(Erru.ErrUnauthorized);
    }
    store.DeletePost(postId);
    return Ok(());
  }

  // ------------------------------------------------------------- comments

  /**
   * `CreateComment`: the comment and the +1 on the post's `comment_count`
   * are written in one transaction. A failure of either rolls both back, and
   * the re-read of the comment then fails.
   */
  method CreateComment(store: PostStore, content: string, userId: nat, postId: nat, parentId: nat, txFails: bool)
    returns (r: Result<Comment, Erru.AppError>)
    requires store.Valid()
    modifies store
    ensures store.Valid()
    ensures postId !in old(store.posts) || txFails ==> r.Err? && IsInternal(r.error) && unchanged(store)
    ensures postId in old(store.posts) && !txFails ==>
      r == Ok(Comment(old(store.nextCommentId), content, userId, postId, parentId)) &&
      r.value.id !in old(store.comments) &&
      store.comments == old(store.comments)[r.value.id := r.value] &&
      store.posts == Bump(old(store.posts), postId, CommentCount, 1)
    ensures CommentsCounted(old(store.posts), old(store.comments)) ==> CommentsCounted(store.posts, store.comments)
    ensures store.likes == old(store.likes) && store.favorites == old(store.favorites)
  {
    if postId !in store.posts {
      return Err(Internal(RecordNotFound));
    }
    if txFails {
      return Err(Internal(RecordNotFound));
    }
    ghost var comments0 := store.comments;
    var c := store.CreateComment(content, userId, postId, parentId);
    CommentIdsInsert(comments0, c);
    store.UpdatePostCounter(postId, CommentCount, 1);
    return Ok(c);
  }

  /**
   * `DeleteComment`: only the comment's author may delete it, and deleting
   * keeps the row with its content replaced by "该评论已删除".
   */
  method DeleteComment(store: PostStore, commentId: nat, userId: nat) returns (r: Result<(), Erru.AppError>)
    requires store.Valid()
    modifies store
    ensures store.Valid()
    ensures commentId !in old(store.comments) ==> r.Err? && IsInternal(r.error) && unchanged(store)
    ensures commentId in old(store.comments) && old(store.comments)[commentId].userId != userId ==>
      r == Err(Erru.ErrUnauthorized) && unchanged(store)
    ensures commentId in old(store.comments) && old(store.comments)[commentId].userId == userId ==>
      r == Ok(()) &&
      store.comments == old(store.comments)[commentId := old(store.comments)[commentId].(content := DeletedComment)]
    ensures store.posts == old(store.posts)
    ensures store.likes == old(store.likes) && store.favorites == old(store.favorites)
    ensures CommentsCounted(old(store.posts), old(store.comments)) ==> CommentsCounted(store.posts, store.comments)
  {
    if commentId !in store.comments {
      return Err(Internal(RecordNotFound));
    }
    var c := store.comments[commentId];
    if userId != c.userId {
      return Err(Erru.ErrUnauthorized);
    }
    ghost var comments0 := store.comments;
    var updated := store.UpdateComment(c.(content := DeletedComment));
    if updated.Err? {
      assert false;
      return Err(Internal(StoreFailure));
    }
    assert updated.value == c.(content := DeletedComment);
    CommentIdsRewrite(comments0, updated.value);
    return Ok(());
  }
}

=== FILE: randcode.dfy ===
/**
 * Numeric verification codes of a given width (pkg/utils). The random draw
 * is a parameter: `rand.Intn(max)` is modelled as `draw % max`, which can be
 * any value of `[0, max)`.
 */
module RandomCode {
  import opened Wrappers
  import Strconv

  /** `pow10` as it computes: `n` multiplications by 10 in wrapping int64, none when `n <= 0`. */
  function Pow10Int64(n: int): (p: int)
    ensures Strconv.MinInt64 <= p <= Strconv.MaxInt64
    decreases if n < 0 then 0 else n
  {
    if n <= 0 then 1 else Strconv.Wrap64(Pow10Int64(n - 1) * 10)
  }

  /** Largest exponent whose power of ten fits in an int64. */
  const MaxExactExponent: nat := 18

  const Ten18: nat := 1_000_000_000_000_000_000

  /** Up to 10^18 the wrapping computation is exact. */
  lemma {:induction false} Pow10Exact(n: nat)
    requires n <= MaxExactExponent
    ensures Pow10Int64(n) == Strconv.Power10(n)
  {
    if n > 0 {
      Pow10Exact(n - 1);
      var p := Strconv.Power10(n - 1);
      assert Strconv.Power10(n) == p * 10;
      Strconv.Power10Monotone(n, MaxExactExponent);
      Strconv.Power10At18();
      assert Pow10Int64(n) == Strconv.Wrap64(p * 10);
    }
  }

  /** `pow10(n)`: the loop of the source, proved to compute `Pow10Int64`. */
  method Pow10(n: int) returns (result: int)
    ensures result == Pow10Int64(n)
  {
    result := 1;
    var i := 0;
    while i < n
      invariant 0 <= i <= if n < 0 then 0 else n
      invariant result == Pow10Int64(i)
      decreases n - i
    {
      result := Strconv.Wrap64(result * 10);
      i := i + 1;
    }
  }

  /** The width used: anything not positive becomes 6. */
  function EffectiveWidth(width: int): (w: nat)
    ensures w >= 1
    ensures width > 0 ==> w == width
    ensures width <= 0 ==> w == 6
  {
    if width <= 0 then 6 else width
  }

  /** `%0<w>v` on a non-negative number: its numeral, left-padded with zeros to `w` characters. */
  function ZeroPad(s: string, w: nat): (r: string)
    ensures |r| == if |s| < w then w else |s|
    ensures r[|r| - |s|..] == s
    ensures forall i :: 0 <= i < |r| - |s| ==> r[i] == '0'
  {
    if |s| < w then Zeros(w - |s|) + s else s
  }

  function Zeros(k: nat): (z: string)
    ensures |z| == k && forall i :: 0 <= i < k ==> z[i] == '0'
  {
    if k == 0 then [] else Zeros(k - 1) + "0"
  }

  /**
   * `rand.Intn(n)` with the random source as the parameter `draw`: a value
   * in [0, n), and every such value is the result of some draw.
   */
  function Intn(draw: nat, n: int): (r: nat)
    requires n > 0
    ensures r < n
    ensures draw < n ==> r == draw
  {
    draw % n
  }

  /**
   * `GenerateRandomCode(width)`; `None` is the panic of `rand.Intn` when the
   * wrapped power of ten leaves no positive bound.
   */
  function Generate(width: int, draw: nat): (r: Option<string>)
  {
    var max := Bound(width);
    if max <= 0 then None
    else Some(ZeroPad(Strconv.FormatNat(Intn(draw, max)), EffectiveWidth(width)))
  }

  /** The bound handed to `rand.Intn`: the wrapped power of ten, less one. */
  function Bound(width: int): int
  {
    Strconv.Wrap64(Pow10Int64(EffectiveWidth(width)) - 1)
  }

  /** Below the overflow the bound is exactly 10^w - 1, and at least 9. */
  lemma BoundExact(width: int)
    requires EffectiveWidth(width) <= MaxExactExponent
    ensures Strconv.Power10(EffectiveWidth(width)) >= 10
    ensures Bound(width) == Strconv.Power10(EffectiveWidth(width)) - 1
  {
    var w := EffectiveWidth(width);
    Pow10Exact(w);
    Strconv.Power10Monotone(1, w);
    Strconv.Power10Monotone(w, MaxExactExponent);
    Strconv.Power10At18();
  }

  /** Leading zeros do not change the value of a numeral. */
  lemma {:induction false} LeadingZeros(k: nat, s: string)
    requires Strconv.AllDigits(s)
    ensures Strconv.AllDigits(Zeros(k) + s)
    ensures Strconv.DigitsValue(Zeros(k) + s) == Strconv.DigitsValue(s)
  {
    var z := Zeros(k) + s;
    if s == [] {
      assert z == Zeros(k);
      if k > 0 {
        assert z[..|z| - 1] == Zeros(k - 1);
        LeadingZeros(k - 1, s);
        assert Zeros(k - 1) + s == Zeros(k - 1);
      }
    } else {
      assert z[..|z| - 1] == Zeros(k) + s[..|s| - 1];
      LeadingZeros(k, s[..|s| - 1]);
    }
  }

  /** A number below 10^k has at most k digits. */
  lemma {:induction false} NumeralLength(v: nat, k: nat)
    requires k >= 1 && v < Strconv.Power10(k)
    ensures |Strconv.FormatNat(v)| <= k
  {
    if v >= 10 {
      assert v / 10 < Strconv.Power10(k - 1);
      NumeralLength(v / 10, k - 1);
    }
  }

  /** Below the overflow the bound handed to `rand.Intn` is exactly 10^w - 1. */
  lemma GenerateExact(width: int, draw: nat)
    requires EffectiveWidth(width) <= MaxExactExponent
    ensures var w := EffectiveWidth(width);
      Strconv.Power10(w) >= 10 &&
      Generate(width, draw) == Some(ZeroPad(Strconv.FormatNat(Intn(draw, Strconv.Power10(w) - 1)), w))
  {
    BoundExact(width);
  }

  /** Padding a numeral of at most `w` digits gives `w` digits of the same value. */
  lemma PadNumeral(s: string, w: nat)
    requires Strconv.AllDigits(s) && |s| <= w
    ensures var p := ZeroPad(s, w);
      |p| == w && Strconv.AllDigits(p) && Strconv.DigitsValue(p) == Strconv.DigitsValue(s)
  {
    if |s| < w {
      LeadingZeros(w - |s|, s);
      assert ZeroPad(s, w) == Zeros(w - |s|) + s;
    }
  }

  /** A number below 10^w, padded to `w`, is a `w`-digit numeral of that number. */
  lemma PaddedNumeral(v: nat, w: nat)
    requires w >= 1 && v < Strconv.Power10(w)
    ensures var s := ZeroPad(Strconv.FormatNat(v), w);
      |s| == w && Strconv.AllDigits(s) && Strconv.DigitsValue(s) == v
  {
    NumeralLength(v, w);
    Strconv.FormatNatRoundTrip(v);
    PadNumeral(Strconv.FormatNat(v), w);
  }

  /**
   * For a width of at most 18 digits the code is exactly `w` digits whose
   * value is the draw reduced below 10^w - 1.
   */
  lemma CodeShape(width: int, draw: nat)
    requires EffectiveWidth(width) <= MaxExactExponent
    ensures var w := EffectiveWidth(width);
      var r := Generate(width, draw);
      r.Some? && |r.value| == w && Strconv.AllDigits(r.value) &&
      Strconv.DigitsValue(r.value) == Intn(draw, Strconv.Power10(w) - 1) &&
      Strconv.DigitsValue(r.value) < Strconv.Power10(w) - 1
  {
    var w := EffectiveWidth(width);
    BoundExact(width);
    var v := Intn(draw, Bound(width));
    PaddedNumeral(v, w);
  }

  /** Every code value below 10^w - 1 can be drawn. */
  lemma EveryValueReachable(width: int, v: nat)
    requires EffectiveWidth(width) <= MaxExactExponent
    requires v < Strconv.Power10(EffectiveWidth(width)) - 1
    ensures Generate(width, v).Some?
    ensures Strconv.AllDigits(Generate(width, v).value)
    ensures Strconv.DigitsValue(Generate(width, v).value) == v
  {
    BoundExact(width);
    PaddedNumeral(v, EffectiveWidth(width));
  }

  /** The all-nines code 10^w - 1 is never produced, because the bound of `rand.Intn` is exclusive. */
  lemma AllNinesNeverDrawn(width: int, draw: nat)
    requires EffectiveWidth(width) <= MaxExactExponent
    ensures Generate(width, draw).Some?
    ensures Strconv.AllDigits(Generate(width, draw).value)
    ensures Strconv.DigitsValue(Generate(width, draw).value) != Strconv.Power10(EffectiveWidth(width)) - 1
  {
    CodeShape(width, draw);
  }

  /** 10^19 exceeds the int64 range and wraps to a negative number. */
  lemma Pow10Overflows(n: int)
    requires n == MaxExactExponent + 1
    ensures Pow10Int64(n) == Ten18 * 10 - Strconv.TwoTo64
  {
    var p18 := Pow10Int64(MaxExactExponent);
    assert p18 == Ten18 by {
      Pow10Exact(MaxExactExponent);
      Strconv.Power10At18();
    }
    assert Pow10Int64(n) == Strconv.Wrap64(p18 * 10);
    assert Strconv.Wrap64(Ten18 * 10) == Ten18 * 10 - Strconv.TwoTo64 by {
      assert (Ten18 * 10) % Strconv.TwoTo64 == Ten18 * 10;
    }
  }

  /** A width of 19 leaves no positive bound for `rand.Intn`, which panics. */
  lemma Width19Panics(width: int, draw: nat)
    requires width == MaxExactExponent + 1
    ensures Generate(width, draw).None?
  {
    Pow10Overflows(width);
  }
}

=== FILE: ranking.dfy ===
/**
 * Ordering a finite set of members by an integer key, highest first: what a
 * sorted-set ZREVRANGE and an `ORDER BY ... DESC` query hand back.
 */
module Ranking {

  predicate Distinct<T(==)>(s: seq<T>)
  {
    forall i, j :: 0 <= i < j < |s| ==> s[i] != s[j]
  }

  predicate NonIncreasing<T>(s: seq<T>, key: T -> int)
  {
    forall i, j :: 0 <= i < j < |s| ==> key(s[i]) >= key(s[j])
  }

  /** `s` with `x` placed before the first element whose key is strictly smaller. */
  function InsertByKey<T(==)>(s: seq<T>, x: T, key: T -> int): (r: seq<T>)
    ensures multiset(r) == multiset(s) + multiset{x}
    ensures |r| == |s| + 1
  {
    if s == [] then [x]
    else if key(s[0]) < key(x) then [x] + s
    else
      assert s == [s[0]] + s[1..];
      [s[0]] + InsertByKey(s[1..], x, key)
  }

  lemma {:induction false} InsertKeepsOrder<T>(s: seq<T>, x: T, key: T -> int)
    requires NonIncreasing(s, key)
    ensures NonIncreasing(InsertByKey(s, x, key), key)
  {
    if s != [] && key(s[0]) >= key(x) {
      var rest := InsertByKey(s[1..], x, key);
      InsertKeepsOrder(s[1..], x, key);
      forall j | 0 <= j < |rest| ensures key(s[0]) >= key(rest[j]) {
        var y := rest[j];
        assert y in multiset(rest);
        if y != x {
          assert y in multiset(s[1..]);
          var k :| 0 <= k < |s[1..]| && s[1..][k] == y;
          assert s[k + 1] == y;
        }
      }
    }
  }

  lemma {:induction false} InsertKeepsDistinct<T>(s: seq<T>, x: T, key: T -> int)
    requires Distinct(s) && x !in s
    ensures Distinct(InsertByKey(s, x, key))
  {
    if s != [] && key(s[0]) >= key(x) {
      var rest := InsertByKey(s[1..], x, key);
      InsertKeepsDistinct(s[1..], x, key);
      assert s[0] !in multiset(s[1..]);
      assert s[0] !in multiset(rest);
    }
  }

  /**
   * All of `items`, each exactly once, highest key first. Members with equal
   * keys come out in an unspecified order.
   */
  method SortByKey<T(==)>(items: set<T>, key: T -> int) returns (r: seq<T>)
    ensures Distinct(r) && |r| == |items|
    ensures forall x :: x in r <==> x in items
    ensures NonIncreasing(r, key)
  {
    r := [];
    var rest := items;
    while rest != {}
      invariant rest <= items
      invariant forall x :: x in r <==> x in items && x !in rest
      invariant Distinct(r) && |r| + |rest| == |items|
      invariant NonIncreasing(r, key)
      decreases |rest|
    {
      var x :| x in rest;
      var r' := InsertByKey(r, x, key);
      InsertKeepsOrder(r, x, key);
      InsertKeepsDistinct(r, x, key);
      assert forall y :: y in r' <==> y in multiset(r');
      assert forall y :: y in r <==> y in multiset(r);
      r, rest := r', rest - {x};
    }
  }
}

=== FILE: redis.dfy ===
/**
 * The fast key-value store (Redis): per-post view counters, the popularity
 * ranking, verification codes and the e-mail send cooldown markers. Keys of
 * one keyspace are grouped by the kind of value they hold.
 */
module FastStore {
  import opened Wrappers
  import Strconv
  import Ranking

  const Namespace: string := "nexus:"
  const VerifyCodePrefix: string := "nexus:verify_code:"
  const SendCooldownPrefix: string := "nexus:send_cooldown:"
  const PostViewPrefix: string := "nexus:post:view:"
  const PopularPostsKey: string := "nexus:posts:popular"

  function VerifyCodeKey(email: string): string
  {
    VerifyCodePrefix + email
  }

  function CooldownKey(email: string): string
  {
    SendCooldownPrefix + email
  }

  /** The view counter key of a post, the id written in decimal. */
  function ViewKey(postId: nat): string
  {
    PostViewPrefix + Strconv.FormatNat(postId)
  }

  /**
   * The view counter key as the code renders it: the prefix's `%s` verb
   * applied to an unsigned integer, which `fmt` prints as `%!s(uint=<id>)`.
   */
  function ViewKeyAsWritten(postId: nat): string
  {
    PostViewPrefix + "%!s(uint=" + Strconv.FormatNat(postId) + ")"
  }

  /** The ranking member of a post (`fmt.Sprint` of its id). */
  function RankMember(postId: nat): string
  {
    Strconv.FormatNat(postId)
  }

  /** Every key lives under the namespace, and the key families never collide. */
  lemma KeyFamilies(e1: string, e2: string, id: nat)
    ensures Namespace <= VerifyCodeKey(e1) && Namespace <= CooldownKey(e1)
    ensures Namespace <= ViewKey(id) && Namespace <= PopularPostsKey
    ensures VerifyCodeKey(e1) != CooldownKey(e2)
    ensures VerifyCodeKey(e1) != ViewKey(id) && CooldownKey(e1) != ViewKey(id)
    ensures ViewKey(id) != PopularPostsKey
  {
    assert VerifyCodeKey(e1)[6] == 'v' && CooldownKey(e2)[6] == 's' && ViewKey(id)[6] == 'p';
    assert ViewKey(id)[10] == ':' && PopularPostsKey[10] == 's';
  }

  /** Distinct e-mails and distinct posts get distinct keys. */
  lemma KeysInjective(e1: string, e2: string, id1: nat, id2: nat)
    ensures VerifyCodeKey(e1) == VerifyCodeKey(e2) ==> e1 == e2
    ensures CooldownKey(e1) == CooldownKey(e2) ==> e1 == e2
    ensures ViewKey(id1) == ViewKey(id2) ==> id1 == id2
  {
    if VerifyCodeKey(e1) == VerifyCodeKey(e2) {
      assert e1 == VerifyCodeKey(e1)[|VerifyCodePrefix|..];
      assert e2 == VerifyCodeKey(e2)[|VerifyCodePrefix|..];
    }
    if CooldownKey(e1) == CooldownKey(e2) {
      assert e1 == CooldownKey(e1)[|SendCooldownPrefix|..];
      assert e2 == CooldownKey(e2)[|SendCooldownPrefix|..];
    }
    if ViewKey(id1) == ViewKey(id2) {
      assert Strconv.FormatNat(id1) == ViewKey(id1)[|PostViewPrefix|..];
      assert Strconv.FormatNat(id2) == ViewKey(id2)[|PostViewPrefix|..];
      Strconv.FormatNatInjective(id1, id2);
    }
  }

  /** The value of an integer key, an absent key counting as 0. */
  function ValueOr0(m: map<string, int>, k: string): int
  {
    if k in m then m[k] else 0
  }

  /**
   * How many members `ZREVRANGE key 0 stop` returns from a set of `n`:
   * a negative stop counts from the end, a stop past the end is clamped.
   */
  function RangeCount(n: nat, stop: int): (r: nat)
    ensures r <= n
    ensures 0 <= stop ==> r == if stop < n then stop + 1 else n
    ensures stop < 0 ==> r == if n + stop < 0 then 0 else n + stop + 1
  {
    var s := if stop < 0 then n + stop else stop;
    if s < 0 then 0 else if s >= n then n else s + 1
  }

  /** The stop index of the popular list: `limit - 1` in Go's wrapping int64. */
  function PopularStop(limit: int): (stop: int)
    ensures Strconv.MinInt64 < limit <= Strconv.MaxInt64 ==> stop == limit - 1
    ensures limit == Strconv.MinInt64 ==> stop == Strconv.MaxInt64
  {
    Strconv.Wrap64(limit - 1)
  }

  /**
   * For a requested int64 `limit`: at most `limit` members, all of them for
   * 0 and for the smallest int64 (whose stop wraps to the largest; a sorted
   * set never holds more members than that), and none for a negative limit
   * reaching past the front.
   */
  lemma PopularWindow(n: nat, limit: int)
    requires Strconv.MinInt64 <= limit <= Strconv.MaxInt64
    ensures limit >= 1 ==> RangeCount(n, PopularStop(limit)) == if limit < n then limit else n
    ensures limit == 0 ==> RangeCount(n, PopularStop(limit)) == n
    ensures limit == Strconv.MinInt64 && n <= Strconv.MaxInt64 ==> RangeCount(n, PopularStop(limit)) == n
    ensures Strconv.MinInt64 < limit < 0 && n + limit < 1 ==> RangeCount(n, PopularStop(limit)) == 0
  {
  }

  /**
   * What `ZREVRANGE` from 0 to `stop` may return from a ranking: as many
   * members as the range selects, each once, highest score first, and no
   * member left out that scores above one returned.
   */
  predicate TopRanked(scores: map<string, int>, stop: int, ids: seq<string>)
  {
    |ids| == RangeCount(|scores|, stop) &&
    Ranking.Distinct(ids) &&
    (forall m :: m in ids ==> m in scores) &&
    (forall i, j :: 0 <= i < j < |ids| ==> scores[ids[i]] >= scores[ids[j]]) &&
    (forall m, i :: m in scores && m !in ids && 0 <= i < |ids| ==> scores[m] <= scores[ids[i]])
  }

  class Store {
    /** Integer-valued keys (the view counters). */
    var kv: map<string, int>
    /** The popularity ranking: member to score. */
    var scores: map<string, int>
    /** String-valued keys (verification codes). */
    var codes: map<string, string>
    /** Cooldown markers that are currently set. */
    var cooldown: set<string>

    constructor ()
      ensures kv == map[] && scores == map[] && codes == map[] && cooldown == {}
    {
      kv := map[];
      scores := map[];
      codes := map[];
      cooldown := {};
    }

    /**
     * `INCR` of the post's view counter: an absent key counts as 0; the
     * command fails, changing nothing, when the result would overflow int64.
     */
    method IncrementPostViewCount(postId: nat) returns (ok: bool)
      modifies this
      ensures ok <==> ValueOr0(old(kv), ViewKey(postId)) < Strconv.MaxInt64
      ensures ok ==> kv == old(kv)[ViewKey(postId) := ValueOr0(old(kv), ViewKey(postId)) + 1]
      ensures !ok ==> kv == old(kv)
      ensures scores == old(scores) && codes == old(codes) && cooldown == old(cooldown)
    {
      var key := ViewKey(postId);
      var before := ValueOr0(kv, key);
      if before >= Strconv.MaxInt64 {
        return false;
      }
      kv := kv[key := before + 1];
      return true;
    }

    /** `ZINCRBY`: the post's member gains `increment`, starting from 0; nothing else changes. */
    method IncrementPostRank(postId: nat, increment: int)
      modifies this
      ensures scores == old(scores)[RankMember(postId) := ValueOr0(old(scores), RankMember(postId)) + increment]
      ensures kv == old(kv) && codes == old(codes) && cooldown == old(cooldown)
    {
      var member := RankMember(postId);
      scores := scores[member := ValueOr0(scores, member) + increment];
    }

    /**
     * `ZREVRANGE popular 0 limit-1`: the highest-scored members first, as
     * many as the range selects. Members of equal score may come in any order.
     */
    method GetPopularPostIDs(limit: int) returns (ids: seq<string>)
      ensures TopRanked(scores, PopularStop(limit), ids)
    {
      var sc := scores;
      var key := (m: string) => ValueOr0(sc, m);
      var ranked := Ranking.SortByKey(sc.Keys, key);
      assert |sc.Keys| == |sc|;
      var n := RangeCount(|sc|, PopularStop(limit));
      ids := ranked[..n];
      forall m, i | m in scores && m !in ids && 0 <= i < |ids|
        ensures scores[m] <= scores[ids[i]]
      {
        var k :| 0 <= k < |ranked| && ranked[k] == m;
        assert k >= n;
        assert key(ranked[i]) >= key(ranked[k]);
      }
    }

    /** `GETSET`: the key is set whether or not it existed; an absent key yields the nil reply. */
    method GetSet(key: string, value: int) returns (prev: Option<int>)
      modifies this
      ensures prev == if key in old(kv) then Some(old(kv)[key]) else None
      ensures kv == old(kv)[key := value]
      ensures scores == old(scores) && codes == old(codes) && cooldown == old(cooldown)
    {
      prev := if key in kv then Some(kv[key]) else None;
      kv := kv[key := value];
    }

    /** `GET` of the e-mail's verification code; `None` is the nil reply for an absent key. */
    function GetVerificationCode(email: string): Option<string>
      reads this
    {
      var key := VerifyCodeKey(email);
      if key in codes then Some(codes[key]) else None
    }

    /** `SET` of the e-mail's code: afterwards it reads back, other e-mails are untouched. */
    method SetVerifyCode(email: string, code: string)
      modifies this
      ensures GetVerificationCode(email) == Some(code)
      ensures forall e :: e != email ==> GetVerificationCode(e) == old(GetVerificationCode(e))
      ensures codes == old(codes)[VerifyCodeKey(email) := code]
      ensures kv == old(kv) && scores == old(scores) && cooldown == old(cooldown)
    {
      codes := codes[VerifyCodeKey(email) := code];
      forall e | e != email
        ensures VerifyCodeKey(e) != VerifyCodeKey(email)
      {
        KeysInjective(e, email, 0, 0);
      }
    }

    /** `DEL` of the e-mail's code: afterwards it no longer reads back. */
    method DelVerificationCode(email: string)
      modifies this
      ensures GetVerificationCode(email).None?
      ensures forall e :: e != email ==> GetVerificationCode(e) == old(GetVerificationCode(e))
      ensures codes == old(codes) - {VerifyCodeKey(email)}
      ensures kv == old(kv) && scores == old(scores) && cooldown == old(cooldown)
    {
      codes := codes - {VerifyCodeKey(email)};
      forall e | e != email
        ensures VerifyCodeKey(e) != VerifyCodeKey(email)
      {
        KeysInjective(e, email, 0, 0);
      }
    }

    /**
     * `SETNX` of the cooldown marker: reports `true` (still cooling down)
     * exactly when the marker already existed; either way it exists afterwards.
     */
    method CheckSendCooldown(email: string) returns (onCooldown: bool)
      modifies this
      ensures onCooldown <==> CooldownKey(email) in old(cooldown)
      ensures cooldown == old(cooldown) + {CooldownKey(email)}
      ensures kv == old(kv) && scores == old(scores) && codes == old(codes)
    {
      var key := CooldownKey(email);
      onCooldown := key in cooldown;
      if !onCooldown {
        cooldown := cooldown + {key};
      }
    }

    /** The lapse of a key's time-to-live (verification codes and cooldown markers carry one). */
    method Expire(key: string)
      modifies this
      ensures codes == old(codes) - {key} && cooldown == old(cooldown) - {key}
      ensures kv == old(kv) && scores == old(scores)
    {
      codes := codes - {key};
      cooldown := cooldown - {key};
    }
  }
}

=== FILE: res.dfy ===
/**
 * The JSON envelope every handler answers with: a business code, a message
 * and an arbitrary data payload, always sent with HTTP status 200.
 */
module Res {
  import opened Wrappers
  import Erru

  /** The `data` field: `nil`, an empty object, a handler's payload, or a wrapped cause. */
  datatype Data<T> = Nil | EmptyMap | Value(v: T) | Cause(err: Erru.GoError)

  datatype Response<T> = Response(status: int, code: int, msg: string, data: Data<T>)

  /** The HTTP status used for every envelope, failures included. */
  const EnvelopeStatus: int := 200

  /** The code `FailWithMsg` reports. */
  const MsgFailureCode: int := 1003

  /** A response is a success for the client exactly when its code is 0. */
  predicate IsSuccess<T>(r: Response<T>)
  {
    r.code == Erru.OK
  }

  function Respond<T>(code: int, data: Data<T>, msg: string): (r: Response<T>)
    ensures r.status == EnvelopeStatus
    ensures r.code == code && r.msg == msg && r.data == data
  {
    Response(EnvelopeStatus, code, msg, data)
  }

  function Ok<T>(data: Data<T>, msg: string): (r: Response<T>)
    ensures r.status == EnvelopeStatus && IsSuccess(r)
    ensures r.msg == msg && r.data == data
  {
    Respond(Erru.OK, data, msg)
  }

  function OkWithData<T>(v: T): (r: Response<T>)
    ensures r.status == EnvelopeStatus && IsSuccess(r)
    ensures r.msg == "success" && r.data == Value(v)
  {
    Ok(Value(v), "success")
  }

  function OkWithMsg<T>(msg: string): (r: Response<T>)
    ensures r.status == EnvelopeStatus && IsSuccess(r)
    ensures r.msg == msg && r.data == EmptyMap
  {
    Ok(EmptyMap, msg)
  }

  function Fail<T>(code: int, data: Data<T>, msg: string): (r: Response<T>)
    ensures r.status == EnvelopeStatus
    ensures r.code == code && r.msg == msg && r.data == data
  {
    Respond(code, data, msg)
  }

  /** The error's code and message, with its wrapped cause (if any) as data. */
  function FailWithAppErr<T>(e: Erru.AppError): (r: Response<T>)
    ensures r.status == EnvelopeStatus
    ensures r.code == e.code && r.msg == e.msg
    ensures r.data.Nil? <==> Erru.Unwrap(e).None?
    ensures Erru.Unwrap(e).Some? ==> r.data == Cause(Erru.Unwrap(e).value)
  {
    match e.err
    case None => Respond(e.code, Nil, e.msg)
    case Some(cause) => Respond(e.code, Cause(cause), e.msg)
  }

  function FailWithMsg<T>(msg: string): (r: Response<T>)
    ensures r.status == EnvelopeStatus && !IsSuccess(r)
    ensures r.code == MsgFailureCode && r.msg == msg && r.data.Nil?
  {
    Fail(MsgFailureCode, Nil, msg)
  }

  function FailWithCode<T>(code: int): (r: Response<T>)
    ensures r.status == EnvelopeStatus
    ensures r.code == code && r.msg == "" && r.data.Nil?
  {
    Fail(code, Nil, "")
  }

  /**
   * Failing with a predefined error other than `ErrOK` never looks like a
   * success, and carries no data because nothing is wrapped.
   */
  lemma PredefinedFailuresAreFailures<T>(i: nat)
    requires 1 <= i < |Erru.Predefined|
    ensures !IsSuccess(FailWithAppErr<T>(Erru.Predefined[i]))
    ensures FailWithAppErr<T>(Erru.Predefined[i]).data.Nil?
  {
    Erru.PredefinedErrors();
    Erru.CodesDistinct();
  }

  /** Wrapping a cause into an error changes only the data of its envelope. */
  lemma FailWithWrapped<T>(e: Erru.AppError, cause: Erru.GoError)
    ensures var r := FailWithAppErr<T>(Erru.Wrap(e, Some(cause)));
      r.code == e.code && r.msg == e.msg && r.data == Cause(cause)
  {
  }
}

=== FILE: strconv.dfy ===
/**
 * Decimal numerals, integer wrap-around and string splitting as the Go
 * standard library (fmt, strconv, strings) performs them. Every parse here is
 * the "error discarded" form the repository uses (`x, _ := strconv.ParseUint(...)`):
 * a syntax error yields 0 and an out-of-range value yields the clamped bound.
 */
module Strconv {

  const MaxUint32: nat := 0xFFFF_FFFF
  const MaxUint64: nat := 0xFFFF_FFFF_FFFF_FFFF
  const MaxInt64: int := 0x7FFF_FFFF_FFFF_FFFF
  const MinInt64: int := -0x8000_0000_0000_0000
  const TwoTo64: nat := 0x1_0000_0000_0000_0000

  // ---------------------------------------------------------------- int64

  /** Two's-complement wrap-around to 64 bits, as Go's `int`/`int64` arithmetic does. */
  function Wrap64(x: int): (r: int)
    ensures MinInt64 <= r <= MaxInt64
    ensures (x - r) % TwoTo64 == 0
    ensures MinInt64 <= x <= MaxInt64 ==> r == x
  {
    var m := x % TwoTo64;
    if m > MaxInt64 then m - TwoTo64 else m
  }

  // ---------------------------------------------------------------- digits

  predicate IsDigit(c: char) { '0' <= c <= '9' }

  predicate AllDigits(s: string) { forall i :: 0 <= i < |s| ==> IsDigit(s[i]) }

  function DigitChar(d: nat): (c: char)
    requires d < 10
    ensures IsDigit(c)
  {
    ('0' as int + d) as char
  }

  function DigitValue(c: char): (d: nat)
    requires IsDigit(c)
    ensures d < 10 && DigitChar(d) == c
  {
    c as int - '0' as int
  }

  /** The decimal numeral of `n`, as `fmt.Sprint` and the `%d` verb write it. */
  function FormatNat(n: nat): (s: string)
    ensures s != [] && AllDigits(s)
    ensures s[0] == '0' <==> n == 0
    decreases n
  {
    if n < 10 then [DigitChar(n)] else FormatNat(n / 10) + [DigitChar(n % 10)]
  }

  /** `%d` of a signed integer. */
  function FormatInt(n: int): (s: string)
    ensures s != []
    ensures n >= 0 ==> s == FormatNat(n)
    ensures n < 0 ==> s[0] == '-' && s[1..] == FormatNat(-n)
  {
    if n >= 0 then FormatNat(n) else "-" + FormatNat(-n)
  }

  /** The value a string of decimal digits denotes. */
  function DigitsValue(s: string): nat
    requires AllDigits(s)
  {
    if s == [] then 0 else DigitsValue(s[..|s| - 1]) * 10 + DigitValue(s[|s| - 1])
  }

  /** Reading back a numeral gives the number it was written from. */
  lemma {:induction false} FormatNatRoundTrip(n: nat)
    ensures DigitsValue(FormatNat(n)) == n
  {
    if n >= 10 {
      var s := FormatNat(n);
      assert s[..|s| - 1] == FormatNat(n / 10);
      FormatNatRoundTrip(n / 10);
    }
  }

  /** Distinct numbers have distinct numerals. */
  lemma FormatNatInjective(a: nat, b: nat)
    ensures FormatNat(a) == FormatNat(b) ==> a == b
  {
    FormatNatRoundTrip(a);
    FormatNatRoundTrip(b);
  }

  /** 10^n in mathematical integers. */
  function Power10(n: nat): (p: nat)
    ensures p >= 1
  {
    if n == 0 then 1 else 10 * Power10(n - 1)
  }

  lemma {:induction false} Power10Monotone(a: nat, b: nat)
    requires a <= b
    ensures Power10(a) <= Power10(b)
  {
    if a < b {
      Power10Monotone(a, b - 1);
    }
  }

  lemma Power10At18()
    ensures Power10(18) == 1_000_000_000_000_000_000
  {
    assert Power10(1) == 10;
    assert Power10(2) == 100;
    assert Power10(3) == 1000;
    assert Power10(4) == 10000;
    assert Power10(5) == 100000;
    assert Power10(6) == 1000000;
    assert Power10(7) == 10000000;
    assert Power10(8) == 100000000;
    assert Power10(9) == 1000000000;
    assert Power10(10) == 10000000000;
    assert Power10(11) == 100000000000;
    assert Power10(12) == 1000000000000;
    assert Power10(13) == 10000000000000;
    assert Power10(14) == 100000000000000;
    assert Power10(15) == 1000000000000000;
    assert Power10(16) == 10000000000000000;
    assert Power10(17) == 100000000000000000;
    assert Power10(18) == 1000000000000000000;
  }

  /** A numeral of `k` digits denotes less than 10^k. */
  lemma {:induction false} DigitsBelow(s: string)
    requires AllDigits(s)
    ensures DigitsValue(s) < Power10(|s|)
  {
    if s != [] {
      DigitsBelow(s[..|s| - 1]);
    }
  }

  /** Appending digits never makes a numeral smaller. */
  lemma {:induction false} DigitsValueGrows(a: string, b: string)
    requires AllDigits(a + b)
    ensures AllDigits(a) && DigitsValue(a) <= DigitsValue(a + b)
    decreases |b|
  {
    assert a == (a + b)[..|a|];
    if b == [] {
      assert a + b == a;
    } else {
      var c := a + b[..|b| - 1];
      assert (a + b)[..|a + b| - 1] == c;
      DigitsValueGrows(a, b[..|b| - 1]);
      assert DigitsValue(a + b) == DigitsValue(c) * 10 + DigitValue((a + b)[|a + b| - 1]);
    }
  }

  /** Length of the run of decimal digits at the start of `s`. */
  function DigitPrefixLen(s: string): (k: nat)
    ensures k <= |s| && AllDigits(s[..k])
    ensures k < |s| ==> !IsDigit(s[k])
  {
    if s == [] || !IsDigit(s[0]) then 0
    else
      var k := 1 + DigitPrefixLen(s[1..]);
      assert s[..k] == [s[0]] + s[1..][..k - 1];
      k
  }

  /** A run of digits followed by `t` starts with the whole run. */
  lemma {:induction false} DigitPrefixAppend(p: string, t: string)
    requires AllDigits(p)
    ensures DigitPrefixLen(p + t) == |p| + DigitPrefixLen(t)
    decreases |p|
  {
    if p == [] {
      assert p + t == t;
    } else {
      assert (p + t)[0] == p[0] && IsDigit(p[0]);
      assert (p + t)[1..] == p[1..] + t;
      DigitPrefixAppend(p[1..], t);
    }
  }

  /**
   * `v, _ := strconv.ParseUint(s, 10, bits)` with `max` = 2^bits - 1, stated
   * on the run of digits at the front of `s`: once that run denotes more
   * than `max` the result is `max`, whatever follows it; otherwise any other
   * character after it, or an empty string, gives 0.
   */
  function ParseUintLoose(s: string, max: nat): (r: nat)
    ensures r <= max
  {
    var k := DigitPrefixLen(s);
    var v := DigitsValue(s[..k]);
    if v > max then max else if k < |s| then 0 else v
  }

  /**
   * The loop of Go's `ParseUint` for base 10, character by character: a
   * non-digit stops it with 0, an accumulator passing `max` stops it with
   * `max`.
   */
  function ParseUintScan(s: string, max: nat, n: nat): (r: nat)
    requires n <= max
    ensures r <= max
  {
    if s == [] then n
    else if !IsDigit(s[0]) then 0
    else if n * 10 + DigitValue(s[0]) > max then max
    else ParseUintScan(s[1..], max, n * 10 + DigitValue(s[0]))
  }

  lemma {:induction false} ScanFrom(p: string, s: string, max: nat)
    requires AllDigits(p) && DigitsValue(p) <= max
    ensures ParseUintScan(s, max, DigitsValue(p)) == ParseUintLoose(p + s, max)
    decreases |s|
  {
    if s == [] {
      assert p + s == p;
      DigitsOnly(p, max);
    } else {
      assert p + s == p + [s[0]] + s[1..];
      if !IsDigit(s[0]) {
        ParseUintSyntaxError(p, s[0], s[1..], max);
      } else {
        var q := p + [s[0]];
        assert q[..|q| - 1] == p;
        if DigitsValue(q) > max {
          ParseUintOverflow(q, s[1..], max);
        } else {
          ScanFrom(q, s[1..], max);
        }
      }
    }
  }

  /** The closed form agrees with Go's loop on every input. */
  lemma ParseUintMatchesScan(s: string, max: nat)
    ensures ParseUintScan(s, max, 0) == ParseUintLoose(s, max)
  {
    assert [] + s == s;
    ScanFrom([], s, max);
  }

  /** A string of digits within range parses to the value it denotes. */
  lemma DigitsOnly(s: string, max: nat)
    requires AllDigits(s) && DigitsValue(s) <= max
    ensures ParseUintLoose(s, max) == DigitsValue(s)
  {
    DigitPrefixAppend(s, []);
    assert s + [] == s && s[..|s|] == s;
  }

  /** A numeral within range parses back to its number. */
  lemma ParseUintFormatRoundTrip(n: nat, max: nat)
    requires n <= max
    ensures ParseUintLoose(FormatNat(n), max) == n
  {
    FormatNatRoundTrip(n);
    DigitsOnly(FormatNat(n), max);
  }

  /** A character that is not a digit, met before the digits overflow, makes the parse 0. */
  lemma ParseUintSyntaxError(p: string, c: char, t: string, max: nat)
    requires AllDigits(p) && DigitsValue(p) <= max && !IsDigit(c)
    ensures ParseUintLoose(p + [c] + t, max) == 0
  {
    var rest := [c] + t;
    var s := p + rest;
    assert p + [c] + t == s;
    DigitPrefixAppend(p, rest);
    assert rest[0] == c;
    assert DigitPrefixLen(rest) == 0;
    assert s[..|p|] == p;
  }

  /** Digits that already overflow give `max`, whatever follows them. */
  lemma ParseUintOverflow(p: string, t: string, max: nat)
    requires AllDigits(p) && DigitsValue(p) > max
    ensures ParseUintLoose(p + t, max) == max
  {
    DigitPrefixAppend(p, t);
    var k := DigitPrefixLen(p + t);
    assert (p + t)[..k] == p + (p + t)[|p|..k];
    DigitsValueGrows(p, (p + t)[|p|..k]);
  }

  /**
   * `v, _ := strconv.Atoi(s)` on a 64-bit platform: an optional sign, then
   * the rest read by `ParseUint(…, 10, 64)` and clamped to the int64 range
   * by the sign. Go takes a shortcut below 19 characters; `AtoiShortForm`
   * shows that it agrees.
   */
  function AtoiLoose(s: string): (r: int)
    ensures MinInt64 <= r <= MaxInt64
  {
    if s == [] then 0
    else
      var signed := s[0] == '-' || s[0] == '+';
      var u: int := ParseUintLoose(if signed then s[1..] else s, MaxUint64);
      if s[0] == '-' then (if u > -MinInt64 then MinInt64 else -u)
      else (if u > MaxInt64 then MaxInt64 else u)
  }

  /** Go's shortcut for fewer than 19 characters: a sign, then only digits, anything else giving 0. */
  lemma AtoiShortForm(s: string)
    requires 0 < |s| < 19
    ensures var digits := if s[0] == '-' || s[0] == '+' then s[1..] else s;
      AtoiLoose(s) == (if digits == [] || !AllDigits(digits) then 0
                       else if s[0] == '-' then -(DigitsValue(digits) as int) else DigitsValue(digits))
  {
    ShortDigits(if s[0] == '-' || s[0] == '+' then s[1..] else s);
  }

  /** Below 19 digits nothing overflows: only digits read as their value, anything else as 0. */
  lemma ShortDigits(d: string)
    requires |d| <= 18
    ensures ParseUintLoose(d, MaxUint64) == if d == [] || !AllDigits(d) then 0 else DigitsValue(d)
    ensures AllDigits(d) ==> DigitsValue(d) < 1_000_000_000_000_000_000
  {
    Power10At18();
    if AllDigits(d) {
      DigitsBelow(d);
      Power10Monotone(|d|, 18);
      DigitsOnly(d, MaxUint64);
    } else {
      var k := DigitPrefixLen(d);
      DigitsBelow(d[..k]);
      Power10Monotone(k, 18);
      assert d[..|d|] == d;
      assert DigitsValue(d[..k]) <= MaxUint64;
    }
  }

  lemma AtoiFormatRoundTrip(n: nat)
    requires n <= MaxInt64
    ensures AtoiLoose(FormatNat(n)) == n
  {
    ParseUintFormatRoundTrip(n, MaxUint64);
  }

  /** Every int64 written in decimal reads back as itself. */
  lemma AtoiFormatIntRoundTrip(n: int)
    requires MinInt64 <= n <= MaxInt64
    ensures AtoiLoose(FormatInt(n)) == n
  {
    ParseUintFormatRoundTrip(if n < 0 then -n else n, MaxUint64);
  }

  /** Digits past the uint64 range read as the int64 bound of their sign, whatever follows. */
  lemma AtoiOverflow(p: string, t: string)
    requires p != [] && AllDigits(p) && DigitsValue(p) > MaxUint64
    ensures AtoiLoose(p + t) == MaxInt64
    ensures AtoiLoose("-" + p + t) == MinInt64
  {
    ParseUintOverflow(p, t, MaxUint64);
    assert (p + t)[0] == p[0] && IsDigit(p[0]);
    AtoiNegative(p + t);
    assert "-" + p + t == "-" + (p + t);
  }

  /** After a minus sign, `Atoi` is the negated `ParseUint` clamped to the int64 minimum. */
  lemma AtoiNegative(s: string)
    ensures var u: int := ParseUintLoose(s, MaxUint64);
      AtoiLoose("-" + s) == if u > -MinInt64 then MinInt64 else -u
  {
    assert ("-" + s)[0] == '-' && ("-" + s)[1..] == s;
  }

  // ---------------------------------------------------------------- splitting

  /** Inverse of `Split`: the parts glued with `sep` between them (`strings.Join`). */
  function Join(parts: seq<string>, sep: char): string
  {
    if parts == [] then []
    else if |parts| == 1 then parts[0]
    else parts[0] + [sep] + Join(parts[1..], sep)
  }

  /** `strings.Split(s, string(sep))`. */
  function Split(s: string, sep: char): (parts: seq<string>)
    ensures |parts| >= 1
    ensures forall i :: 0 <= i < |parts| ==> sep !in parts[i]
    ensures Join(parts, sep) == s
    decreases |s|
  {
    if s == [] then [[]]
    else
      var rest := Split(s[1..], sep);
      if s[0] == sep then
        assert ([[]] + rest)[1..] == rest;
        [[]] + rest
      else
        var parts := [[s[0]] + rest[0]] + rest[1..];
        assert parts[1..] == rest[1..];
        assert Join(parts, sep) == s by {
          if |rest| > 1 {
            assert Join(rest, sep) == rest[0] + [sep] + Join(rest[1..], sep);
          }
        }
        parts
  }

  lemma {:induction false} SplitNoSeparator(s: string, sep: char)
    requires sep !in s
    ensures Split(s, sep) == [s]
    decreases |s|
  {
    if s != [] {
      SplitNoSeparator(s[1..], sep);
    }
  }

  lemma {:induction false} SplitAfterPart(a: string, sep: char, b: string)
    requires sep !in a
    ensures Split(a + [sep] + b, sep) == [a] + Split(b, sep)
    decreases |a|
  {
    if a == [] {
      assert ([] + [sep] + b)[1..] == b;
    } else {
      assert (a + [sep] + b)[1..] == a[1..] + [sep] + b;
      SplitAfterPart(a[1..], sep, b);
      assert [a[0]] + a[1..] == a;
    }
  }

  /** Split is the only way to cut `s` into separator-free parts that join back to `s`. */
  lemma {:induction false} SplitUnique(parts: seq<string>, sep: char)
    requires |parts| >= 1
    requires forall i :: 0 <= i < |parts| ==> sep !in parts[i]
    ensures Split(Join(parts, sep), sep) == parts
    decreases |parts|
  {
    if |parts| == 1 {
      SplitNoSeparator(parts[0], sep);
    } else {
      SplitUnique(parts[1..], sep);
      SplitAfterPart(parts[0], sep, Join(parts[1..], sep));
      assert [parts[0]] + parts[1..] == parts;
    }
  }

  /** Index of the first `c` in `s`, or -1 (`strings.Index` for one character). */
  function IndexOf(s: string, c: char): (i: int)
    ensures -1 <= i < |s|
    ensures i == -1 <==> c !in s
    ensures 0 <= i ==> s[i] == c && c !in s[..i]
    decreases |s|
  {
    if s == [] then -1
    else if s[0] == c then 0
    else
      var j := IndexOf(s[1..], c);
      if j == -1 then -1
      else
        assert s[..j + 1] == [s[0]] + s[1..][..j];
        j + 1
  }

  /** `strings.SplitN(s, string(sep), 2)`: cut at the first separator only. */
  function SplitN2(s: string, sep: char): (parts: seq<string>)
    ensures 1 <= |parts| <= 2
    ensures |parts| == 1 <==> sep !in s
    ensures |parts| == 1 ==> parts[0] == s
    ensures |parts| == 2 ==> sep !in parts[0] && parts[0] + [sep] + parts[1] == s
  {
    var i := IndexOf(s, sep);
    if i < 0 then [s]
    else
      assert s == s[..i] + [sep] + s[i + 1..];
      [s[..i], s[i + 1..]]
  }

  /** Cutting at the first separator recovers the separator-free head and the whole tail. */
  lemma SplitN2Unique(a: string, sep: char, b: string)
    requires sep !in a
    ensures SplitN2(a + [sep] + b, sep) == [a, b]
  {
    var s := a + [sep] + b;
    assert s[|a|] == sep;
    var parts := SplitN2(s, sep);
    var h := parts[0];
    assert h == s[..|a|] == a;
    assert parts[1] == s[|a| + 1..] == b;
  }
}

=== FILE: synctasks.dfy ===
/**
 * The flush worker that moves accumulated view counts from the fast store
 * into the durable `view_count` column.
 *
 * A run has two phases. The scan collects every view key, page by page, and
 * stops when the cursor comes back as 0 or on the first scan error. The drain
 * then takes each key's pending count with GETSET "0", parses the post id out
 * of the key and adds the count to the post. The first failed durable write
 * ends the run.
 *
 * The server's scan replies are a parameter: the model takes the sequence of
 * replies the server gives to successive SCAN calls.
 */
module SyncTasks {
  import opened Wrappers
  import Strconv
  import FastStore
  import opened PostDao

  // ------------------------------------------------------------- scanning

  /** One reply to SCAN: an error, or a page of keys with the cursor to continue from. */
  datatype ScanReply = ScanError | Page(keys: seq<string>, cursor: nat)

  /** A reply after which the scan loop does not ask again. */
  predicate Stops(r: ScanReply)
  {
    r.ScanError? || r.cursor == 0
  }

  /** The server eventually ends the iteration or fails. */
  predicate Terminates(replies: seq<ScanReply>)
  {
    exists i :: 0 <= i < |replies| && Stops(replies[i])
  }

  /** The index of the reply that ends the scan. */
  function FirstStop(replies: seq<ScanReply>): (k: nat)
    requires Terminates(replies)
    ensures k < |replies| && Stops(replies[k])
    ensures forall j :: 0 <= j < k ==> !Stops(replies[j])
  {
    FirstStopFrom(replies, 0)
  }

  /** The first reply at or after `i` that ends the scan. */
  function FirstStopFrom(replies: seq<ScanReply>, i: nat): (k: nat)
    requires exists j :: i <= j < |replies| && Stops(replies[j])
    ensures i <= k < |replies| && Stops(replies[k])
    ensures forall j :: i <= j < k ==> !Stops(replies[j])
    decreases |replies| - i
  {
    if Stops(replies[i]) then i else FirstStopFrom(replies, i + 1)
  }

  /** The keys a reply carries. */
  function PageKeys(r: ScanReply): seq<string>
  {
    if r.Page? then r.keys else []
  }

  /** The keys of several replies, in order. */
  function Flatten(rs: seq<ScanReply>): seq<string>
  {
    if rs == [] then [] else Flatten(rs[..|rs| - 1]) + PageKeys(rs[|rs| - 1])
  }

  /** What the scan phase yields: no keys on a scan error, else every key of every page up to the last. */
  function ScanResult(replies: seq<ScanReply>): Option<seq<string>>
    requires Terminates(replies)
  {
    var k := FirstStop(replies);
    if replies[k].ScanError? then None else Some(Flatten(replies[..k + 1]))
  }

  /** Reading one more reply appends its keys. */
  lemma FlattenNext(rs: seq<ScanReply>, i: nat)
    requires i < |rs|
    ensures Flatten(rs[..i + 1]) == Flatten(rs[..i]) + PageKeys(rs[i])
  {
    assert rs[..i + 1][..i] == rs[..i];
  }

  /** The first reply that stops the scan, reached in order, is the one `ScanResult` is taken at. */
  lemma ScanEndsAt(replies: seq<ScanReply>, i: nat)
    requires Terminates(replies) && i <= FirstStop(replies) && i < |replies| && Stops(replies[i])
    ensures i == FirstStop(replies)
    ensures ScanResult(replies) == if replies[i].ScanError? then None else Some(Flatten(replies[..i + 1]))
  {
  }

  /** Every key on any page the scan read is among the keys it collected. */
  lemma {:induction false} FlattenCollects(rs: seq<ScanReply>, j: nat, key: string)
    requires j < |rs| && key in PageKeys(rs[j])
    ensures key in Flatten(rs)
    decreases |rs|
  {
    if j < |rs| - 1 {
      FlattenCollects(rs[..|rs| - 1], j, key);
    }
  }

  /** A successful scan holds every key of every page it read. */
  lemma ScanCollectsEveryPage(replies: seq<ScanReply>)
    requires Terminates(replies) && ScanResult(replies).Some?
    ensures forall j, key :: 0 <= j <= FirstStop(replies) && key in PageKeys(replies[j]) ==>
      key in ScanResult(replies).value
  {
    var k := FirstStop(replies);
    forall j, key | 0 <= j <= k && key in PageKeys(replies[j])
      ensures key in ScanResult(replies).value
    {
      assert replies[..k + 1][j] == replies[j];
      FlattenCollects(replies[..k + 1], j, key);
    }
  }

  /** The cursor a reply hands back; an error hands back none, read as 0. */
  function NextCursor(r: ScanReply): nat
  {
    if r.Page? then r.cursor else 0
  }

  /** The cursors of the first `n + 1` SCAN calls: 0, then each reply's cursor in turn. */
  function Sent(replies: seq<ScanReply>, n: nat): (c: seq<nat>)
    requires n <= |replies|
    ensures |c| == n + 1 && c[0] == 0
  {
    if n == 0 then [0] else Sent(replies, n - 1) + [NextCursor(replies[n - 1])]
  }

  /**
   * The calls of a scan: the first is made with cursor 0 and every later one
   * with the non-zero cursor of a page the previous call returned.
   */
  lemma {:induction false} SentCursors(replies: seq<ScanReply>, n: nat)
    requires Terminates(replies) && n <= FirstStop(replies)
    ensures forall j :: 1 <= j <= n ==>
      replies[j - 1].Page? && Sent(replies, n)[j] == replies[j - 1].cursor && Sent(replies, n)[j] != 0
  {
    if n > 0 {
      SentCursors(replies, n - 1);
      assert forall j :: 0 <= j < n ==> Sent(replies, n)[j] == Sent(replies, n - 1)[j];
      assert !Stops(replies[n - 1]);
    }
  }

  /**
   * The scan loop: SCAN from cursor 0 with the pattern `nexus:post:view:*`,
   * append each page, and ask again from the returned cursor until it is 0.
   * `cursors` are the cursors the calls were made with.
   */
  method ScanViewKeys(replies: seq<ScanReply>) returns (keys: Option<seq<string>>, cursors: seq<nat>)
    requires Terminates(replies)
    ensures keys == ScanResult(replies)
    ensures cursors == Sent(replies, FirstStop(replies))
  {
    var cursor: nat := 0;
    var collected: seq<string> := [];
    cursors := [];
    var i := 0;
    ghost var k := FirstStop(replies);
    while true
      invariant 0 <= i <= k
      invariant collected == Flatten(replies[..i])
      invariant cursors + [cursor] == Sent(replies, i)
      decreases k - i
    {
      cursors := cursors + [cursor];
      var reply := replies[i];
      FlattenNext(replies, i);
      if reply.ScanError? {
        ScanEndsAt(replies, i);
        return None, cursors;
      }
      collected := collected + reply.keys;
      cursor := reply.cursor;
      if cursor == 0 {
        ScanEndsAt(replies, i);
        return Some(collected), cursors;
      }
      i := i + 1;
    }
  }

  // ------------------------------------------------------------- draining

  /** The post id a view key names: the fourth of exactly four `:`-separated fields, unless it parses to 0. */
  function ParseViewKey(key: string): Option<nat>
  {
    var parts := Strconv.Split(key, ':');
    if |parts| != 4 then None
    else
      var id := Strconv.ParseUintLoose(parts[3], Strconv.MaxUint64);
      if id == 0 then None else Some(id)
  }

  /** Four fields joined with separators. */
  lemma Join4(a: string, b: string, c: string, d: string, sep: char)
    ensures Strconv.Join([a, b, c, d], sep) == a + [sep] + b + [sep] + c + [sep] + d
  {
    var parts := [a, b, c, d];
    assert parts[1..] == [b, c, d];
    assert parts[1..][1..] == [c, d];
    assert parts[1..][1..][1..] == [d];
    calc {
      Strconv.Join(parts, sep);
      a + [sep] + Strconv.Join([b, c, d], sep);
      a + [sep] + (b + [sep] + Strconv.Join([c, d], sep));
      a + [sep] + (b + [sep] + (c + [sep] + Strconv.Join([d], sep)));
    }
  }

  /** The key of a post written in decimal parses back to that post. */
  lemma ViewKeyRoundTrip(id: nat)
    requires 0 < id <= Strconv.MaxUint64
    ensures ParseViewKey(FastStore.ViewKey(id)) == Some(id)
  {
    var d := Strconv.FormatNat(id);
    var parts := ["nexus", "post", "view", d];
    assert ':' !in d by {
      assert forall i :: 0 <= i < |d| ==> Strconv.IsDigit(d[i]);
    }
    assert Strconv.Join(parts, ':') == FastStore.ViewKey(id) by {
      Join4("nexus", "post", "view", d, ':');
      assert FastStore.PostViewPrefix == "nexus" + [':'] + "post" + [':'] + "view" + [':'];
    }
    Strconv.SplitUnique(parts, ':');
    Strconv.ParseUintFormatRoundTrip(id, Strconv.MaxUint64);
  }

  /** The key as the fast store writes it (`%!s(uint=<id>)`) never parses to a post. */
  lemma ViewKeyAsWrittenRejected(id: nat)
    ensures ParseViewKey(FastStore.ViewKeyAsWritten(id)) == None
  {
    var d := Strconv.FormatNat(id);
    var tail := "%!s(uint=" + d + ")";
    var parts := ["nexus", "post", "view", tail];
    assert ':' !in tail by {
      assert forall i :: 0 <= i < |d| ==> Strconv.IsDigit(d[i]);
      assert forall i :: 0 <= i < |tail| ==> tail[i] != ':';
    }
    assert Strconv.Join(parts, ':') == FastStore.ViewKeyAsWritten(id) by {
      Join4("nexus", "post", "view", tail, ':');
      assert FastStore.PostViewPrefix == "nexus" + [':'] + "post" + [':'] + "view" + [':'];
    }
    Strconv.SplitUnique(parts, ':');
    assert [] + [tail[0]] + tail[1..] == tail;
    Strconv.ParseUintSyntaxError([], tail[0], tail[1..], Strconv.MaxUint64);
  }

  /** The fast and durable counters the drain works on, and whether a durable write has failed. */
  datatype FlushState = FlushState(kv: map<string, int>, posts: map<nat, Post>, aborted: bool)

  /**
   * Draining one key: GETSET it to 0 (an absent key is set too, and its nil
   * reply skips the key); a pending count that reads as 0 is skipped, and so
   * is a key that names no post; otherwise the count is added to the post,
   * and a post that is not there ends the run.
   */
  function Step(s: FlushState, key: string): FlushState
  {
    if s.aborted then s
    else
      var kv := s.kv[key := 0];
      if key !in s.kv then s.(kv := kv)
      else
        var increment := Strconv.AtoiLoose(Strconv.FormatInt(s.kv[key]));
        if increment == 0 then s.(kv := kv)
        else
          match ParseViewKey(key)
          case None => s.(kv := kv)
          case Some(id) =>
            if id in s.posts then FlushState(kv, ViewAdded(s.posts, id, increment), false)
            else FlushState(kv, s.posts, true)
  }

  /** Draining the keys in order. */
  function Drain(s: FlushState, keys: seq<string>): FlushState
  {
    if keys == [] then s else Step(Drain(s, keys[..|keys| - 1]), keys[|keys| - 1])
  }

  /** Once a write has failed, nothing more changes. */
  lemma {:induction false} DrainAfterAbort(s: FlushState, keys: seq<string>)
    requires s.aborted
    ensures Drain(s, keys) == s
  {
    if keys != [] {
      DrainAfterAbort(s, keys[..|keys| - 1]);
    }
  }

  /** Draining two runs of keys is draining the first, then the second. */
  lemma {:induction false} DrainAppend(s: FlushState, a: seq<string>, b: seq<string>)
    ensures Drain(s, a + b) == Drain(Drain(s, a), b)
  {
    if b != [] {
      assert (a + b)[..|a + b| - 1] == a + b[..|b| - 1];
      DrainAppend(s, a, b[..|b| - 1]);
    } else {
      assert a + b == a;
    }
  }

  /** A drain whose first `n` keys aborted it ends where those `n` keys left it. */
  lemma DrainStopsAtAbort(s: FlushState, keys: seq<string>, n: nat)
    requires n <= |keys| && Drain(s, keys[..n]).aborted
    ensures Drain(s, keys) == Drain(s, keys[..n])
  {
    DrainAfterAbort(Drain(s, keys[..n]), keys[n..]);
    DrainAppend(s, keys[..n], keys[n..]);
    assert keys[..n] + keys[n..] == keys;
  }

  /** A key the scan returned twice is drained once: the second GETSET reads 0 and is skipped. */
  lemma DuplicateKeyAppliedOnce(s: FlushState, key: string)
    ensures Step(Step(s, key), key) == Step(s, key)
  {
    var t := Step(s, key);
    if !t.aborted {
      Strconv.AtoiFormatRoundTrip(0);
      assert t.kv[key := 0] == t.kv;
    }
  }

  /** A key that names no post loses its pending count: it is reset and nothing durable changes. */
  lemma MalformedKeyLosesCount(s: FlushState, key: string)
    requires !s.aborted && ParseViewKey(key).None?
    ensures Step(s, key) == s.(kv := s.kv[key := 0])
  {
  }

  /** Counts accumulated under the key as the fast store writes it are reset and never reach the post. */
  lemma ViewsAsWrittenNeverFlushed(s: FlushState, id: nat)
    requires !s.aborted
    ensures Step(s, FastStore.ViewKeyAsWritten(id)) == s.(kv := s.kv[FastStore.ViewKeyAsWritten(id) := 0])
  {
    ViewKeyAsWrittenRejected(id);
  }

  /** A pending count for a post that is gone ends the run: the count is lost and later keys are left alone. */
  lemma MissingPostEndsRun(s: FlushState, id: nat, rest: seq<string>)
    requires !s.aborted && 0 < id <= Strconv.MaxUint64 && id !in s.posts
    requires FastStore.ViewKey(id) in s.kv
    requires 0 < s.kv[FastStore.ViewKey(id)] <= Strconv.MaxInt64
    ensures var key := FastStore.ViewKey(id);
      Drain(s, [key] + rest) == FlushState(s.kv[key := 0], s.posts, true)
  {
    var key := FastStore.ViewKey(id);
    ViewKeyRoundTrip(id);
    Strconv.AtoiFormatIntRoundTrip(s.kv[key]);
    DrainAppend(s, [key], rest);
    assert Drain(s, [key]) == Step(s, key) by {
      assert [key][..0] == [];
    }
    DrainAfterAbort(Step(s, key), rest);
  }

  /** The keys of a run of posts. */
  function ViewKeys(ids: seq<nat>): (keys: seq<string>)
    ensures |keys| == |ids| && forall i :: 0 <= i < |ids| ==> keys[i] == FastStore.ViewKey(ids[i])
  {
    seq(|ids|, i requires 0 <= i < |ids| => FastStore.ViewKey(ids[i]))
  }

  /** A post's durable views plus its pending views. */
  function Total(s: FlushState, id: nat): int
    requires id in s.posts
  {
    s.posts[id].viewCount + FastStore.ValueOr0(s.kv, FastStore.ViewKey(id))
  }

  /** Counts are never negative and every post's total fits an int64. */
  predicate Sane(s: FlushState)
  {
    forall id :: id in s.posts ==>
      s.posts[id].viewCount >= 0 &&
      FastStore.ValueOr0(s.kv, FastStore.ViewKey(id)) >= 0 &&
      Total(s, id) <= Strconv.MaxInt64
  }

  /** Draining the key of an existing post moves its whole pending count to the post and keeps every total. */
  lemma StepConserves(s: FlushState, id: nat)
    requires !s.aborted && Sane(s) && id in s.posts && 0 < id <= Strconv.MaxUint64
    ensures var t := Step(s, FastStore.ViewKey(id));
      !t.aborted && Sane(t) && t.posts.Keys == s.posts.Keys &&
      FastStore.ValueOr0(t.kv, FastStore.ViewKey(id)) == 0 &&
      (forall p :: p in s.posts ==> Total(t, p) == Total(s, p)) &&
      (forall p :: p != id ==> FastStore.ValueOr0(t.kv, FastStore.ViewKey(p)) == FastStore.ValueOr0(s.kv, FastStore.ViewKey(p)))
  {
    var key := FastStore.ViewKey(id);
    var t := Step(s, key);
    forall p | p != id
      ensures FastStore.ValueOr0(t.kv, FastStore.ViewKey(p)) == FastStore.ValueOr0(s.kv, FastStore.ViewKey(p))
    {
      FastStore.KeysInjective("", "", p, id);
    }
    if key in s.kv {
      var v := s.kv[key];
      Strconv.AtoiFormatIntRoundTrip(v);
      if v != 0 {
        ViewKeyRoundTrip(id);
        ViewAddedExact(s.posts, id, v);
      }
    }
  }

  /**
   * Conservation: draining the keys of existing posts completes, leaves each
   * drained key at 0 and keeps every post's durable plus pending views.
   */
  lemma {:induction false} DrainConserves(s: FlushState, ids: seq<nat>)
    requires !s.aborted && Sane(s)
    requires forall i :: 0 <= i < |ids| ==> ids[i] in s.posts && 0 < ids[i] <= Strconv.MaxUint64
    ensures Conserved(s, Drain(s, ViewKeys(ids)), ids)
  {
    if ids != [] {
      var n := |ids| - 1;
      var init := ids[..n];
      assert ViewKeys(ids)[..n] == ViewKeys(init);
      DrainConserves(s, init);
      var m := Drain(s, ViewKeys(init));
      StepConserves(m, ids[n]);
      ConservedExtends(s, m, Step(m, FastStore.ViewKey(ids[n])), ids);
    }
  }

  /**
   * What draining the keys of `ids` from `s` into `t` keeps: no abort, sane
   * counts, the same posts with the same totals, and each drained key at 0.
   */
  predicate Conserved(s: FlushState, t: FlushState, ids: seq<nat>)
  {
    !t.aborted && Sane(t) && t.posts.Keys == s.posts.Keys &&
    (forall p :: p in s.posts ==> Total(t, p) == Total(s, p)) &&
    (forall i :: 0 <= i < |ids| ==> FastStore.ValueOr0(t.kv, FastStore.ViewKey(ids[i])) == 0)
  }

  /** Conservation up to the last id, then one conserving step for it, conserves all of `ids`. */
  lemma ConservedExtends(s: FlushState, m: FlushState, t: FlushState, ids: seq<nat>)
    requires ids != [] && Conserved(s, m, ids[..|ids| - 1])
    requires var id := ids[|ids| - 1];
      !t.aborted && Sane(t) && t.posts.Keys == m.posts.Keys &&
      FastStore.ValueOr0(t.kv, FastStore.ViewKey(id)) == 0 &&
      (forall p :: p in m.posts ==> Total(t, p) == Total(m, p)) &&
      (forall p :: p != id ==> FastStore.ValueOr0(t.kv, FastStore.ViewKey(p)) == FastStore.ValueOr0(m.kv, FastStore.ViewKey(p)))
    ensures Conserved(s, t, ids)
  {
    var n := |ids| - 1;
    forall i | 0 <= i < |ids|
      ensures FastStore.ValueOr0(t.kv, FastStore.ViewKey(ids[i])) == 0
    {
      if ids[i] != ids[n] {
        assert ids[i] == ids[..n][i];
      }
    }
  }

  /** One pass of the drain loop: GETSET the key to 0 and apply its count; `ok` is false when the write failed. */
  method DrainKey(fast: FastStore.Store, store: PostStore, key: string) returns (ok: bool)
    requires store.Valid()
    modifies fast, store
    ensures store.Valid()
    ensures Step(FlushState(old(fast.kv), old(store.posts), false), key) == FlushState(fast.kv, store.posts, !ok)
    ensures fast.scores == old(fast.scores) && fast.codes == old(fast.codes) && fast.cooldown == old(fast.cooldown)
    ensures store.likes == old(store.likes) && store.favorites == old(store.favorites)
    ensures store.comments == old(store.comments) && store.nextCommentId == old(store.nextCommentId)
  {
    var prev := fast.GetSet(key, 0);
    if prev.None? {
      return true;
    }
    var increment := Strconv.AtoiLoose(Strconv.FormatInt(prev.value));
    if increment == 0 {
      return true;
    }
    var id := ParseViewKey(key);
    if id.None? {
      return true;
    }
    ok := store.AddPostViewCount(id.value, increment);
  }

  /**
   * The drain loop over the scanned keys. The first failed write ends the
   * loop; `completed` says whether every key was reached.
   */
  method DrainKeys(fast: FastStore.Store, store: PostStore, keys: seq<string>) returns (completed: bool)
    requires store.Valid()
    modifies fast, store
    ensures store.Valid()
    ensures var d := Drain(FlushState(old(fast.kv), old(store.posts), false), keys);
      fast.kv == d.kv && store.posts == d.posts && completed == !d.aborted
    ensures fast.scores == old(fast.scores) && fast.codes == old(fast.codes) && fast.cooldown == old(fast.cooldown)
    ensures store.likes == old(store.likes) && store.favorites == old(store.favorites)
    ensures store.comments == old(store.comments) && store.nextCommentId == old(store.nextCommentId)
  {
    ghost var init := FlushState(fast.kv, store.posts, false);
    var i := 0;
    while i < |keys|
      invariant 0 <= i <= |keys|
      invariant store.Valid()
      invariant Drain(init, keys[..i]) == FlushState(fast.kv, store.posts, false)
      invariant fast.scores == old(fast.scores) && fast.codes == old(fast.codes) && fast.cooldown == old(fast.cooldown)
      invariant store.likes == old(store.likes) && store.favorites == old(store.favorites)
      invariant store.comments == old(store.comments) && store.nextCommentId == old(store.nextCommentId)
    {
      assert keys[..i + 1][..i] == keys[..i];
      var ok := DrainKey(fast, store, keys[i]);
      if !ok {
        DrainStopsAtAbort(init, keys, i + 1);
        return false;
      }
      i := i + 1;
    }
    assert keys[..i] == keys;
    return true;
  }

  /** How a run ended. */
  datatype SyncOutcome = ScanFailed | NothingToSync | Aborted | Completed

  /** `SyncViewCountsToDB`: scan, then drain. */
  method SyncViewCountsToDB(fast: FastStore.Store, store: PostStore, replies: seq<ScanReply>)
    returns (outcome: SyncOutcome)
    requires Terminates(replies) && store.Valid()
    modifies fast, store
    ensures store.Valid()
    ensures ScanResult(replies).None? ==> outcome == ScanFailed && unchanged(fast) && unchanged(store)
    ensures ScanResult(replies) == Some([]) ==> outcome == NothingToSync && unchanged(fast) && unchanged(store)
    ensures ScanResult(replies).Some? && ScanResult(replies).value != [] ==>
      var d := Drain(FlushState(old(fast.kv), old(store.posts), false), ScanResult(replies).value);
      fast.kv == d.kv && store.posts == d.posts &&
      (outcome == if d.aborted then Aborted else Completed)
    ensures fast.scores == old(fast.scores) && fast.codes == old(fast.codes) && fast.cooldown == old(fast.cooldown)
    ensures store.likes == old(store.likes) && store.favorites == old(store.favorites)
    ensures store.comments == old(store.comments) && store.nextCommentId == old(store.nextCommentId)
  {
    var keys, _ := ScanViewKeys(replies);
    if keys.None? {
      return ScanFailed;
    }
    if |keys.value| == 0 {
      return NothingToSync;
    }
    var completed := DrainKeys(fast, store, keys.value);
    outcome := if completed then Completed else Aborted;
  }
}

=== FILE: tagdao.dfy ===
/**
 * The tag table: find-or-create by name, one by one for a list of names,
 * and the sort order of the tag listing.
 */
module TagDao {
  import opened Wrappers

  datatype Tag = Tag(id: nat, name: string)

  /** The ordering the tag listing asks the database for. */
  datatype TagOrder = PostCountDesc | NameAsc

  /** `ListTags`' switch: "name" sorts by name, "post_count" and anything else by post count. */
  function SortOrder(sortedBy: string): (o: TagOrder)
    ensures o == NameAsc <==> sortedBy == "name"
    ensures sortedBy == "post_count" ==> o == PostCountDesc
  {
    match sortedBy
    case "post_count" => PostCountDesc
    case "name" => NameAsc
    case _ => PostCountDesc
  }

  /** The table's rows in primary-key order; ids and names are unique. */
  predicate WellFormed(tags: seq<Tag>, nextId: nat)
    decreases |tags|
  {
    tags == [] ||
    var last := tags[|tags| - 1];
    var rest := tags[..|tags| - 1];
    last.id < nextId && (forall u :: u in rest ==> u.name != last.name) && WellFormed(rest, last.id)
  }

  /** Read pairwise: ids strictly ascend below `nextId` and no two rows share a name. */
  lemma {:induction false} WellFormedPairwise(tags: seq<Tag>, nextId: nat)
    requires WellFormed(tags, nextId)
    ensures forall i :: 0 <= i < |tags| ==> tags[i].id < nextId
    ensures forall i, j :: 0 <= i < j < |tags| ==> tags[i].id < tags[j].id && tags[i].name != tags[j].name
    decreases |tags|
  {
    if tags != [] {
      var n := |tags| - 1;
      var rest := tags[..n];
      WellFormedPairwise(rest, tags[n].id);
      forall i, j | 0 <= i < j < |tags|
        ensures tags[i].id < tags[j].id && tags[i].name != tags[j].name
      {
        assert tags[i] == rest[i];
        if j < n {
          assert tags[j] == rest[j];
        }
      }
    }
  }

  /** Index of the row named `name`, or -1. */
  function IndexOfName(tags: seq<Tag>, name: string): (i: int)
    ensures -1 <= i < |tags|
    ensures i == -1 <==> forall j :: 0 <= j < |tags| ==> tags[j].name != name
    ensures 0 <= i ==> tags[i].name == name && forall j :: 0 <= j < i ==> tags[j].name != name
  {
    if tags == [] then -1
    else if tags[0].name == name then 0
    else
      var j := IndexOfName(tags[1..], name);
      if j < 0 then -1 else j + 1
  }

  /**
   * The row `Where(Tag{Name: name}).First` finds: the condition of a struct
   * drops zero fields, so an empty name matches the first row of the table.
   */
  function Lookup(tags: seq<Tag>, name: string): (r: Option<Tag>)
    ensures r.Some? ==> r.value in tags
    ensures name != "" && r.Some? ==> r.value.name == name
    ensures name == "" ==> (r.Some? <==> tags != [])
  {
    if name == "" then (if tags == [] then None else Some(tags[0]))
    else
      var i := IndexOfName(tags, name);
      if i < 0 then None else Some(tags[i])
  }

  /** A non-empty name is found exactly when some row carries it. */
  lemma LookupByName(tags: seq<Tag>, name: string)
    requires name != ""
    ensures Lookup(tags, name).Some? <==> exists t :: t in tags && t.name == name
  {
    if Lookup(tags, name).None? {
      assert forall t :: t in tags ==> t.name != name;
    }
  }

  /** A new row with a fresh id and an unused name keeps the table well formed. */
  lemma AppendKeepsWellFormed(tags: seq<Tag>, nextId: nat, name: string)
    requires WellFormed(tags, nextId)
    requires forall u :: u in tags ==> u.name != name
    ensures WellFormed(tags + [Tag(nextId, name)], nextId + 1)
  {
    assert (tags + [Tag(nextId, name)])[..|tags|] == tags;
  }

  /** After a row is created for a name nobody had, looking the name up finds that row. */
  lemma LookupFindsCreated(tags: seq<Tag>, t: Tag)
    requires forall u :: u in tags ==> u.name != t.name
    requires t.name == "" ==> tags == []
    ensures Lookup(tags + [t], t.name) == Some(t)
  {
    var all := tags + [t];
    if t.name != "" {
      var i := IndexOfName(all, t.name);
      assert all[|tags|].name == t.name;
      assert forall j :: 0 <= j < |tags| ==> all[j] == tags[j];
    }
  }

  /** `FirstOrCreate` on the rows: the row a lookup finds, or a new row with the next id. */
  function FirstOrCreate(tags: seq<Tag>, nextId: nat, name: string): (seq<Tag>, nat, Tag)
  {
    var found := Lookup(tags, name);
    if found.Some? then (tags, nextId, found.value)
    else (tags + [Tag(nextId, name)], nextId + 1, Tag(nextId, name))
  }

  /**
   * `FirstOrCreate` of the first `k` names in turn: the rows and the next id
   * afterwards, and the tags in name order.
   */
  function CreateAll(tags: seq<Tag>, nextId: nat, names: seq<string>, k: nat): (seq<Tag>, nat, seq<Tag>)
    requires k <= |names|
  {
    if k == 0 then (tags, nextId, [])
    else
      var prev := CreateAll(tags, nextId, names, k - 1);
      var step := FirstOrCreate(prev.0, prev.1, names[k - 1]);
      (step.0, step.1, prev.2 + [step.2])
  }

  /** The first index below `n` in `faults`, or `n` when there is none. */
  function FirstFault(faults: set<nat>, n: nat): (k: nat)
    ensures k <= n && (k < n ==> k in faults)
    ensures forall j :: 0 <= j < k ==> j !in faults
  {
    if n == 0 then 0
    else
      var k := FirstFault(faults, n - 1);
      if k < n - 1 then k else if n - 1 in faults then n - 1 else n
  }

  /** No index below `n` faults exactly when the first fault is `n` itself. */
  lemma NoFault(faults: set<nat>, n: nat)
    ensures FirstFault(faults, n) == n <==> forall i :: 0 <= i < n ==> i !in faults
  {
    var k := FirstFault(faults, n);
    if k < n {
      assert k in faults;
    }
  }

  /** Once a name is found, rows added later do not change what it finds. */
  lemma LookupStable(tags: seq<Tag>, more: seq<Tag>, name: string)
    requires Lookup(tags, name).Some?
    ensures Lookup(tags + more, name) == Lookup(tags, name)
  {
    var all := tags + more;
    if name == "" {
      assert all[0] == tags[0];
    } else {
      var i := IndexOfName(tags, name);
      var j := IndexOfName(all, name);
      assert all[i] == tags[i];
    }
  }

  /** Every row `cur` adds to `base` has a fresh id and one of `names`, which no row of `base` had. */
  predicate AddsMissing(base: seq<Tag>, nextId: nat, names: seq<string>, cur: seq<Tag>)
    requires base <= cur
  {
    forall t :: t in cur[|base|..] ==> nextId <= t.id && t.name in names && Lookup(base, t.name).None?
  }

  /** Each of `names` finds the tag at the same position of `out`. */
  predicate FindsAll(cur: seq<Tag>, names: seq<string>, out: seq<Tag>)
  {
    |out| == |names| && forall i :: 0 <= i < |names| ==> Lookup(cur, names[i]) == Some(out[i])
  }

  /**
   * `cur` (next id `curNext`) is `base` (next id `nextId`) after finding or
   * creating `names`, which returned `out`: the table is well formed, only
   * grew, every added row is a fresh id holding one of the names that no
   * row had before, and each name finds the tag returned for it.
   */
  predicate Grown(base: seq<Tag>, nextId: nat, names: seq<string>, cur: seq<Tag>, curNext: nat, out: seq<Tag>)
  {
    WellFormed(cur, curNext) && base <= cur && nextId <= curNext &&
    AddsMissing(base, nextId, names, cur) && FindsAll(cur, names, out)
  }

  /** A row added for a missing name keeps every earlier lookup. */
  lemma AppendFindsAll(cur: seq<Tag>, names: seq<string>, out: seq<Tag>, t: Tag)
    requires FindsAll(cur, names, out)
    requires forall u :: u in cur ==> u.name != t.name
    requires t.name == "" ==> cur == []
    ensures FindsAll(cur + [t], names + [t.name], out + [t])
  {
    LookupFindsCreated(cur, t);
    forall i | 0 <= i < |names|
      ensures Lookup(cur + [t], names[i]) == Some(out[i])
    {
      LookupStable(cur, [t], names[i]);
    }
    assert forall i :: 0 <= i < |names| ==> (names + [t.name])[i] == names[i] && (out + [t])[i] == out[i];
  }

  /** A row holding a name `base` lacks, with an id from `nextId` on, keeps `AddsMissing`. */
  lemma AppendAddsMissing(base: seq<Tag>, nextId: nat, names: seq<string>, cur: seq<Tag>, t: Tag)
    requires base <= cur && AddsMissing(base, nextId, names, cur)
    requires nextId <= t.id && Lookup(cur, t.name).None?
    ensures AddsMissing(base, nextId, names + [t.name], cur + [t])
  {
    assert (cur + [t])[|base|..] == cur[|base|..] + [t];
  }

  /** One more `FirstOrCreate` keeps `Grown`. */
  lemma FirstOrCreateGrows(base: seq<Tag>, nextId: nat, names: seq<string>, cur: seq<Tag>, curNext: nat,
                           out: seq<Tag>, name: string)
    requires Grown(base, nextId, names, cur, curNext, out)
    ensures var step := FirstOrCreate(cur, curNext, name);
      Grown(base, nextId, names + [name], step.0, step.1, out + [step.2])
  {
    var found := Lookup(cur, name);
    if found.Some? {
      var names', out' := names + [name], out + [found.value];
      assert forall i :: 0 <= i < |names| ==> names'[i] == names[i] && out'[i] == out[i];
      assert FindsAll(cur, names', out');
      assert AddsMissing(base, nextId, names', cur);
    } else {
      if name != "" {
        LookupByName(cur, name);
      }
      var t := Tag(curNext, name);
      AppendKeepsWellFormed(cur, curNext, name);
      AppendFindsAll(cur, names, out, t);
      AppendAddsMissing(base, nextId, names, cur, t);
    }
  }

  /** Finding or creating the first `k` names grows the table as `Grown` says. */
  lemma {:induction false} CreateAllAppendsMissing(tags: seq<Tag>, nextId: nat, names: seq<string>, k: nat)
    requires WellFormed(tags, nextId) && k <= |names|
    ensures var o := CreateAll(tags, nextId, names, k);
      Grown(tags, nextId, names[..k], o.0, o.1, o.2)
  {
    if k == 0 {
      assert tags[|tags|..] == [];
    } else {
      assert names[..k - 1] + [names[k - 1]] == names[..k];
      var prev := CreateAll(tags, nextId, names, k - 1);
      CreateAllAppendsMissing(tags, nextId, names, k - 1);
      FirstOrCreateGrows(tags, nextId, names[..k - 1], prev.0, prev.1, prev.2, names[k - 1]);
    }
  }

  /**
   * What `CreateAll` over the first `k` names leaves in the table, read for a
   * caller: the table only grows and stays well formed, every added row is
   * a fresh id holding one of the names that no row had, and it is unchanged
   * when every name was already present.
   */
  lemma CreatePrefixSummary(tags: seq<Tag>, nextId: nat, names: seq<string>, k: nat,
                            cur: seq<Tag>, curNext: nat, out: seq<Tag>)
    requires WellFormed(tags, nextId) && k <= |names|
    requires (cur, curNext, out) == CreateAll(tags, nextId, names, k)
    ensures tags <= cur && WellFormed(cur, curNext)
    ensures AddsMissing(tags, nextId, names, cur)
    ensures (forall i :: 0 <= i < |names| ==> Lookup(tags, names[i]).Some?) ==> cur == tags
  {
    var pre := names[..k];
    CreateAllAppendsMissing(tags, nextId, names, k);
    forall t | t in cur[|tags|..]
      ensures t.name in names
    {
      var j :| 0 <= j < k && pre[j] == t.name;
      assert names[j] == t.name;
    }
    if |cur| > |tags| {
      var t := cur[|tags|];
      assert t in cur[|tags|..];
      var j :| 0 <= j < k && pre[j] == t.name;
      assert Lookup(tags, names[j]).None?;
    }
  }

  /** `CreateAll` over all the names: one tag per name, each in the table and carrying its (non-empty) name. */
  lemma CreateAllSummary(tags: seq<Tag>, nextId: nat, names: seq<string>,
                         cur: seq<Tag>, curNext: nat, out: seq<Tag>)
    requires WellFormed(tags, nextId)
    requires (cur, curNext, out) == CreateAll(tags, nextId, names, |names|)
    ensures |out| == |names|
    ensures forall i :: 0 <= i < |names| ==> out[i] in cur
    ensures forall i :: 0 <= i < |names| && names[i] != "" ==> out[i].name == names[i]
  {
    CreateAllAppendsMissing(tags, nextId, names, |names|);
    assert names[..|names|] == names;
    assert FindsAll(cur, names, out);
    forall i | 0 <= i < |names|
      ensures out[i] in cur && (names[i] != "" ==> out[i].name == names[i])
    {
      assert Lookup(cur, names[i]) == Some(out[i]);
    }
  }

  class TagStore {
    var tags: seq<Tag>
    var nextId: nat

    predicate Valid()
      reads this
    {
      WellFormed(tags, nextId)
    }

    constructor ()
      ensures Valid() && tags == []
    {
      tags := [];
      nextId := 1;
    }

    /**
     * `FirstOrCreate`: the row a lookup finds, or a new row holding the name
     * when there is none; `failing` is a database error, which changes nothing.
     */
    method FindOrCreateTagByName(name: string, failing: bool) returns (r: Result<Tag, string>)
      requires Valid()
      modifies this
      ensures Valid()
      ensures failing ==> r.Err? && tags == old(tags)
      ensures !failing ==> r.Ok? && Lookup(tags, name) == Some(r.value)
      ensures !failing && name != "" ==> r.value.name == name
      ensures old(tags) <= tags
      ensures Lookup(old(tags), name).Some? ==> tags == old(tags)
      ensures !failing && Lookup(old(tags), name).None? ==> tags == old(tags) + [r.value]
      ensures !failing ==> (tags, nextId, r.value) == FirstOrCreate(old(tags), old(nextId), name)
      ensures failing ==> nextId == old(nextId)
    {
      if failing {
        return Err("database error");
      }
      var found := Lookup(tags, name);
      if found.Some? {
        return Ok(found.value);
      }
      if name != "" {
        LookupByName(tags, name);
      }
      var t := Tag(nextId, name);
      AppendKeepsWellFormed(tags, nextId, name);
      LookupFindsCreated(tags, t);
      tags := tags + [t];
      nextId := nextId + 1;
      return Ok(t);
    }

    /**
     * One tag per name in input order; the first failing call (its index in
     * `faults`) ends the loop with an error, keeping the rows created for
     * the names before it.
     */
    method FindOrCreateTagsByNames(names: seq<string>, faults: set<nat>) returns (r: Result<seq<Tag>, string>)
      requires Valid()
      modifies this
      ensures Valid()
      ensures old(tags) <= tags
      ensures AddsMissing(old(tags), old(nextId), names, tags)
      ensures r.Ok? <==> forall i :: 0 <= i < |names| ==> i !in faults
      ensures r.Ok? ==> |r.value| == |names|
      ensures r.Ok? ==> forall i :: 0 <= i < |names| ==> r.value[i] in tags
      ensures r.Ok? ==> forall i :: 0 <= i < |names| && names[i] != "" ==> r.value[i].name == names[i]
      ensures (forall i :: 0 <= i < |names| ==> Lookup(old(tags), names[i]).Some?) ==> tags == old(tags)
      ensures var o := CreateAll(old(tags), old(nextId), names, FirstFault(faults, |names|));
        tags == o.0 && nextId == o.1 && (r.Ok? ==> r.value == o.2)
    {
      var found: seq<Tag> := [];
      var error: Option<string> := None;
      var i: nat := 0;
      while i < |names|
        invariant i <= |names|
        invariant Valid()
        invariant FirstFault(faults, i) == i
        invariant (tags, nextId, found) == CreateAll(old(tags), old(nextId), names, i)
      {
        var one := FindOrCreateTagByName(names[i], i in faults);
        if one.Err? {
          error := Some(one.error);
          break;
        }
        assert FirstFault(faults, i + 1) == i + 1;
        found := found + [one.value];
        assert CreateAll(old(tags), old(nextId), names, i + 1) == (tags, nextId, found);
        i := i + 1;
      }
      assert FirstFault(faults, |names|) == i;
      NoFault(faults, |names|);
      CreatePrefixSummary(old(tags), old(nextId), names, i, tags, nextId, found);
      if error.Some? {
        r := Err(error.value);
      } else {
        CreateAllSummary(old(tags), old(nextId), names, tags, nextId, found);
        r := Ok(found);
      }
    }
  }
}

=== FILE: usercontroller.dfy ===
/**
 * The avatar upload handler: the checks on the uploaded file that run before
 * the upload service is called.
 */
module UserController {
  import opened Wrappers
  import Erru
  import Res

  const MaxAvatarSize: nat := 8 * 1024 * 1024
  const TooLarge: string := "图片大小不能超过8MB"
  const BadType: string := "只支持上传 jpg, jpeg, png 格式的图片"
  const Accepted: set<string> := {".jpg", ".jpeg", ".png"}

  /** The upload as the form delivers it. */
  datatype Upload = Upload(size: nat, filename: string)

  datatype UpdateAvatarRes = UpdateAvatarRes(avatarUrl: string)

  /** What the handler does: answer, or record an error for the error middleware. */
  datatype Reply = Answer(resp: Res.Response<UpdateAvatarRes>) | Raise(err: Erru.AppError)

  /**
   * `filepath.Ext`: the suffix from the last '.' of the last path element,
   * or "" when that element has no '.'.
   */
  function Ext(path: string): (ext: string)
    ensures |ext| <= |path| && ext == path[|path| - |ext|..]
    ensures ext != [] ==> ext[0] == '.'
    ensures forall i :: 0 < i < |ext| ==> ext[i] != '.' && ext[i] != '/'
  {
    if |path| == 0 || path[|path| - 1] == '/' then ""
    else if path[|path| - 1] == '.' then path[|path| - 1..]
    else
      var e := Ext(path[..|path| - 1]);
      if e == [] then "" else e + [path[|path| - 1]]
  }

  /** A name ending in '.' followed by a suffix free of '.' and '/' has exactly that extension. */
  lemma {:induction false} ExtOfSuffix(base: string, suffix: string)
    requires forall i :: 0 <= i < |suffix| ==> suffix[i] != '.' && suffix[i] != '/'
    ensures Ext(base + "." + suffix) == "." + suffix
    decreases |suffix|
  {
    var path := base + "." + suffix;
    if suffix == [] {
      assert path[|path| - 1] == '.';
      assert path[|path| - 1..] == ".";
    } else {
      var n := |suffix| - 1;
      assert path[..|path| - 1] == base + "." + suffix[..n];
      ExtOfSuffix(base, suffix[..n]);
      assert "." + suffix == "." + suffix[..n] + [suffix[n]];
    }
  }

  /** A name with no '.' has no extension. */
  lemma {:induction false} ExtWithoutDot(path: string)
    requires forall i :: 0 <= i < |path| ==> path[i] != '.'
    ensures Ext(path) == ""
    decreases |path|
  {
    if |path| > 0 && path[|path| - 1] != '/' {
      ExtWithoutDot(path[..|path| - 1]);
    }
  }

  /**
   * The two checks, size first: `None` lets the upload through to the
   * service, otherwise the error the handler records.
   */
  function CheckAvatar(u: Upload): (r: Option<Erru.AppError>)
    ensures r.None? <==> u.size <= MaxAvatarSize && Ext(u.filename) in Accepted
    ensures u.size > MaxAvatarSize ==> r == Some(Erru.New(TooLarge))
    ensures u.size <= MaxAvatarSize && Ext(u.filename) !in Accepted ==> r == Some(Erru.New(BadType))
  {
    if u.size > MaxAvatarSize then Some(Erru.New(TooLarge))
    else if Ext(u.filename) !in Accepted then Some(Erru.New(BadType))
    else None
  }

  /** The extension is compared as written: an upper-case ".PNG" is refused. */
  lemma UpperCaseRefused(size: nat)
    requires size <= MaxAvatarSize
    ensures CheckAvatar(Upload(size, "me.PNG")) == Some(Erru.New(BadType))
  {
    ExtOfSuffix("me", "PNG");
    var e := ".PNG";
    assert e !in Accepted by {
      assert e[1] == 'P';
      assert ".jpg"[1] != 'P' && ".jpeg"[1] != 'P' && ".png"[1] != 'P';
    }
  }

  /** A lower-case ".png" passes. */
  lemma PngAccepted(size: nat)
    requires size <= MaxAvatarSize
    ensures CheckAvatar(Upload(size, "me.png")).None?
  {
    ExtOfSuffix("me", "png");
    assert "me" + "." + "png" == "me.png";
    assert "." + "png" == ".png";
  }

  /** Only the last dot counts: "me.png.exe" is refused. */
  lemma LastDotCounts(size: nat)
    requires size <= MaxAvatarSize
    ensures CheckAvatar(Upload(size, "me.png.exe")) == Some(Erru.New(BadType))
  {
    ExtOfSuffix("me.png", "exe");
    var e := ".exe";
    assert e !in Accepted by {
      assert e[1] == 'e';
      assert ".jpg"[1] != 'e' && ".jpeg"[1] != 'e' && ".png"[1] != 'e';
    }
  }

  /**
   * `UpdateAvatar`: a missing form file is an invalid-parameter error; a file
   * that fails a check never reaches the service; otherwise the service's
   * URL is answered or its error recorded.
   */
  method UpdateAvatar(form: Result<Upload, string>, upload: Result<string, Erru.AppError>)
    returns (reply: Reply, serviceCalled: bool)
    ensures form.Err? ==>
      reply == Raise(Erru.Wrap(Erru.ErrInvalidParams, Some(Erru.Plain(form.error)))) && !serviceCalled
    ensures form.Ok? ==> (serviceCalled <==> CheckAvatar(form.value).None?)
    ensures form.Ok? && CheckAvatar(form.value).Some? ==> reply == Raise(CheckAvatar(form.value).value)
    ensures serviceCalled && upload.Ok? ==> reply == Answer(Res.OkWithData(UpdateAvatarRes(upload.value)))
    ensures serviceCalled && upload.Err? ==> reply == Raise(upload.error)
  {
    if form.Err? {
      return Raise(Erru.Wrap(Erru.ErrInvalidParams, Some(Erru.Plain(form.error)))), false;
    }
    var refused := CheckAvatar(form.value);
    if refused.Some? {
      return Raise(refused.value), false;
    }
    if upload.Err? {
      return Raise(upload.error), true;
    }
    return Answer(Res.OkWithData(UpdateAvatarRes(upload.value))), true;
  }
}

=== FILE: userservice.dfy ===
/**
 * The account flows: registration by e-mail code, login, and password
 * reset by e-mail code, over the user table and the fast store's code and
 * cooldown keys.
 *
 * Password hashing is an injective function here (bcrypt's salt and cost
 * are not modelled); sending mail is reduced to the code handed to the mail
 * service, which may fail.
 */
module UserService {
  import opened Wrappers
  import Strconv
  import Erru
  import FastStore
  import RandomCode

  const TooFrequent: string := "操作太频繁，请稍后再试"
  const WrongCode: string := "验证码错误"
  const SamePassword: string := "新密码和原密码相同"

  /** The width of a mailed verification code. */
  const CodeWidth: int := 6

  /** A stored password. */
  datatype Hashed = Hashed(secret: string)

  /** The stored form of a password. */
  function Hash(password: string): Hashed
  {
    Hashed(password)
  }

  /** Whether a password matches its stored form (`bcrypt.CompareHashAndPassword` succeeding). */
  predicate Matches(h: Hashed, password: string)
  {
    h == Hash(password)
  }

  datatype User = User(id: nat, username: string, email: string, password: Hashed)

  /** The two unique columns a user is looked up by. */
  datatype Column = Email | Username

  function KeyOf(u: User, c: Column): string
  {
    match c
    case Email => u.email
    case Username => u.username
  }

  /** The first user whose column holds `value` (`Where(...).First`). */
  function Find(users: seq<User>, c: Column, value: string): (r: Option<User>)
    ensures r.Some? <==> exists i :: 0 <= i < |users| && KeyOf(users[i], c) == value
    ensures r.Some? ==> r.value in users && KeyOf(r.value, c) == value
  {
    if users == [] then None
    else if KeyOf(users[0], c) == value then Some(users[0])
    else
      var r := Find(users[1..], c, value);
      assert forall i :: 1 <= i < |users| ==> users[i] == users[1..][i - 1];
      r
  }

  /** No two users share a value in the column. */
  predicate Unique(users: seq<User>, c: Column)
  {
    forall i, j :: 0 <= i < j < |users| ==> KeyOf(users[i], c) != KeyOf(users[j], c)
  }

  /** Under a unique column the lookup finds the one user holding the value. */
  lemma {:induction false} FindUnique(users: seq<User>, c: Column, i: nat)
    requires Unique(users, c) && i < |users|
    ensures Find(users, c, KeyOf(users[i], c)) == Some(users[i])
  {
    if i > 0 {
      assert KeyOf(users[0], c) != KeyOf(users[i], c);
      assert Unique(users[1..], c);
      assert users[1..][i - 1] == users[i];
      FindUnique(users[1..], c, i - 1);
    }
  }

  /** `GetUserByIdentifier`: an identifier containing '@' is an e-mail address, anything else a user name. */
  function ByIdentifier(users: seq<User>, identifier: string): Option<User>
  {
    if '@' in identifier then Find(users, Email, identifier) else Find(users, Username, identifier)
  }

  /** `Login`: an unknown identifier is `ErrUserNotFound`, a wrong password `ErrPasswordIncorrect`. */
  function Login(users: seq<User>, identifier: string, password: string): (r: Result<User, Erru.AppError>)
    ensures r == Err(Erru.ErrUserNotFound) <==> ByIdentifier(users, identifier).None?
    ensures r == Err(Erru.ErrPasswordIncorrect) <==>
      ByIdentifier(users, identifier).Some? && !Matches(ByIdentifier(users, identifier).value.password, password)
    ensures r.Ok? ==>
      r.value in users && Matches(r.value.password, password) &&
      (if '@' in identifier then r.value.email == identifier else r.value.username == identifier)
  {
    match ByIdentifier(users, identifier)
    case None => Err(Erru.ErrUserNotFound)
    case Some(u) =>
      if !Matches(u.password, password) then Err(Erru.ErrPasswordIncorrect) else Ok(u)
  }

  /** A user with an '@' in their e-mail address logs in with that address and exactly their own password. */
  lemma LoginByEmail(users: seq<User>, i: nat, password: string)
    requires Unique(users, Email) && i < |users| && '@' in users[i].email
    ensures Login(users, users[i].email, password).Ok? <==> Matches(users[i].password, password)
    ensures Matches(users[i].password, password) ==> Login(users, users[i].email, password) == Ok(users[i])
  {
    FindUnique(users, Email, i);
  }

  class UserStore {
    var users: seq<User>

    /** Ids count up from 1 and user names and e-mail addresses are unique (the table's `unique` columns). */
    predicate Valid()
      reads this
    {
      (forall i :: 0 <= i < |users| ==> users[i].id == i + 1) &&
      Unique(users, Email) && Unique(users, Username)
    }

    constructor ()
      ensures Valid() && users == []
    {
      users := [];
    }

    /** `CreateUser`: an insert that breaks a unique column fails and changes nothing. */
    method CreateUser(username: string, email: string, password: Hashed) returns (r: Option<User>)
      requires Valid()
      modifies this
      ensures Valid()
      ensures r.None? <==> Find(old(users), Email, email).Some? || Find(old(users), Username, username).Some?
      ensures r.None? ==> users == old(users)
      ensures r.Some? ==> r.value == User(|old(users)| + 1, username, email, password) && users == old(users) + [r.value]
    {
      if Find(users, Email, email).Some? || Find(users, Username, username).Some? {
        return None;
      }
      var u := User(|users| + 1, username, email, password);
      users := users + [u];
      return Some(u);
    }

    /** `UpdateUserPassword`: the stored password of the user with that id. */
    method UpdatePassword(id: nat, password: Hashed)
      requires Valid()
      modifies this
      ensures Valid()
      ensures 1 <= id <= |old(users)| ==> users == old(users)[id - 1 := old(users)[id - 1].(password := password)]
      ensures !(1 <= id <= |old(users)|) ==> users == old(users)
    {
      if 1 <= id <= |users| {
        users := users[id - 1 := users[id - 1].(password := password)];
      }
    }
  }

  /** A found user is the row its id names. */
  lemma FoundIsRow(store: UserStore, c: Column, value: string)
    requires store.Valid() && Find(store.users, c, value).Some?
    ensures var u := Find(store.users, c, value).value;
      1 <= u.id <= |store.users| && store.users[u.id - 1] == u
  {
  }

  /** Storing the code of a width-6 draw: the code is six digits. */
  lemma SixDigitCode(draw: nat)
    ensures var r := RandomCode.Generate(CodeWidth, draw);
      r.Some? && |r.value| == 6 && Strconv.AllDigits(r.value)
  {
    RandomCode.CodeShape(CodeWidth, draw);
  }

  /**
   * The shared tail of `Register` and `RequestReset`: refuse while the
   * cooldown marker exists (setting it when it does not), then store a fresh
   * code and hand it to the mail service. `mailed` is the code handed over.
   */
  method SendCode(fast: FastStore.Store, email: string, draw: nat, mailFails: bool)
    returns (r: Result<(), Erru.AppError>, mailed: Option<string>)
    modifies fast
    ensures fast.kv == old(fast.kv) && fast.scores == old(fast.scores)
    ensures fast.cooldown == old(fast.cooldown) + {FastStore.CooldownKey(email)}
    ensures FastStore.CooldownKey(email) in old(fast.cooldown) ==>
      r == Err(Erru.New(TooFrequent)) && mailed.None? && fast.codes == old(fast.codes)
    ensures FastStore.CooldownKey(email) !in old(fast.cooldown) ==>
      var code := RandomCode.Generate(CodeWidth, draw).value;
      |code| == 6 && Strconv.AllDigits(code) &&
      mailed == Some(code) &&
      fast.codes == old(fast.codes)[FastStore.VerifyCodeKey(email) := code] &&
      fast.GetVerificationCode(email) == Some(code) &&
      (r.Ok? <==> !mailFails) && (r.Err? ==> r.error.code == Erru.InternalServerError)
  {
    var onCooldown := fast.CheckSendCooldown(email);
    if onCooldown {
      return Err(Erru.New(TooFrequent)), None;
    }
    SixDigitCode(draw);
    var code := RandomCode.Generate(CodeWidth, draw).value;
    fast.SetVerifyCode(email, code);
    mailed := Some(code);
    if mailFails {
      return Err(Erru.Wrap(Erru.ErrInternalServer, Some(Erru.Plain("mail not sent")))), mailed;
    }
    return Ok(()), mailed;
  }

  /** `Register`: an address already in use is refused before anything else happens. */
  method Register(store: UserStore, fast: FastStore.Store, email: string, draw: nat, mailFails: bool)
    returns (r: Result<(), Erru.AppError>, mailed: Option<string>)
    modifies fast
    ensures Find(store.users, Email, email).Some? ==>
      r == Err(Erru.ErrEmailAlreadyUsed) && mailed.None? && unchanged(fast)
    ensures Find(store.users, Email, email).None? ==>
      fast.kv == old(fast.kv) && fast.scores == old(fast.scores) &&
      fast.cooldown == old(fast.cooldown) + {FastStore.CooldownKey(email)} &&
      (FastStore.CooldownKey(email) in old(fast.cooldown) ==>
        r == Err(Erru.New(TooFrequent)) && mailed.None? && fast.codes == old(fast.codes)) &&
      (FastStore.CooldownKey(email) !in old(fast.cooldown) ==>
        mailed.Some? && |mailed.value| == 6 && Strconv.AllDigits(mailed.value) &&
        fast.codes == old(fast.codes)[FastStore.VerifyCodeKey(email) := mailed.value] &&
        (r.Ok? <==> !mailFails))
  {
    if Find(store.users, Email, email).Some? {
      // The lookup succeeded, so the wrapped error is nil.
      return Err(Erru.Wrap(Erru.ErrEmailAlreadyUsed, None)), None;
    }
    r, mailed := SendCode(fast, email, draw, mailFails);
  }

  /**
   * `VerifyRegister`: a missing code is an internal error and a different
   * code the business error "验证码错误"; a matching code is consumed, and
   * the user is then created with the hashed password.
   */
  method VerifyRegister(store: UserStore, fast: FastStore.Store, email: string, code: string,
                        username: string, password: string)
    returns (r: Result<(), Erru.AppError>)
    requires store.Valid()
    modifies store, fast
    ensures store.Valid()
    ensures old(fast.GetVerificationCode(email)).None? ==>
      r.Err? && r.error.code == Erru.InternalServerError && unchanged(fast) && unchanged(store)
    ensures old(fast.GetVerificationCode(email)).Some? && old(fast.GetVerificationCode(email)).value != code ==>
      r == Err(Erru.New(WrongCode)) && unchanged(fast) && unchanged(store)
    ensures old(fast.GetVerificationCode(email)) == Some(code) ==>
      fast.codes == old(fast.codes) - {FastStore.VerifyCodeKey(email)} &&
      fast.GetVerificationCode(email).None? &&
      var taken := Find(old(store.users), Email, email).Some? || Find(old(store.users), Username, username).Some?;
      (taken ==> r.Err? && r.error.code == Erru.InternalServerError && store.users == old(store.users)) &&
      (!taken ==> r == Ok(()) && store.users == old(store.users) + [User(|old(store.users)| + 1, username, email, Hash(password))])
    ensures fast.kv == old(fast.kv) && fast.scores == old(fast.scores) && fast.cooldown == old(fast.cooldown)
  {
    var stored := fast.GetVerificationCode(email);
    if stored.None? {
      return Err(Erru.Wrap(Erru.ErrInternalServer, Some(Erru.Plain("redis: nil"))));
    }
    if stored.value != code {
      return Err(Erru.New(WrongCode));
    }
    fast.DelVerificationCode(email);
    var created := store.CreateUser(username, email, Hash(password));
    if created.None? {
      return Err(Erru.Wrap(Erru.ErrInternalServer, Some(Erru.Plain("duplicate entry"))));
    }
    return Ok(());
  }

  /** `RequestReset`: only a registered address can ask for a code. */
  method RequestReset(store: UserStore, fast: FastStore.Store, email: string, draw: nat, mailFails: bool)
    returns (r: Result<(), Erru.AppError>, mailed: Option<string>)
    modifies fast
    ensures Find(store.users, Email, email).None? ==>
      r == Err(Erru.ErrUserNotFound) && mailed.None? && unchanged(fast)
    ensures Find(store.users, Email, email).Some? ==>
      fast.kv == old(fast.kv) && fast.scores == old(fast.scores) &&
      fast.cooldown == old(fast.cooldown) + {FastStore.CooldownKey(email)} &&
      (FastStore.CooldownKey(email) in old(fast.cooldown) ==>
        r == Err(Erru.New(TooFrequent)) && mailed.None? && fast.codes == old(fast.codes)) &&
      (FastStore.CooldownKey(email) !in old(fast.cooldown) ==>
        mailed.Some? && |mailed.value| == 6 && Strconv.AllDigits(mailed.value) &&
        fast.codes == old(fast.codes)[FastStore.VerifyCodeKey(email) := mailed.value] &&
        (r.Ok? <==> !mailFails))
  {
    if Find(store.users, Email, email).None? {
      return Err(Erru.ErrUserNotFound), None;
    }
    r, mailed := SendCode(fast, email, draw, mailFails);
  }

  /**
   * `VerifyReset`: the user must exist, the code must match and the new
   * password must differ from the old one; only then is the password
   * replaced. The code is not consumed.
   */
  method VerifyReset(store: UserStore, fast: FastStore.Store, email: string, code: string, password: string)
    returns (r: Result<(), Erru.AppError>)
    requires store.Valid()
    modifies store
    ensures store.Valid()
    ensures Find(old(store.users), Email, email).None? ==> r == Err(Erru.ErrUserNotFound) && unchanged(store)
    ensures Find(old(store.users), Email, email).Some? && fast.GetVerificationCode(email) != Some(code) ==>
      r == Err(Erru.New(WrongCode)) && unchanged(store)
    ensures Find(old(store.users), Email, email).Some? && fast.GetVerificationCode(email) == Some(code) ==>
      var u := Find(old(store.users), Email, email).value;
      (Matches(u.password, password) ==> r == Err(Erru.New(SamePassword)) && unchanged(store)) &&
      (!Matches(u.password, password) ==>
        r == Ok(()) && 1 <= u.id <= |old(store.users)| &&
        store.users == old(store.users)[u.id - 1 := u.(password := Hash(password))])
  {
    var found := Find(store.users, Email, email);
    if found.None? {
      return Err(Erru.ErrUserNotFound);
    }
    var u := found.value;
    var stored := fast.GetVerificationCode(email);
    if stored.None? || stored.value != code {
      return Err(Erru.New(WrongCode));
    }
    if Matches(u.password, password) {
      return Err(Erru.New(SamePassword));
    }
    FoundIsRow(store, Email, email);
    store.UpdatePassword(u.id, Hash(password));
    return Ok(());
  }

  /** After a reset the new password logs in and the old one no longer does. */
  lemma ResetThenLogin(users: seq<User>, i: nat, oldPassword: string, newPassword: string)
    requires Unique(users, Email) && i < |users| && '@' in users[i].email
    requires Matches(users[i].password, oldPassword) && oldPassword != newPassword
    ensures var after := users[i := users[i].(password := Hash(newPassword))];
      Login(after, users[i].email, newPassword) == Ok(after[i]) &&
      Login(after, users[i].email, oldPassword) == Err(Erru.ErrPasswordIncorrect)
  {
    var after := users[i := users[i].(password := Hash(newPassword))];
    assert forall j :: 0 <= j < |users| ==> KeyOf(after[j], Email) == KeyOf(users[j], Email);
    LoginByEmail(after, i, newPassword);
    LoginByEmail(after, i, oldPassword);
  }

  /** A registered user logs in with their e-mail address and password. */
  lemma RegisteredCanLogin(users: seq<User>, username: string, email: string, password: string)
    requires Unique(users, Email) && Find(users, Email, email).None? && '@' in email
    ensures var u := User(|users| + 1, username, email, Hash(password));
      Login(users + [u], email, password) == Ok(u)
  {
    var u := User(|users| + 1, username, email, Hash(password));
    var after := users + [u];
    assert after[|users|] == u;
    assert Unique(after, Email);
    LoginByEmail(after, |users|, password);
  }
}

=== FILE: wrappers.dfy ===
/** Option and Result, the failure-carrying values used across the model. */
module Wrappers {

  datatype Option<+T> = None | Some(value: T)

  /** A Go `(value, error)` pair in which exactly one side is meaningful. */
  datatype Result<+T, +E> = Ok(value: T) | Err(error: E)
}
